=== FILE: README.md ===
# Ukrainian pagan calendar — a Dafny model

This project models the core of a calendar of Ukrainian pagan holidays. The system has two halves.

**The data pipeline** is a set of Python scripts.

- `extract_dates_from_epub.py` finds dates such as "30 листопада" or "17 / 30 січня" in the text of a book. It normalises each date to "DD.MM", takes the context around it and an upper-case event name before a `--`, and classifies the context as pagan or not by keyword lists.
- `generate_full_calendar.py` merges an existing CSV calendar with the extracted events into a 366-day CSV.
- `create_final_calendar.py` builds a 365-day CSV from the rows of the existing calendar that have content.
- `database/import_csv.py` upserts a calendar CSV into the `events` table.

**The backend** is an Express service over a relational store.

- The public event routes, the admin routes and the notification routes.
- The push-notification service: fan-out through a messaging gateway, with a record of each dispatch.
- The two scheduled jobs: the daily notification job and the weekly token clean-up.
- The Google Calendar link and the iCalendar export.

## How the model is built

The store is an immutable value, `Store.Db`. It holds the rows of `events`, `event_images`, `device_tokens`, `user_preferences` and `notifications`, plus the next serial value of each table. Every route is a pure function from a store and a request to a reply and a new store.

Things the model cannot see become parameters:

- a failing database call is a `fails` flag or a `Faults` record;
- the clock is a `today`, `now` or `stamp` parameter, and the database clock of the daily run is a `Clock` that gives each insert its own date and time;
- the random file-name suffix is a `suffix` parameter;
- the messaging gateway is a value holding total functions for a single send and a multicast.

Regular expressions are written out by hand with Python's backtracking semantics:

- the date pattern of `normalize_date`, with its `re.sub` and `re.search`;
- the event-name pattern of `extract_event_info`.

`csv.DictReader` rows are records of `Option<string>` fields, where `None` stands for a line that ended before that column.

The helper modules are:

- `Wrappers` (Option);
- `Text` (Python whitespace, `lower`, `strip`, `find`, `split`, `zfill`, decimal text);
- `Gregorian` (days, leap years, and the day normalisation of JavaScript's `Date` constructor);
- `Collections` (filter, stable sort by key, first index, count, chunks);
- `Store`;
- `CalendarCsv` (what the two calendar scripts share).

## Model

| member | source | states |
|---|---|---|
| EventsRoutes.ImagesOf | ukrainian-calendar-app/backend/src/routes/events.ts:18-24 | an event's image list is null exactly when no image belongs to it; otherwise it holds exactly the images of that event (as a multiset), ordered by image order |
| EventsRoutes.ListEvents | ukrainian-calendar-app/backend/src/routes/events.ts:7-44 | a 500 exactly when the query fails; otherwise the list holds exactly the active events, each as often as stored, ordered by (month, day), each with its own images |
| EventsRoutes.GetById | ukrainian-calendar-app/backend/src/routes/events.ts:47-85 | a 500 exactly when a query fails; otherwise a 404 exactly when no active event has the id, and else that stored active event with its images |
| EventsRoutes.GetByDate | ukrainian-calendar-app/backend/src/routes/events.ts:88-126 | a 500 exactly when a query fails; otherwise a 404 exactly when no active event falls on the day and month, and else the first such stored row with its images |
| EventsRoutes.ByMonth | ukrainian-calendar-app/backend/src/routes/events.ts:129-168 | a 500 exactly when the query fails; otherwise exactly the active events of the month, as a multiset, ordered by day, each with its images |
| EventsRoutes.Upcoming | ukrainian-calendar-app/backend/src/routes/events.ts:171-217 | a 500 exactly when the query fails or the limit is negative; otherwise at most `limit` rows, the upcoming rows in order, each without traditions and preparation (the query does not select them) and with its images |
| EventsRoutes.UpcomingSorted | ukrainian-calendar-app/backend/src/routes/events.ts:201 | the upcoming rows are ordered by (month, day) |
| EventsRoutes.UpcomingDrawn | ukrainian-calendar-app/backend/src/routes/events.ts:195-199 | every upcoming row is a stored active event on or after today within the year, and none is repeated more often than stored |
| EventsRoutes.UpcomingCount | ukrainian-calendar-app/backend/src/routes/events.ts:195-202 | the number of rows is the smaller of the limit and the number of qualifying events |
| EventsRoutes.UpcomingSmallest | ukrainian-calendar-app/backend/src/routes/events.ts:201-202 | a qualifying event left out by the limit comes no earlier than every row returned |
| EventsRoutes.UpcomingNeverWraps | ukrainian-calendar-app/backend/src/routes/events.ts:195-199 | an event earlier in the year than today is never listed, however large the limit |
| AdminRoutes.UpdateEvent | ukrainian-calendar-app/backend/src/routes/admin.ts:44-81 | 500 exactly on a database error; 404 exactly when no event has the id; only the row with that id changes, and it keeps its id |
| AdminRoutes.UpdateCoalesces | ukrainian-calendar-app/backend/src/routes/admin.ts:49-60 | each given field replaces the stored one and each missing field keeps it; day, month and id never change; other rows are untouched |
| AdminRoutes.EmptyPatchChangesNothing | ukrainian-calendar-app/backend/src/routes/admin.ts:49-60 | a request with no fields leaves the store as it was |
| AdminRoutes.UpdateIdempotent | ukrainian-calendar-app/backend/src/routes/admin.ts:44-81 | applying the same patch twice gives the same store as applying it once |
| AdminRoutes.UpdatePreservesWf | ukrainian-calendar-app/backend/src/routes/admin.ts:44-81 | the update keeps ids distinct and keeps the store's one-event-per-date invariant |
| AdminRoutes.Upsert | ukrainian-calendar-app/backend/src/routes/admin.ts:95-106 | when an event exists on the date, it is overwritten in place with its id and active flag kept; otherwise a new active event is appended with the next id; either way the insert draws one value from the id sequence |
| AdminRoutes.CreateEvent | ukrainian-calendar-app/backend/src/routes/admin.ts:84-120 | 400 exactly when day, month or title is missing; 500 exactly on a database error; on 201 the returned event carries the request's date, title, description, traditions and preparation, and the reply and new store are exactly those of `Upsert`, so UpsertKeepsOtherDates and UpsertPreservesWf apply |
| AdminRoutes.UpsertPreservesWf | ukrainian-calendar-app/backend/src/routes/admin.ts:95-106 | the upsert keeps ids distinct and at most one event per (day, month) |
| AdminRoutes.UpsertKeepsOtherDates | ukrainian-calendar-app/backend/src/routes/admin.ts:95-106 | events on other dates survive the upsert unchanged |
| AdminRoutes.CreatePreservesWf | ukrainian-calendar-app/backend/src/routes/admin.ts:84-120 | creating an event keeps the store well formed |
| AdminRoutes.CreateIdempotent | ukrainian-calendar-app/backend/src/routes/admin.ts:95-106 | posting the same event twice leaves the event table as posting it once; only the id sequence moves on, by the one value the second insert draws |
| AdminRoutes.ExtName | ukrainian-calendar-app/backend/src/routes/admin.ts:23 | the extension is empty or is a dot followed by dot-free text that ends the name |
| AdminRoutes.ExtNameOf | ukrainian-calendar-app/backend/src/routes/admin.ts:23 | the extension of "stem.ext" is ".ext" for any non-empty stem and dot-free ext, except for the name ".." |
| AdminRoutes.UploadImage | ukrainian-calendar-app/backend/src/routes/admin.ts:123-171 | 400 exactly when no file is sent; 500 exactly when multer refuses the file or the insert fails; on 201 exactly one image row is appended, with the optimised URL, a title defaulting to "" and an order defaulting to 0 |
| AdminRoutes.ExtensionMatchesAnywhere | ukrainian-calendar-app/backend/src/routes/admin.ts:30-40 | the unanchored type pattern accepts any extension that merely contains an image type name, with a MIME type that names one |
| AdminRoutes.FileFilterRefuses | ukrainian-calendar-app/backend/src/routes/admin.ts:31-35 | the MIME test is case-sensitive and knows no gif: "IMAGE/PNG" and "image/gif" are refused |
| AdminRoutes.NoImageType | ukrainian-calendar-app/backend/src/routes/admin.ts:31 | a text with no 'j', 'p' or 'w' matches none of jpeg, jpg, png and webp |
| AdminRoutes.DeleteImage | ukrainian-calendar-app/backend/src/routes/admin.ts:174-213 | 404 exactly when no image has the id; 500 exactly on a database error; on success the image rows lose exactly the rows with that id |
| AdminRoutes.UploadThenDelete | ukrainian-calendar-app/backend/src/routes/admin.ts:153-157 | deleting the image just uploaded restores the image table |
| AdminRoutes.UploadPreservesWf | ukrainian-calendar-app/backend/src/routes/admin.ts:123-171 | an upload keeps image ids distinct and below the next serial value |
| AdminRoutes.DeletePreservesWf | ukrainian-calendar-app/backend/src/routes/admin.ts:174-213 | a delete keeps the store well formed |
| AdminRoutes.Counts | ukrainian-calendar-app/backend/src/routes/admin.ts:218-225 | each statistic counts rows of its own table and so is bounded by that table's size; the image count is the table size |
| AdminRoutes.AdminStats | ukrainian-calendar-app/backend/src/routes/admin.ts:216-238 | 500 exactly on a database error, otherwise exactly the four counts of the store (`Counts`) |
| AdminRoutes.UploadCountsOneImage | ukrainian-calendar-app/backend/src/routes/admin.ts:218-225 | a successful upload raises the image count by one and changes no other statistic |
| NotificationRoutes.Register | ukrainian-calendar-app/backend/src/routes/notifications.ts:7-67 | 400 exactly when the token or platform is missing; a known token is reactivated in place and keeps its id; a new token gets the next device id and one default preference row; a failing write leaves the store unchanged except when only the preference insert fails |
| NotificationRoutes.ReRegisterReactivates | ukrainian-calendar-app/backend/src/routes/notifications.ts:26-37 | re-registering a token updates the app version, the active flag and the last-active time of that device only |
| NotificationRoutes.RegisterPreservesWf | ukrainian-calendar-app/backend/src/routes/notifications.ts:7-67 | registration keeps tokens and device ids distinct |
| NotificationRoutes.NewDeviceIsRecipient | ukrainian-calendar-app/backend/src/routes/notifications.ts:38-53 | a newly registered device receives the next broadcast |
| NotificationRoutes.OrphanedDeviceIsNoRecipient | ukrainian-calendar-app/backend/src/routes/notifications.ts:38-53 | when the preference insert fails after the device insert, the device is stored but never receives a broadcast |
| NotificationRoutes.RegisterTwice | ukrainian-calendar-app/backend/src/routes/notifications.ts:19-37 | registering the same request twice at the same time stores the same as registering it once |
| NotificationRoutes.UpdatePreferences | ukrainian-calendar-app/backend/src/routes/notifications.ts:70-120 | 400 exactly when the token is missing or empty; 404 exactly when it is unknown; 500 exactly on a database error; only preference rows change |
| NotificationRoutes.PreferencesCoalesce | ukrainian-calendar-app/backend/src/routes/notifications.ts:97-106 | rows of the token's device take each given field and keep each missing one, with the time stamped; other rows are untouched |
| NotificationRoutes.UpdatePreferencesPreservesWf | ukrainian-calendar-app/backend/src/routes/notifications.ts:70-120 | the preference update keeps the store well formed |
| NotificationRoutes.GetPreferences | ukrainian-calendar-app/backend/src/routes/notifications.ts:123-152 | 404 exactly when no preference row joins a device with the token; otherwise such a stored row |
| NotificationRoutes.UpdateThenGet | ukrainian-calendar-app/backend/src/routes/notifications.ts:97-106 | reading the preferences back after an update gives the row the update returned |
| Push.SendPush | ukrainian-calendar-app/backend/src/services/firebaseService.ts:35-63 | nothing is sent before initialisation; otherwise the result is the gateway's verdict on that token and payload |
| Push.JoinedTokens | ukrainian-calendar-app/backend/src/services/firebaseService.ts:79-85 | a device contributes its token exactly when it is active and an enabled preference joins it |
| Push.RecipientsExactly | ukrainian-calendar-app/backend/src/services/firebaseService.ts:79-85 | a token is a recipient exactly when an active device with that token has an enabled preference |
| Push.NoPreferenceNoDelivery | ukrainian-calendar-app/backend/src/services/firebaseService.ts:79-85 | the inner join drops a device with no preference row |
| Push.SendToAll | ukrainian-calendar-app/backend/src/services/firebaseService.ts:68-113 | no multicast happens without initialisation, on a failing query or with no recipients; otherwise all recipients form one batch and the counts are the gateway's, or zero when it throws |
| Push.EventPayload | ukrainian-calendar-app/backend/src/services/firebaseService.ts:133-139 | the title is the event title, the body ends with it, and the data map holds the eventId and date entries followed by the event_reminder type |
| Push.PayloadPadsOnlyMonth | ukrainian-calendar-app/backend/src/services/firebaseService.ts:133-134 | for every event with a month from 1 to 12, the body reads back as "Сьогодні ", the day without padding, a dot, two digits that read back as the month, " - " and the title; the data date pads neither part |
| Push.PayloadDataRoundTrip | ukrainian-calendar-app/backend/src/services/firebaseService.ts:135-139 | the data's event id and date read back as the event's id, day and month |
| Push.SendEventNotification | ukrainian-calendar-app/backend/src/services/firebaseService.ts:118-153 | only the notification log changes, and by at most one record appended at its end |
| Push.DispatchOutcome | ukrainian-calendar-app/backend/src/services/firebaseService.ts:118-153 | a failed lookup and a missing event are told apart exactly; a found event is broadcast with its payload; the record is written exactly when its insert does not fail, and then holds the event, the day, the time and the status |
| Push.Outcome | ukrainian-calendar-app/backend/src/services/firebaseService.ts:118-142 | the lookup fails exactly when it is faulted; no event exactly when no stored row has the id; otherwise the payload of a stored row with that id, recorded exactly when the insert does not fail |
| Push.RecordStatusIffSuccess | ukrainian-calendar-app/backend/src/services/firebaseService.ts:144-147 | a record says "sent" exactly when at least one delivery succeeded |
| Push.UninitialisedGatewayRecordsFailure | ukrainian-calendar-app/backend/src/services/firebaseService.ts:73-75 | without initialisation the broadcast reaches no one and a written record says "failed" |
| Push.OutcomeIgnoresRecords | ukrainian-calendar-app/backend/src/services/firebaseService.ts:118-153 | what a dispatch does depends on everything but the notification log |
| Cron.SchedulesFire | ukrainian-calendar-app/backend/src/services/cronService.ts:11 | the daily job fires exactly at 09:00 and the clean-up exactly at 03:00 on Sundays |
| Cron.TodaysEventIds | ukrainian-calendar-app/backend/src/services/cronService.ts:20-24 | every id found is that of a stored active event on today's day and month |
| Cron.TodaysEventIdsComplete | ukrainian-calendar-app/backend/src/services/cronService.ts:20-24 | every active event of today is found |
| Cron.DispatchAll | ukrainian-calendar-app/backend/src/services/cronService.ts:34-38 | one dispatch per id, in order, the `k`-th inserting with the clock's `k`-th reading; only the notification log grows, and only at its end |
| Cron.DailyJob | ukrainian-calendar-app/backend/src/services/cronService.ts:11-44 | a failing query dispatches nothing; otherwise the job dispatches exactly today's events |
| Cron.DispatchAllOutcome | ukrainian-calendar-app/backend/src/services/cronService.ts:34-38 | each event's outcome is what dispatching it alone on the original store gives |
| Cron.DispatchAllRecords | ukrainian-calendar-app/backend/src/services/cronService.ts:34-38 | the log after the loop is the old log followed by each dispatch's own records, in order, each stamped with that dispatch's own database date and time |
| Cron.QuietDay | ukrainian-calendar-app/backend/src/services/cronService.ts:26-29 | with no event today the job sends nothing and changes nothing |
| Cron.HealthyRunRecordsEachEvent | ukrainian-calendar-app/backend/src/services/cronService.ts:34-38 | without faults each existing event is notified and logged once, in order, with its status and its own insert's date and time |
| Cron.HealthyEventRecorded | ukrainian-calendar-app/backend/src/services/cronService.ts:34-38 | without faults each event of the run is notified and adds exactly its one record, with its status and its own insert's date and time |
| Cron.PacedGap | ukrainian-calendar-app/backend/src/services/cronService.ts:37 | with a one-second pause after every dispatch, the clock advances by at least one second per dispatch |
| Cron.StampsIncrease | ukrainian-calendar-app/backend/src/services/firebaseService.ts:144-147 | the records a run without faults lays down (`OnePerDispatch`, as HealthyRunRecordsEachEvent proves of every such run) carry increasing `sent_at` values under a paced clock: record `k` is at least `k - j` seconds after record `j` |
| Cron.ChristmasScenario | ukrainian-calendar-app/backend/src/services/cronService.ts:11-44 | worked example of HealthyRunRecordsEachEvent: on 25 December with one event and two subscribed devices, one "sent" record with two deliveries is written, stamped with the clock's first reading |
| Cron.Cleanup | ukrainian-calendar-app/backend/src/services/cronService.ts:53-75 | only device rows change, and a failing update changes nothing and reports no count |
| Cron.Deactivate | ukrainian-calendar-app/backend/src/services/cronService.ts:60-66 | only the active flag can change; it changes exactly for a stale device, and the result is never stale |
| Cron.CleanupChangesExactlyStale | ukrainian-calendar-app/backend/src/services/cronService.ts:60-66 | exactly the active devices idle for more than 90 days are deactivated, nothing else in them changes, and the count is the number changed |
| Cron.ChangedCountsStale | ukrainian-calendar-app/backend/src/services/cronService.ts:60-66 | the count reported is the number of stale active devices |
| Cron.CleanupIdempotent | ukrainian-calendar-app/backend/src/services/cronService.ts:60-66 | a second clean-up at the same time changes nothing and reports 0 |
| Cron.CleanupPreservesWf | ukrainian-calendar-app/backend/src/services/cronService.ts:53-75 | the clean-up keeps the store well formed |
| Gregorian.MakeDateOfValid | ukrainian-calendar-app/backend/src/services/googleCalendarService.ts:54 | the Date constructor on a real day (year outside 0..99) gives that day |
| Gregorian.MakeDateNextDay | ukrainian-calendar-app/backend/src/services/googleCalendarService.ts:55 | day + 1 through the Date constructor is the next calendar day, across month and year ends |
| Gregorian.MakeDateLeapDayOfCommonYear | ukrainian-calendar-app/backend/src/services/googleCalendarService.ts:54 | 29 February of a common year rolls over to 1 March |
| ICal.FormatDateOnly | ukrainian-calendar-app/backend/src/services/googleCalendarService.ts:61-66 | the date text of a four-digit year is eight digits |
| ICal.FormatDateOnlyRoundTrip | ukrainian-calendar-app/backend/src/services/googleCalendarService.ts:61-66 | reading YYYYMMDD back gives the date |
| ICal.FormatDateOnlyInjective | ukrainian-calendar-app/backend/src/services/googleCalendarService.ts:61-66 | distinct dates have distinct texts |
| ICal.FormatStamp | ukrainian-calendar-app/backend/src/services/googleCalendarService.ts:57-59 | a four-digit year gives a stamp of 16 characters |
| ICal.FormatStampShape | ukrainian-calendar-app/backend/src/services/googleCalendarService.ts:57-59 | the stamp is the date text, 'T', the six clock digits and 'Z' |
| ICal.ClockTextRoundTrip | ukrainian-calendar-app/backend/src/services/googleCalendarService.ts:57-59 | the clock digits read back as hour, minute and second |
| ICal.EscapeDescription | ukrainian-calendar-app/backend/src/services/googleCalendarService.ts:69-71 | the escaped description has no raw newline, and has a carriage return exactly when the description had one |
| ICal.EscapeIsCharMap | ukrainian-calendar-app/backend/src/services/googleCalendarService.ts:69-71 | the two chained replacements are one character-by-character escape |
| ICal.MissingDescriptionIsEmpty | ukrainian-calendar-app/backend/src/services/googleCalendarService.ts:69-71 | a missing description is written as empty |
| ICal.UnescapeEscaped | ukrainian-calendar-app/backend/src/services/googleCalendarService.ts:69-71 | for a text without backslashes, unescaping the escaped text gives it back |
| ICal.EscapedLength | ukrainian-calendar-app/backend/src/services/googleCalendarService.ts:69-71 | escaping adds one character per newline and per comma |
| ICal.EscapedUnchangedIff | ukrainian-calendar-app/backend/src/services/googleCalendarService.ts:69-71 | escaping changes a text exactly when it has a newline or a comma |
| ICal.EscapedLineSafe | ukrainian-calendar-app/backend/src/services/googleCalendarService.ts:69-71 | an escaped text has no newline, and has a carriage return exactly when the input had one |
| ICal.UidInjective | ukrainian-calendar-app/backend/src/services/googleCalendarService.ts:75 | distinct event ids have distinct UIDs |
| ICal.ToVEvent | ukrainian-calendar-app/backend/src/services/googleCalendarService.ts:53-86 | each event becomes a VEVENT with its id, title and description and a valid start and end |
| ICal.EventFields | ukrainian-calendar-app/backend/src/services/googleCalendarService.ts:53-86 | one property set per event, in order |
| ICal.Document | ukrainian-calendar-app/backend/src/services/googleCalendarService.ts:42-91 | the document is the eight header lines, an eleven-line block per event in order, and END:VCALENDAR |
| ICal.GenerateICalendar | ukrainian-calendar-app/backend/src/services/googleCalendarService.ts:42-91 | the output opens the calendar with BEGIN:VCALENDAR and a CRLF |
| ICal.EventBlockShape | ukrainian-calendar-app/backend/src/services/googleCalendarService.ts:73-86 | each event's block begins and ends the VEVENT, carries the event's UID and recurs yearly |
| ICal.EventSpansOneDay | ukrainian-calendar-app/backend/src/services/googleCalendarService.ts:54-55 | an event on a real day starts on that day and ends on the next |
| ICal.DateRollovers | ukrainian-calendar-app/backend/src/services/googleCalendarService.ts:54-55 | for every year past 99: an event on 31 December ends on 1 January of the next year, one on the last day of another month ends on the first of the next month, and one on 29 February of a common year starts on 1 March |
| ICal.DateRolloversIn2025 | ukrainian-calendar-app/backend/src/services/googleCalendarService.ts:54-66 | worked example of DateRollovers: the same rollovers as texts for 2025: 31 December ends on 20260101 and 29 February starts on 20250301 |
| ICal.ICalendarReadsBack | ukrainian-calendar-app/backend/src/services/googleCalendarService.ts:91 | when no title or description has a carriage return, splitting the output on CRLF gives back exactly the lines joined |
| ICal.DocumentReadsBack | ukrainian-calendar-app/backend/src/services/googleCalendarService.ts:91 | the CRLF join of a document whose fields are free of carriage returns splits back into its lines |
| ICal.LinkSpansOneDay | ukrainian-calendar-app/backend/src/services/googleCalendarService.ts:14-33 | the link's dates parameter is the event's day and the next day, separated by a slash |
| ICal.CalendarLink | ukrainian-calendar-app/backend/src/services/googleCalendarService.ts:25-33 | the link goes to the render URL with five parameters whose names are all distinct |
| ICal.LinkReadsBack | ukrainian-calendar-app/backend/src/services/googleCalendarService.ts:14-33 | looking the parameters up by name gives back the template action, the title as text, the description as details and the Kyiv time zone, and the dates value splits at its slash into the event's day and the next day |
| EpubExtract.MonthKeysDistinct | extract_dates_from_epub.py:14-27 | no word names two months |
| EpubExtract.LookupNamesMonth | extract_dates_from_epub.py:14-27 | a word naming month i looks up month number i + 1 |
| EpubExtract.NameAndAbbreviationAgree | extract_dates_from_epub.py:14-27 | a month's genitive name and its abbreviation map to the same number |
| EpubExtract.SearchDayMonth | extract_dates_from_epub.py:124 | the search finds a match exactly when one exists from the position on, and what it returns is a match at some such position: one or two digits, spaces, one or more word characters |
| EpubExtract.SearchDayMonthLeftmost | extract_dates_from_epub.py:124 | the search returns the match at the first position that has one |
| EpubExtract.NormalizeDate | extract_dates_from_epub.py:118-135 | every result has the form DD.MM |
| EpubExtract.NormalizeDayMonth | extract_dates_from_epub.py:118-135 | a day, spaces and a month word normalise to the zero-filled day, a dot and the month number |
| EpubExtract.UnknownMonthRejected | extract_dates_from_epub.py:131-133 | a word that names no month gives no date |
| EpubExtract.NoDigitRejected | extract_dates_from_epub.py:124-126 | a text without digits gives no date |
| EpubExtract.IsPaganContent | extract_dates_from_epub.py:78-92 | a context is pagan exactly when it contains no Christian keyword and some pagan keyword, both compared lower-cased |
| EpubExtract.SecondDayDropped | extract_dates_from_epub.py:121 | "d1/d2 month" normalises as "d1 month" |
| EpubExtract.PaganIffKeyword | extract_dates_from_epub.py:78-92 | with no Christian keyword, the context is pagan exactly when it contains a pagan keyword, ignoring case |
| EpubExtract.ChristianVetoes | extract_dates_from_epub.py:83-85 | a Christian keyword makes the context not pagan whatever else it holds |
| EpubExtract.InsertedChristianVetoes | extract_dates_from_epub.py:83-85 | inserting a Christian keyword anywhere makes a text not pagan |
| EpubExtract.PaganIgnoresCase | extract_dates_from_epub.py:80 | lower-casing the text first does not change the verdict |
| EpubExtract.ContextWindow | extract_dates_from_epub.py:102-104 | the window reaches 300 characters before the date and 800 after, clipped to the text |
| EpubExtract.WindowHoldsDate | extract_dates_from_epub.py:98-104 | the window holds the date at offset min(300, position) |
| EpubExtract.WindowFullWidth | extract_dates_from_epub.py:102-104 | far from both ends the window is 1100 characters wide |
| EpubExtract.NameEnd | extract_dates_from_epub.py:107 | a name end lies 3 to n characters on and is followed by optional spaces and "--" |
| EpubExtract.NameEndLongest | extract_dates_from_epub.py:107 | the greedy group takes the longest end: no later end up to the bound has the dashes |
| EpubExtract.NameEndNone | extract_dates_from_epub.py:107 | when no end is found, no place within the bound has the dashes |
| EpubExtract.NameMatchAt | extract_dates_from_epub.py:107 | a match starts with a capital and continues with 3 to 50 capitals or spaces |
| EpubExtract.SearchName | extract_dates_from_epub.py:108 | a found name is a match of the pattern at the position returned |
| EpubExtract.SearchNameLeftmost | extract_dates_from_epub.py:108 | no match starts before the one returned |
| EpubExtract.SearchNameNone | extract_dates_from_epub.py:108 | when nothing is found, no position matches |
| EpubExtract.EventName | extract_dates_from_epub.py:107-109 | a name is empty or a stripped run of capitals and spaces of at most 51 characters that starts with a capital |
| EpubExtract.EventNameNeedsCapital | extract_dates_from_epub.py:107-109 | a context without capitals has no event name |
| EpubExtract.ExtractEventInfo | extract_dates_from_epub.py:95-115 | no record exactly when the date does not occur; otherwise the stripped window and the name found in the window at the first occurrence |
| EpubExtract.Contribution | extract_dates_from_epub.py:164-181 | a phrase adds nothing exactly when it does not occur in the page or does not normalise; otherwise its key is its DD.MM normalisation and its entry carries the page's file and the pagan verdict on its own context |
| EpubExtract.PagePairs | extract_dates_from_epub.py:158-181 | every pair of a page comes from one of its date phrases |
| EpubExtract.PagePairsComplete | extract_dates_from_epub.py:158-181 | every phrase of a page with text that contributes has its pair among the page's pairs |
| EpubExtract.PairsFromPages | extract_dates_from_epub.py:151-181 | every collected entry comes from a date found on some page, with a normalised key, that page's file and the page's pagan verdict for its context |
| EpubExtract.PairsComplete | extract_dates_from_epub.py:151-181 | every pair of every page is collected |
| EpubExtract.GroupPages | extract_dates_from_epub.py:146-181 | no key holds an empty list, and each entry under a key comes from a date of some page that normalises to the key |
| EpubExtract.GroupPagesComplete | extract_dates_from_epub.py:151-181 | nothing found is lost: every phrase of a page with text that occurs and normalises has its entry under its key |
| EpubExtract.GroupIsEntriesFor | extract_dates_from_epub.py:176-181 | a key is present exactly when some entry was collected for it, and it lists those entries in order |
| EpubExtract.EntriesForFacts | extract_dates_from_epub.py:176-181 | every entry listed under a key was collected with that key |
| EpubExtract.EntriesForComplete | extract_dates_from_epub.py:176-181 | every entry collected with a key is listed under that key |
| EpubExtract.GroupedKeysNormalise | extract_dates_from_epub.py:164-181 | every key is a DD.MM date normalised from a date on some page, and every entry's pagan flag is the verdict on its context |
| CalendarCsv.YearTexts | generate_full_calendar.py:59-69 | the list has one DD.MM text per day of the year, in order |
| CalendarCsv.YearTextsDistinct | generate_full_calendar.py:59-69 | no day is listed twice |
| CalendarCsv.YearTextsEnds | generate_full_calendar.py:59-69 | the list runs from 01.01 to 31.12 |
| CalendarCsv.YearTextsListed | generate_full_calendar.py:59-69 | every day of the year is listed |
| CalendarCsv.LeapDayListed | generate_full_calendar.py:62-64 | 29.02 is listed exactly in leap years |
| CalendarCsv.YearTextMonth | generate_full_calendar.py:174 | the month read back from a listed text is that day's month |
| CalendarCsv.Readable | generate_full_calendar.py:17-41 | the rows read are the prefix before the first line without a date column |
| CalendarCsv.ReadableStops | generate_full_calendar.py:17-41 | a line without a date column hides every line after it |
| CalendarCsv.CollectKeys | generate_full_calendar.py:32-37 | a key is present exactly when some accepted row stored under it |
| CalendarCsv.CollectHolds | generate_full_calendar.py:32-37 | whatever a key holds, some row stored it there |
| CalendarCsv.CollectLast | generate_full_calendar.py:32-37 | a key holds what the last row stored under it |
| FullCalendar.AllDatesFacts | generate_full_calendar.py:59-69 | the 366 texts are distinct, run from 01.01 to 31.12 and include 29.02 |
| FullCalendar.JunkHasNoDot | generate_full_calendar.py:23 | the junk list is subsumed by the dot test |
| FullCalendar.ExistingKey | generate_full_calendar.py:23-31 | a key exists exactly when the date has two dot-separated parts that are digits once quotes are stripped; the key is zero-filled DD.MM |
| FullCalendar.ExistingKeyFixesPadded | generate_full_calendar.py:23-31 | a zero-filled DD.MM date is its own key |
| FullCalendar.ExistingEntry | generate_full_calendar.py:21-37 | an accepted row is keyed by its date and stores stripped fields |
| FullCalendar.LoadedKeys | generate_full_calendar.py:13-44 | a key is loaded exactly when a readable row is accepted under it |
| FullCalendar.LoadExistingCsv | generate_full_calendar.py:13-44 | every loaded date holds the columns of some accepted row read before the first line without a date column |
| FullCalendar.LoadedKeysPadded | generate_full_calendar.py:31 | every loaded key is zero-filled DD.MM |
| FullCalendar.LoadedLastRowWins | generate_full_calendar.py:32 | the last accepted row for a key wins |
| FullCalendar.DatelessLineEndsLoading | generate_full_calendar.py:38-41 | a line without a date column ends the loading with the rows before it |
| FullCalendar.CleanText | generate_full_calendar.py:72-80 | the cleaned text is stripped, and a missing or empty text gives "" |
| FullCalendar.CleanTextKeepsPlain | generate_full_calendar.py:72-80 | cleaning leaves a stripped text without quotes or ";;;;" unchanged |
| FullCalendar.ChosenIndex | generate_full_calendar.py:89-95 | the first pagan event is chosen, or the first event when none is pagan |
| FullCalendar.Describe | generate_full_calendar.py:98-107 | a description has at most 1003 characters and no "Літ.:" |
| FullCalendar.DescribeKeepsShort | generate_full_calendar.py:102-107 | a short context without "Літ.:" is kept as it is |
| FullCalendar.DescribeShortensLong | generate_full_calendar.py:106-107 | a longer context keeps its first 1000 characters followed by "..." |
| FullCalendar.ExtractEventDetails | generate_full_calendar.py:83-109 | no events give empty details; otherwise the chosen event's cleaned name, the description of its cleaned context (at most 1003 characters, free of "Літ.:"), and empty traditions |
| FullCalendar.SeasonalInfo | generate_full_calendar.py:112-128 | a month outside 1..12 gives two empty texts |
| FullCalendar.SeasonTableAgrees | generate_full_calendar.py:114-127 | every month has its season and a non-empty note |
| FullCalendar.EveryDateHasSeason | generate_full_calendar.py:174-175 | every listed day's month has a season |
| FullCalendar.WriteRows | generate_full_calendar.py:149-181 | one row per date, as the three priorities choose it, and the filled count |
| FullCalendar.GenerateCalendarCsv | generate_full_calendar.py:131-181 | 366 rows in calendar order; existing data wins, then extracted details, then empty fields |
| FullCalendar.CsvDaysAreFilled | generate_full_calendar.py:153-169 | every day taken from the existing CSV counts as filled |
| FinalCalendar.Days365Facts | create_final_calendar.py:54-64 | the 365 texts are distinct, run from 01.01 to 31.12 and leave out 29.02 |
| FinalCalendar.Unwrap | create_final_calendar.py:19 | the unwrapped text has no surrounding quotes |
| FinalCalendar.JunkHasNoDot | create_final_calendar.py:22 | the junk list is subsumed by the dot test |
| FinalCalendar.QualityKey | create_final_calendar.py:26-30 | a key exists exactly when the date has two dot-separated parts |
| FinalCalendar.QualityKeyOfPieces | create_final_calendar.py:19-30 | "a.b" is keyed as zero-filled a, a dot and zero-filled b |
| FinalCalendar.QualityEntry | create_final_calendar.py:19-44 | a row with all columns is stored exactly when its event is non-empty or its description is longer than 50 characters; stored fields carry no quotes |
| FinalCalendar.LoadQualityData | create_final_calendar.py:11-51 | every stored day has content |
| FinalCalendar.StoredRowsHaveContent | create_final_calendar.py:37-44 | every stored day has content and came from a readable row |
| FinalCalendar.QualityLastRowWins | create_final_calendar.py:39 | the last accepted row for a key wins |
| FinalCalendar.DatelessLineEndsQualityLoading | create_final_calendar.py:45-48 | a line without a date column ends the loading with the rows before it |
| FinalCalendar.WriteRows | create_final_calendar.py:81-97 | one row per date, with the stored details or empty ones, and the filled count |
| FinalCalendar.CreateFinalCsv | create_final_calendar.py:67-97 | 365 rows in calendar order, each with the quality data of its day or empty fields |
| FinalCalendar.LeapDayDropped | create_final_calendar.py:54-64 | no output row is dated 29.02 |
| CsvImport.ParseIntDigits | ukrainian-calendar-app/database/import_csv.py:100-101 | int() of a digit string is its decimal value |
| CsvImport.ParseInt | ukrainian-calendar-app/database/import_csv.py:100-101 | a digit text with spaces around reads as its value, and a negative result needs a leading minus |
| CsvImport.ParseIntReadsBack | ukrainian-calendar-app/database/import_csv.py:100-101 | the decimal text of any integer, sign included, reads back as that integer |
| CsvImport.Fmt02RoundTrip | ukrainian-calendar-app/database/import_csv.py:110 | the two-digit format of a number reads back as that number |
| CsvImport.DateNumbers | ukrainian-calendar-app/database/import_csv.py:94-101 | numbers come only from a non-empty date of exactly two dot-separated parts |
| CsvImport.RowItem | ukrainian-calendar-app/database/import_csv.py:103-114 | a missing column aborts the import; otherwise the row keeps its day and month, stripped fields and a non-empty title |
| CsvImport.ParseRow | ukrainian-calendar-app/database/import_csv.py:94-116 | an abort needs a missing column; a kept row has a non-empty title and stripped fields |
| CsvImport.ReadsCalendarRow | ukrainian-calendar-app/database/import_csv.py:94-114 | a row written by the calendar scripts reads back as its day, month and stripped fields, with "День DD.MM" for an empty title |
| CsvImport.CalendarDateNumbers | ukrainian-calendar-app/database/import_csv.py:99-101 | a DD.MM text reads back as its day and month |
| CsvImport.DefaultTitleOfDate | ukrainian-calendar-app/database/import_csv.py:109-110 | the default title of a day is "День " followed by its DD.MM text |
| CsvImport.GatherAborts | ukrainian-calendar-app/database/import_csv.py:93-116 | the read aborts exactly when some row aborts |
| CsvImport.EventsData | ukrainian-calendar-app/database/import_csv.py:90-116 | the data is missing exactly when some row raises |
| CsvImport.GatherKeeps | ukrainian-calendar-app/database/import_csv.py:112-114 | every kept row is gathered |
| CsvImport.GatherOnlyKeeps | ukrainian-calendar-app/database/import_csv.py:112-114 | only kept rows are gathered |
| CsvImport.EventsDataFacts | ukrainian-calendar-app/database/import_csv.py:90-116 | the data aborts exactly when a row aborts, and otherwise holds exactly the kept rows' items |
| CsvImport.ImportCsvData | ukrainian-calendar-app/database/import_csv.py:84-141 | only events change; an abort, a database error or a page with two rows for one date leaves the store unchanged |
| CsvImport.ApplyAllConcat | ukrainian-calendar-app/database/import_csv.py:131 | upserting two lists in turn is upserting their concatenation |
| CsvImport.ApplyPages | ukrainian-calendar-app/database/import_csv.py:118-131 | running the statements changes only the event table and the id sequence |
| CsvImport.ApplyPagesFlatten | ukrainian-calendar-app/database/import_csv.py:131 | paging does not change what a successful import stores |
| CsvImport.ImportIsUpsertOfAll | ukrainian-calendar-app/database/import_csv.py:118-133 | a committed import is the row-by-row upsert of all items |
| CsvImport.ImportPreservesWf | ukrainian-calendar-app/database/import_csv.py:118-140 | the import keeps ids distinct and one event per date |
| CsvImport.ImportLastRowWins | ukrainian-calendar-app/database/import_csv.py:123-129 | the last row for a date decides what is stored for it |
| CsvImport.ImportKeepsOtherDates | ukrainian-calendar-app/database/import_csv.py:118-133 | events on dates the CSV does not mention survive unchanged |
| CsvImport.PageHasNoDuplicate | ukrainian-calendar-app/database/import_csv.py:131 | distinct dates give pages without a repeated date |
| CsvImport.DistinctDatesCommit | ukrainian-calendar-app/database/import_csv.py:118-133 | a CSV with distinct dates is imported in full |

## Left out

- schema.sql is not part of this model. Its column defaults are assumed: a new preference row is enabled, has no time and is not synced; a new device is active with `last_active_at` at the time of registration (notifications.ts:40-44 leaves both to the schema); a new event is active (admin.ts:95-96 leaves `is_active` to the schema). No foreign keys are assumed.
- The one-event-per-(day, month) invariant stands for the `ON CONFLICT (date_day, date_month)` unique constraint that the upserts rely on.
- Logging, console statistics and the printed examples are left out, because they change no state. The one-second pause between notifications is modelled only through its effect on the database clock (`Paced`).
- The daily run's `today`, the JavaScript date used by the event query, and the dates the database clock gives each insert are independent parameters. The model does not relate them, so a run that crosses midnight is covered but not singled out.
- Firebase initialisation from credentials is left out because it is foreign code. It is a flag on the gateway value.
- File I/O is left out: reading the CSV and JSON files, the EPUB directory listing, HTML text extraction with BeautifulSoup, and writing the output files. Each script's pure core is modelled on the rows or texts those steps would give.
- The IO-error handlers of the loaders are left out. Only the "missing date column" exception path is modelled.
- `find_dates_in_text` is not modelled. The pages carry the date strings it would return.
- The JSON written by the extraction script is modelled as a map from key to entry list. Key order is not modelled.
- Database connection, `create_database_if_not_exists`, `create_schema` and `verify_import` are left out because they do not touch event data.
- In the import, `fails` stands for any database error other than a page with a repeated date. Serial values drawn by an import that is rolled back are not modelled: a failed import returns the store as it was.
- `updated_at` columns are not modelled, because no route reads them.
- `sharp` resizing, file unlinking and multer's directory creation are left out because they are foreign code. The optimised URL is modelled.
- Multipart body fields are strings on the wire. The model takes the title as text and the order as a number.
- Non-numeric path ids make the database throw, which answers 500. The model takes ids as integers.
- URL percent-encoding of the Google Calendar link is left out. The link is modelled as its base and its parameter pairs.
- `toISOString` is modelled for four-digit years only. Local time against UTC is left out: every date is a calendar day.
- One DTSTAMP for all events is taken as a parameter.
- The season information computed for empty days is modelled by `SeasonalInfo` and its lemmas. The script never writes it out.
- Text.Lower: lower-cases ASCII, А–Я, Ѐ–Џ and the paired capitals from Ѡ to Ҁ and from Ҋ to Ҿ. The range U+04C0–U+04FF and all other scripts are left as they are. The keyword lists and month names need only Ukrainian and Russian letters.
- `\d` is modelled as the ASCII digits. `\w` is modelled as ASCII letters, digits, underscore and the Cyrillic block U+0400–U+0481 and U+048A–U+04FF. Python's Unicode classes beyond these ranges are not modelled.
- FullCalendar.ExistingKey: Python's `str.isdigit()` also accepts non-ASCII digits such as superscripts and Arabic-Indic digits. The model accepts only the ASCII digits (`Text.IsDigit`).
- `int()` is modelled with surrounding whitespace and an optional sign (`ParseInt`). Underscores between digits and non-ASCII digits are not modelled.
- AdminRoutes.Counts: its contract bounds each statistic by its table's size rather than restating each count. The exact effect of an upload is stated by `UploadCountsOneImage`.
- EpubExtract.EventNameNeedsCapital: the absence of any capital is stronger than the pattern needs. It is the simplest all-inputs statement of when no name is found.
- The `INTERVAL '90 days'` of the clean-up is modelled as 90 × 86400 seconds. Days that daylight-saving changes make 23 or 25 hours long are not modelled.
- The event views carry whole rows, while the JSON of the event routes holds fewer columns. The list, month and upcoming routes (events.ts:10-17, 134-141, 180-185) do not select `is_active`, while the lookups by id and by date select `e.*` and so return it. The image objects hold only the id, URL and title. The model keeps the active flag, which is true in every row returned, and keeps each image's event id and order. The upcoming route's missing `traditions` and `preparation` are modelled as `None`.
- The push-token query (firebaseService.ts:79-85) and the query for today's events (cronService.ts:20-24) have no ORDER BY, so the database may return their rows in any order. The model fixes both to store order: `Push.SendToAll` hands the gateway `Recipients(db)` in device order, and `Cron.TodaysEventIds` dispatches in event-table order.

=== FILE: admin_routes.dfy ===
/** The write routes under `/api/admin`: partial update and upsert of events, image upload
    behind the `multer` file filter, image removal, and the dashboard counts. A handler maps
    the store to its reply and the store after the request; `fails` stands for a database
    statement (or the image conversion) throwing, which the handler turns into a 500. */
module AdminRoutes {
  import opened Wrappers
  import opened Text
  import opened Collections
  import opened Store

  // ---------------------------------------------------------------------------
  // PUT /events/:id
  // ---------------------------------------------------------------------------

  /** The body of PUT `/events/:id`; `None` is a field sent as null or left out. */
  datatype EventPatch = EventPatch(
    title: Option<string>, description: Option<string>, traditions: Option<string>,
    preparation: Option<string>, isActive: Option<bool>)

  const EmptyPatch := EventPatch(None, None, None, None, None)

  /** The `SET` list of the update applied to one row. */
  function Patched(e: Event, p: EventPatch): Event {
    e.(title := Coalesce(p.title, e.title),
       description := CoalesceNull(p.description, e.description),
       traditions := CoalesceNull(p.traditions, e.traditions),
       preparation := CoalesceNull(p.preparation, e.preparation),
       active := Coalesce(p.isActive, e.active))
  }

  /** `UPDATE events SET ... WHERE id = $6` on every row. */
  function PatchWhere(id: int, p: EventPatch): Event -> Event {
    (e: Event) => if e.id == id then Patched(e, p) else e
  }

  function HasId(id: int): Event -> bool {
    (e: Event) => e.id == id
  }

  /** PUT `/events/:id`: the updated row (the first `RETURNING` row), 404 when no row has
      that id. */
  function UpdateEvent(db: Db, id: int, p: EventPatch, fails: bool): (r: (Reply<Event>, Db))
    ensures r.0.Ok? || r.0.NotFound? || r.0.ServerError?
    ensures r.0.ServerError? <==> fails
    ensures r.0.NotFound? <==> !fails && forall i :: 0 <= i < |db.events| ==> db.events[i].id != id
    ensures !r.0.Ok? ==> r.1 == db
    ensures r.0.Ok? ==> r.1 == db.(events := r.1.events) && |r.1.events| == |db.events|
    ensures r.0.Ok? ==> r.0.value.id == id && r.0.value in r.1.events
    ensures r.0.Ok? ==> forall i :: 0 <= i < |db.events| && db.events[i].id != id ==>
      r.1.events[i] == db.events[i]
  {
    if fails then (ServerError, db)
    else
      match FirstIndex(db.events, HasId(id))
      case None => (NotFound, db)
      case Some(k) =>
        var events := Map(db.events, PatchWhere(id, p));
        (Ok(events[k]), db.(events := events))
  }

  /** The update keeps every field sent as null or left out, takes every field that is given,
      never moves an event to another day, and leaves rows with other ids alone. */
  lemma UpdateCoalesces(db: Db, id: int, p: EventPatch, i: int)
    requires 0 <= i < |db.events|
    ensures var (e, e') := (db.events[i], UpdateEvent(db, id, p, false).1.events[i]);
      && (e.id != id ==> e' == e)
      && (e.id == id ==>
        && e'.id == e.id && e'.day == e.day && e'.month == e.month
        && e'.title == (if p.title.Some? then p.title.value else e.title)
        && e'.description == (if p.description.Some? then p.description else e.description)
        && e'.traditions == (if p.traditions.Some? then p.traditions else e.traditions)
        && e'.preparation == (if p.preparation.Some? then p.preparation else e.preparation)
        && e'.active == (if p.isActive.Some? then p.isActive.value else e.active))
  {
    var r := UpdateEvent(db, id, p, false);
    if r.0.Ok? {
      assert r.1.events == Map(db.events, PatchWhere(id, p));
    }
  }

  /** An update with no fields changes nothing. */
  lemma EmptyPatchChangesNothing(db: Db, id: int)
    ensures UpdateEvent(db, id, EmptyPatch, false).1 == db
  {
    var r := UpdateEvent(db, id, EmptyPatch, false);
    if r.0.Ok? {
      forall i | 0 <= i < |db.events| ensures r.1.events[i] == db.events[i] {
        UpdateCoalesces(db, id, EmptyPatch, i);
      }
    }
  }

  /** Sending the same update twice leaves the store as sending it once. */
  lemma UpdateIdempotent(db: Db, id: int, p: EventPatch)
    ensures var db' := UpdateEvent(db, id, p, false).1;
      UpdateEvent(db', id, p, false).1 == db'
  {
    var db' := UpdateEvent(db, id, p, false).1;
    var db'' := UpdateEvent(db', id, p, false).1;
    assert |db'.events| == |db.events|;
    forall i | 0 <= i < |db.events| ensures db''.events[i] == db'.events[i] {
      UpdateCoalesces(db, id, p, i);
      UpdateCoalesces(db', id, p, i);
    }
  }

  /** Ids, the id sequence and the (day, month) key are not touched, so the constraints hold. */
  lemma UpdatePreservesWf(db: Db, id: int, p: EventPatch, fails: bool)
    requires Wf(db)
    ensures Wf(UpdateEvent(db, id, p, fails).1)
  {
    var db' := UpdateEvent(db, id, p, fails).1;
    if !fails {
      forall i | 0 <= i < |db.events|
        ensures db'.events[i].id == db.events[i].id
        ensures db'.events[i].day == db.events[i].day && db'.events[i].month == db.events[i].month
      {
        UpdateCoalesces(db, id, p, i);
      }
    }
  }

  // ---------------------------------------------------------------------------
  // POST /events
  // ---------------------------------------------------------------------------

  /** The body of POST `/events`; `None` is a field sent as null or left out. */
  datatype NewEvent = NewEvent(
    dateDay: Option<int>, dateMonth: Option<int>, title: Option<string>,
    description: Option<string>, traditions: Option<string>, preparation: Option<string>)

  /** The handler's guard `!dateDay || !dateMonth || !title` does not reject the body. */
  predicate HasRequired(b: NewEvent) {
    TruthyInt(b.dateDay) && TruthyInt(b.dateMonth) && TruthyText(b.title)
  }

  function OnDate(day: int, month: int): Event -> bool {
    (e: Event) => e.day == day && e.month == month
  }

  /** `INSERT ... ON CONFLICT (date_day, date_month) DO UPDATE SET title = EXCLUDED.title, ...`:
      the first row on that date gets the four text columns of the body (an absent description,
      traditions or preparation becomes NULL) and keeps its id and `is_active`; with no such row
      a new active row takes the next id. Either way the insert draws a value from the `id`
      sequence first, so a conflicting insert still advances `nextEventId`. */
  function Upsert(db: Db, day: int, month: int, title: string, description: Option<string>,
                  traditions: Option<string>, preparation: Option<string>): (r: (Event, Db))
    ensures r.0.day == day && r.0.month == month && r.0.title == title
    ensures r.0.description == description && r.0.traditions == traditions
    ensures r.0.preparation == preparation && r.0 in r.1.events
    ensures r.1 == db.(events := r.1.events, nextEventId := r.1.nextEventId)
    ensures match FirstIndex(db.events, OnDate(day, month))
      case Some(k) =>
        && r.0.id == db.events[k].id && r.0.active == db.events[k].active
        && r.1.events == db.events[k := r.0] && r.1.nextEventId == db.nextEventId + 1
      case None =>
        && r.0.id == db.nextEventId && r.0.active
        && r.1.events == db.events + [r.0] && r.1.nextEventId == db.nextEventId + 1
  {
    match FirstIndex(db.events, OnDate(day, month))
    case Some(k) =>
      var e := db.events[k].(title := title, description := description,
                             traditions := traditions, preparation := preparation);
      assert db.events[k := e][k] == e;
      (e, db.(events := db.events[k := e], nextEventId := db.nextEventId + 1))
    case None =>
      var e := Event(db.nextEventId, day, month, title, description, traditions, preparation, true);
      assert (db.events + [e])[|db.events|] == e;
      (e, db.(events := db.events + [e], nextEventId := db.nextEventId + 1))
  }

  /** POST `/events`: 400 when the day, the month or the title is falsy, so 0 and "" are
      rejected like missing fields; otherwise the upsert's row with 201. */
  function CreateEvent(db: Db, b: NewEvent, fails: bool): (r: (Reply<Event>, Db))
    ensures r.0.Created? || r.0.BadRequest? || r.0.ServerError?
    ensures r.0.BadRequest? <==> !HasRequired(b)
    ensures r.0.ServerError? <==> HasRequired(b) && fails
    ensures !r.0.Created? ==> r.1 == db
    ensures r.0.Created? ==>
      r.0.value.day == b.dateDay.value && r.0.value.month == b.dateMonth.value &&
      r.0.value.title == b.title.value && r.0.value in r.1.events
    ensures r.0.Created? ==>
      r.0.value.description == b.description && r.0.value.traditions == b.traditions &&
      r.0.value.preparation == b.preparation
    ensures r.0.Created? ==>
      (r.0.value, r.1) == Upsert(db, b.dateDay.value, b.dateMonth.value, b.title.value,
                                 b.description, b.traditions, b.preparation)
  {
    if !HasRequired(b) then (BadRequest, db)
    else if fails then (ServerError, db)
    else
      var (e, db') := Upsert(db, b.dateDay.value, b.dateMonth.value, b.title.value,
                             b.description, b.traditions, b.preparation);
      (Created(e), db')
  }

  /** An upsert keeps at most one row per (day, month) and distinct ids below the sequence. */
  lemma UpsertPreservesWf(db: Db, day: int, month: int, title: string, description: Option<string>,
                          traditions: Option<string>, preparation: Option<string>)
    requires Wf(db)
    ensures Wf(Upsert(db, day, month, title, description, traditions, preparation).1)
  {
    var (e, db') := Upsert(db, day, month, title, description, traditions, preparation);
    match FirstIndex(db.events, OnDate(day, month))
    case Some(k) =>
      ReplaceEventWf(db, k, e);
      WfWithEvents(db, db'.events, db'.nextEventId);
    case None =>
      AppendEventWf(db, e);
      WfWithEvents(db, db'.events, db'.nextEventId);
  }

  /** A row rewritten in place, keeping its id and date, keeps the event table's constraints. */
  lemma ReplaceEventWf(db: Db, k: int, e: Event)
    requires EventsWf(db) && 0 <= k < |db.events|
    requires e.id == db.events[k].id && e.day == db.events[k].day && e.month == db.events[k].month
    ensures EventsWf(db.(events := db.events[k := e]))
  {
    var events := db.events[k := e];
    assert forall i :: 0 <= i < |db.events| ==> events[i] == if i == k then e else db.events[i];
  }

  /** A row with the next id and a date no row has can be appended to the event table. */
  lemma AppendEventWf(db: Db, e: Event)
    requires EventsWf(db) && e.id == db.nextEventId
    requires forall i :: 0 <= i < |db.events| ==> (db.events[i].day, db.events[i].month) != (e.day, e.month)
    ensures EventsWf(db.(events := db.events + [e], nextEventId := db.nextEventId + 1))
  {
    var events := db.events + [e];
    assert forall i :: 0 <= i < |db.events| ==> events[i] == db.events[i];
    assert events[|db.events|] == e;
  }

  /** An upsert leaves every row on another date in the table. */
  lemma UpsertKeepsOtherDates(db: Db, day: int, month: int, title: string, description: Option<string>,
                              traditions: Option<string>, preparation: Option<string>, e: Event)
    requires e in db.events && (e.day != day || e.month != month)
    ensures e in Upsert(db, day, month, title, description, traditions, preparation).1.events
  {
    var db' := Upsert(db, day, month, title, description, traditions, preparation).1;
    var i :| 0 <= i < |db.events| && db.events[i] == e;
    match FirstIndex(db.events, OnDate(day, month))
    case Some(k) =>
      assert db'.events[i] == e;
    case None =>
      assert db'.events[i] == e;
  }

  /** After a POST there is still at most one row per (day, month), and ids stay distinct. */
  lemma CreatePreservesWf(db: Db, b: NewEvent, fails: bool)
    requires Wf(db)
    ensures Wf(CreateEvent(db, b, fails).1)
  {
    if HasRequired(b) && !fails {
      UpsertPreservesWf(db, b.dateDay.value, b.dateMonth.value, b.title.value, b.description,
                        b.traditions, b.preparation);
    }
  }

  /** Posting the same body twice leaves the event table as posting it once: the second insert
      meets the first one's row and rewrites it with the same values. Only the id sequence
      moves on, by the value the conflicting insert drew. */
  lemma CreateIdempotent(db: Db, b: NewEvent)
    ensures var db' := CreateEvent(db, b, false).1;
      var db'' := CreateEvent(db', b, false).1;
      && db''.events == db'.events
      && db'' == db'.(nextEventId := db''.nextEventId)
      && db''.nextEventId == if HasRequired(b) then db'.nextEventId + 1 else db'.nextEventId
  {
    if HasRequired(b) {
      var (day, month) := (b.dateDay.value, b.dateMonth.value);
      var (e, db') := Upsert(db, day, month, b.title.value, b.description, b.traditions,
                             b.preparation);
      var onDate := OnDate(day, month);
      var k := match FirstIndex(db.events, onDate) case Some(k) => k case None => |db.events|;
      assert db'.events[k] == e && onDate(e);
      assert forall j :: 0 <= j < k ==> db'.events[j] == db.events[j] && !onDate(db.events[j]);
      FirstIndexIs(db'.events, onDate, k);
      assert db'.events[k := e] == db'.events;
    }
  }

  // ---------------------------------------------------------------------------
  // POST /events/:id/images
  // ---------------------------------------------------------------------------

  /** A file part of the multipart request: its form field, the client's file name, the
      declared MIME type and the size in bytes. */
  datatype UploadedFile = UploadedFile(field: string, originalName: string, mimeType: string, size: nat)

  /** The multipart form: the file, if any, and the text fields `title` and `order`. */
  datatype ImageForm = ImageForm(file: Option<UploadedFile>, title: Option<string>, order: Option<int>)

  /** `limits.fileSize`: 5 MiB. */
  const MaxFileSize: nat := 5 * 1024 * 1024

  /** Node's `path.extname` of a base name: from the last dot to the end, or "" when there is
      no dot, when the last dot opens the name, and for "..". */
  function ExtName(name: string): (r: string)
    ensures r == "" || (r[0] == '.' && '.' !in r[1..] && |r| <= |name| && r == name[|name| - |r|..])
  {
    match LastIndex(name, '.')
    case None => ""
    case Some(k) => if k == 0 || name == ".." then "" else name[k..]
  }

  /** A stem and an extension without dots give back the extension. */
  lemma ExtNameOf(stem: string, ext: string)
    requires stem != "" && '.' !in ext && !(stem == "." && ext == "")
    ensures ExtName(stem + "." + ext) == "." + ext
  {
    var name := stem + "." + ext;
    assert name[|stem|] == '.' && name[|stem|..] == "." + ext;
    NotDotDot(stem, ext);
  }

  lemma NotDotDot(stem: string, ext: string)
    requires stem != "" && !(stem == "." && ext == "")
    ensures stem + "." + ext != ".."
  {
    if |stem| == 1 && ext == "" {
      assert (stem + "." + ext)[0] == stem[0];
      assert stem == [stem[0]];
    }
  }

  /** The regular expression `/jpeg|jpg|png|webp/`, which is not anchored. */
  predicate NamesImageType(s: string) {
    Contains(s, "jpeg") || Contains(s, "jpg") || Contains(s, "png") || Contains(s, "webp")
  }

  /** `fileFilter`: the lower-cased extension and the MIME type, as sent, both match. */
  predicate FileFilter(f: UploadedFile) {
    NamesImageType(Lower(ExtName(f.originalName))) && NamesImageType(f.mimeType)
  }

  /** `multer` answers the request with an error before the handler runs: a file in a field
      other than `image`, a file the filter refuses, or one over the size limit. */
  predicate MulterRejects(f: UploadedFile) {
    f.field != "image" || !FileFilter(f) || f.size > MaxFileSize
  }

  /** The URL stored for an upload: `optimized-` before multer's `event-<suffix><ext>` name.
      The extension stays that of the original name although the stored file is a JPEG. */
  function ImageUrl(f: UploadedFile, suffix: string): string {
    "/uploads/events/optimized-event-" + suffix + ExtName(f.originalName)
  }

  /** POST `/events/:id/images`: 400 without a file; 500 when multer refuses it; otherwise the
      new row with 201. `suffix` is the `Date.now()`-and-random part of the stored name. */
  function UploadImage(db: Db, eventId: int, form: ImageForm, suffix: string, fails: bool)
    : (r: (Reply<Image>, Db))
    ensures r.0.Created? || r.0.BadRequest? || r.0.ServerError?
    ensures r.0.BadRequest? <==> form.file.None?
    ensures r.0.ServerError? <==> form.file.Some? && (MulterRejects(form.file.value) || fails)
    ensures !r.0.Created? ==> r.1 == db
    ensures r.0.Created? ==> var im := r.0.value;
      && im.id == db.nextImageId && im.eventId == eventId
      && im.url == ImageUrl(form.file.value, suffix)
      && im.title == (if form.title.Some? then form.title.value else "")
      && im.order == (if form.order.Some? then form.order.value else 0)
      && r.1 == db.(images := db.images + [im], nextImageId := db.nextImageId + 1)
  {
    match form.file
    case None => (BadRequest, db)
    case Some(f) =>
      if MulterRejects(f) || fails then (ServerError, db)
      else
        var title := if TruthyText(form.title) then form.title.value else "";
        var order := if TruthyInt(form.order) then form.order.value else 0;
        var im := Image(db.nextImageId, eventId, ImageUrl(f, suffix), title, order);
        (Created(im), db.(images := db.images + [im], nextImageId := db.nextImageId + 1))
  }

  /** One of the four alternatives of the pattern. */
  predicate ImageTypeName(s: string) {
    s == "jpeg" || s == "jpg" || s == "png" || s == "webp"
  }

  /** The extension is lower-cased and searched anywhere: a file passes whenever its
      extension holds, at any place, a word that lower-cases to one of the four names (so
      ".PNG" and ".pngx" pass), given a MIME type that matches. */
  lemma ExtensionMatchesAnywhere(stem: string, before: string, word: string, after: string,
                                 f: UploadedFile)
    requires stem != "" && '.' !in before + word + after && ImageTypeName(Lower(word))
    requires f.originalName == stem + "." + (before + word + after)
    requires NamesImageType(f.mimeType)
    ensures FileFilter(f)
  {
    ExtNameOf(stem, before + word + after);
    DottedNamesImageType(before, word, after);
  }

  lemma DottedNamesImageType(before: string, word: string, after: string)
    requires ImageTypeName(Lower(word))
    ensures NamesImageType(Lower("." + (before + word + after)))
  {
    var pre := "." + before;
    assert "." + (before + word + after) == pre + word + after by {
      ConcatAssoc(".", before + word, after);
      ConcatAssoc(".", before, word);
    }
    LowerInside(pre, word, after);
    NameInside(Lower(pre + word + after), Lower(word), |pre|);
  }

  /** Lower-casing works character by character, so it commutes with cutting out a piece. */
  lemma LowerInside(before: string, word: string, after: string)
    ensures var i := |before|;
      Lower(before + word + after)[i..i + |word|] == Lower(word)
  {
    var s, i := before + word + after, |before|;
    var piece := Lower(s)[i..i + |word|];
    forall j | 0 <= j < |word| ensures piece[j] == Lower(word)[j] {
      assert piece[j] == LowerChar(s[i + j]) && s[i + j] == word[j];
    }
  }

  lemma NameInside(s: string, name: string, i: nat)
    requires ImageTypeName(name) && i + |name| <= |s| && s[i..i + |name|] == name
    ensures NamesImageType(s)
  {
    ContainsAt(s, name, i);
  }

  /** The MIME type is not lower-cased, so an upper-case one fails whatever the name; so does
      a type outside the four. */
  lemma FileFilterRefuses(f: UploadedFile)
    requires f.mimeType == "IMAGE/PNG" || f.mimeType == "image/gif"
    ensures !FileFilter(f)
  {
    NoImageType(f.mimeType);
  }

  /** A text without 'j', 'p' and 'w' names no image type. */
  lemma NoImageType(s: string)
    requires 'j' !in s && 'p' !in s && 'w' !in s
    ensures !NamesImageType(s)
  {
    AbsentCharNotContained(s, "jpeg", 0);
    AbsentCharNotContained(s, "jpg", 0);
    AbsentCharNotContained(s, "png", 0);
    AbsentCharNotContained(s, "webp", 0);
  }

  // ---------------------------------------------------------------------------
  // DELETE /events/:eventId/images/:imageId
  // ---------------------------------------------------------------------------

  function NotId(imageId: int): Image -> bool {
    (im: Image) => im.id != imageId
  }

  /** DELETE `/events/:eventId/images/:imageId`: 404 when no image has that id; otherwise
      every row with it is removed. Removing the file is attempted and its failure ignored,
      so it has no bearing on the answer. The event id in the path is not consulted. */
  function DeleteImage(db: Db, imageId: int, fails: bool): (r: (Reply<()>, Db))
    ensures r.0.Ok? || r.0.NotFound? || r.0.ServerError?
    ensures r.0.ServerError? <==> fails
    ensures r.0.NotFound? <==> !fails && forall i :: 0 <= i < |db.images| ==> db.images[i].id != imageId
    ensures !r.0.Ok? ==> r.1 == db
    ensures r.0.Ok? ==> r.1 == db.(images := r.1.images)
    ensures r.0.Ok? ==> forall im ::
      multiset(r.1.images)[im] == if im.id == imageId then 0 else multiset(db.images)[im]
  {
    if fails then (ServerError, db)
    else if forall i :: 0 <= i < |db.images| ==> db.images[i].id != imageId then (NotFound, db)
    else (Ok(()), db.(images := Filter(db.images, NotId(imageId))))
  }

  /** Deleting the image just uploaded gives back the image rows as they were. */
  lemma UploadThenDelete(db: Db, eventId: int, form: ImageForm, suffix: string)
    requires ImagesWf(db)
    requires UploadImage(db, eventId, form, suffix, false).0.Created?
    ensures var (reply, db') := UploadImage(db, eventId, form, suffix, false);
      DeleteImage(db', reply.value.id, false).1.images == db.images
  {
    var (reply, db') := UploadImage(db, eventId, form, suffix, false);
    DeleteLastAppended(db, db', reply.value);
  }

  /** Deleting a row appended with a fresh id removes exactly that row. */
  lemma DeleteLastAppended(db: Db, db': Db, im: Image)
    requires ImagesWf(db) && im.id == db.nextImageId && db'.images == db.images + [im]
    ensures DeleteImage(db', im.id, false).1.images == db.images
  {
    assert db'.images[|db.images|] == im;
    FilterSnoc(db.images, im, NotId(im.id));
    FilterAll(db.images, NotId(im.id));
  }

  lemma UploadPreservesWf(db: Db, eventId: int, form: ImageForm, suffix: string, fails: bool)
    requires Wf(db)
    ensures Wf(UploadImage(db, eventId, form, suffix, fails).1)
  {
    var (reply, db') := UploadImage(db, eventId, form, suffix, fails);
    if reply.Created? {
      AppendImageWf(db, reply.value);
      WfWithImages(db, db'.images, db'.nextImageId);
    }
  }

  /** A row with the next id can be appended to the image table. */
  lemma AppendImageWf(db: Db, im: Image)
    requires ImagesWf(db) && im.id == db.nextImageId
    ensures ImagesWf(db.(images := db.images + [im], nextImageId := db.nextImageId + 1))
  {
    var images := db.images + [im];
    assert forall i :: 0 <= i < |db.images| ==> images[i] == db.images[i];
  }

  lemma DeletePreservesWf(db: Db, imageId: int, fails: bool)
    requires Wf(db)
    ensures Wf(DeleteImage(db, imageId, fails).1)
  {
    var (reply, db') := DeleteImage(db, imageId, fails);
    if reply.Ok? {
      FilterKeepsDistinctIds(db.images, NotId(imageId));
      forall i | 0 <= i < |db'.images| ensures db'.images[i].id < db'.nextImageId {
        FilterMembership(db.images, NotId(imageId), db'.images[i]);
      }
      WfWithImages(db, db'.images, db'.nextImageId);
    }
  }

  predicate DistinctIds(images: seq<Image>) {
    forall a, b :: 0 <= a < b < |images| ==> images[a].id != images[b].id
  }

  /** Filtering keeps distinct ids distinct. */
  lemma {:induction false} FilterKeepsDistinctIds(images: seq<Image>, p: Image -> bool)
    requires DistinctIds(images)
    ensures DistinctIds(Filter(images, p))
  {
    if images != [] {
      var tail := images[1..];
      TailIds(images);
      FilterKeepsDistinctIds(tail, p);
      if p(images[0]) {
        FilterAvoidsId(tail, p, images[0].id);
        ConsDistinct(images[0], Filter(tail, p));
      }
    }
  }

  /** The rows after the first have distinct ids, none equal to the first row's. */
  lemma TailIds(images: seq<Image>)
    requires images != [] && DistinctIds(images)
    ensures DistinctIds(images[1..])
    ensures forall k :: 0 <= k < |images[1..]| ==> images[1..][k].id != images[0].id
  {
    assert forall a :: 0 <= a < |images[1..]| ==> images[1..][a] == images[a + 1];
  }

  lemma FilterAvoidsId(images: seq<Image>, p: Image -> bool, id: int)
    requires forall k :: 0 <= k < |images| ==> images[k].id != id
    ensures forall k :: 0 <= k < |Filter(images, p)| ==> Filter(images, p)[k].id != id
  {
    forall k | 0 <= k < |Filter(images, p)| ensures Filter(images, p)[k].id != id {
      FilterMembership(images, p, Filter(images, p)[k]);
    }
  }

  lemma ConsDistinct(x: Image, rest: seq<Image>)
    requires DistinctIds(rest) && forall k :: 0 <= k < |rest| ==> rest[k].id != x.id
    ensures DistinctIds([x] + rest)
  {
    var r := [x] + rest;
    forall a, b | 0 <= a < b < |r| ensures r[a].id != r[b].id {
      assert r[b] == rest[b - 1];
      if a > 0 {
        assert r[a] == rest[a - 1];
      }
    }
  }

  // ---------------------------------------------------------------------------
  // GET /stats
  // ---------------------------------------------------------------------------

  /** The counts of the dashboard query. */
  datatype Stats = Stats(
    totalEvents: nat, filledEvents: nat, totalImages: nat, activeDevices: nat, sentNotifications: nat)

  predicate Filled(e: Event) {
    e.description.Some? && e.description.value != ""
  }

  function Counts(db: Db): (r: Stats)
    ensures r.totalEvents <= |db.events| && r.filledEvents <= |db.events|
    ensures r.totalImages == |db.images| && r.activeDevices <= |db.devices|
    ensures r.sentNotifications <= |db.records|
  {
    Stats(Count(db.events, (e: Event) => e.active), Count(db.events, Filled), |db.images|,
          Count(db.devices, (d: Device) => d.active),
          Count(db.records, (rec: Record) => rec.status == Sent))
  }

  /** GET `/stats`. */
  function AdminStats(db: Db, fails: bool): (r: Reply<Stats>)
    ensures r.Ok? || r.ServerError?
    ensures r.ServerError? <==> fails
    ensures r.Ok? ==> r.value == Counts(db)
  {
    if fails then ServerError else Ok(Counts(db))
  }

  /** An upload adds exactly one to the image count and changes no other count. */
  lemma UploadCountsOneImage(db: Db, eventId: int, form: ImageForm, suffix: string)
    requires UploadImage(db, eventId, form, suffix, false).0.Created?
    ensures var (before, after) := (Counts(db), Counts(UploadImage(db, eventId, form, suffix, false).1));
      after == before.(totalImages := before.totalImages + 1)
  {
  }
}

=== FILE: calendar_csv.dfy ===
/** What the calendar-building scripts share: the rows `csv.DictReader` yields, the list of
    "DD.MM" days of a year, and the dictionary a loading loop builds from accepted rows. */
module CalendarCsv {
  import opened Wrappers
  import opened Text
  import opened Gregorian

  /** A record of the calendar CSV, whose header is Дата, Подія, Опис, Традиції and
      Як підготуватися. `csv.DictReader` gives None for a column the line ends before. */
  datatype Row = Row(
    date: Option<string>, event: Option<string>, description: Option<string>,
    traditions: Option<string>, preparation: Option<string>)

  /** The four text columns of a calendar day. */
  datatype Details = Details(event: string, description: string, traditions: string, preparation: string)

  const NoDetails := Details("", "", "", "")

  /** One line of an output CSV. */
  datatype OutRow = OutRow(date: string, details: Details)

  // ---------------------------------------------------------------------------
  // The days of a year
  // ---------------------------------------------------------------------------

  /** `(datetime(y, 1, 1) + timedelta(days=i)).strftime("%d.%m")` for every day `i` of year `y`. */
  function YearTexts(y: int): (r: seq<string>)
    ensures |r| == DaysInYear(y)
    ensures forall i :: 0 <= i < |r| ==> Valid(YearDates(y)[i]) && r[i] == DayMonthText(YearDates(y)[i])
  {
    var ds := YearDates(y);
    YearDatesFacts(y);
    seq(|ds|, i requires 0 <= i < |ds| => DayMonthText(ds[i]))
  }

  /** No day is listed twice. */
  lemma YearTextsDistinct(y: int, i: int, j: int)
    requires 0 <= i < j < |YearTexts(y)|
    ensures YearTexts(y)[i] != YearTexts(y)[j]
  {
    var ds := YearDates(y);
    YearDatesFacts(y);
    if YearTexts(y)[i] == YearTexts(y)[j] {
      DayMonthTextInjective(ds[i], ds[j]);
      assert false;
    }
  }

  /** The list runs from "01.01" to "31.12". */
  lemma YearTextsEnds(y: int)
    ensures YearTexts(y)[0] == "01.01"
    ensures YearTexts(y)[|YearTexts(y)| - 1] == "31.12"
  {
    YearDatesEnds(y);
    assert DayMonthText(Date(y, 1, 1)) == "01.01";
    assert DayMonthText(Date(y, 12, 31)) == "31.12";
  }

  /** The text of a day is listed exactly when the day exists in year `y`. */
  lemma YearTextsListed(y: int, d: Date)
    requires Valid(d) && d.year == y
    ensures DayMonthText(d) in YearTexts(y)
  {
    YearDatesFacts(y);
    var ds := YearDates(y);
    var i :| 0 <= i < |ds| && ds[i] == d;
    assert YearTexts(y)[i] == DayMonthText(d);
  }

  /** "29.02" is listed exactly in leap years. */
  lemma LeapDayListed(y: int)
    ensures "29.02" in YearTexts(y) <==> IsLeap(y)
  {
    var leap := Date(2000, 2, 29);
    assert Valid(leap) && DayMonthText(leap) == "29.02";
    if IsLeap(y) {
      YearTextsListed(y, Date(y, 2, 29));
      assert DayMonthText(Date(y, 2, 29)) == "29.02";
    } else if "29.02" in YearTexts(y) {
      var i :| 0 <= i < |YearTexts(y)| && YearTexts(y)[i] == "29.02";
      YearDatesFacts(y);
      var d := YearDates(y)[i];
      DayMonthTextInjective(d, leap);
    }
  }

  /** The month read back from a listed day's text, `int(date_str.split('.')[1])`, is that
      day's month. */
  lemma YearTextMonth(y: int, i: int)
    requires 0 <= i < |YearTexts(y)|
    ensures var parts := Split(YearTexts(y)[i], '.');
      |parts| == 2 && AllDigits(parts[1]) && DigitsValue(parts[1]) == YearDates(y)[i].month
      && 1 <= YearDates(y)[i].month <= 12
  {
    var d := YearDates(y)[i];
    assert Valid(d);
    var day, month := Pad2(d.day), Pad2(d.month);
    assert '.' !in day && '.' !in month by {
      assert forall k :: 0 <= k < |day| ==> IsDigit(day[k]);
      assert forall k :: 0 <= k < |month| ==> IsDigit(month[k]);
    }
    SplitTwo(day, month, '.');
    Pad2RoundTrip(d.month);
  }

  // ---------------------------------------------------------------------------
  // Loading rows into a dictionary
  // ---------------------------------------------------------------------------

  /** The rows read before the first line without a date column: there `row['Дата'].strip()`
      raises, and the handler outside the loop ends the loading with what it has. */
  function Readable(rows: seq<Row>): (r: seq<Row>)
    ensures |r| <= |rows| && r == rows[..|r|]
    ensures forall i :: 0 <= i < |r| ==> r[i].date.Some?
    ensures |r| < |rows| ==> rows[|r|].date.None?
  {
    if rows == [] || rows[0].date.None? then []
    else
      var rest := Readable(rows[1..]);
      assert rows[..1 + |rest|] == [rows[0]] + rows[1..][..|rest|];
      [rows[0]] + rest
  }

  /** A line without a date column hides every line after it. */
  lemma {:induction false} ReadableStops(before: seq<Row>, bad: Row, after: seq<Row>)
    requires bad.date.None?
    ensures Readable(before + [bad] + after) == Readable(before)
    decreases |before|
  {
    var rows := before + [bad] + after;
    if before == [] {
      assert rows[0] == bad;
    } else {
      assert rows[0] == before[0];
      assert rows[1..] == before[1..] + [bad] + after;
      ReadableStops(before[1..], bad, after);
    }
  }

  /** Entry `j` is accepted and stored under `key`. */
  predicate StoresAt(entries: seq<Option<(string, Details)>>, j: int, key: string)
    requires 0 <= j < |entries|
  {
    entries[j].Some? && entries[j].value.0 == key
  }

  /** The dictionary a loading loop builds: every accepted row stores its details under its
      key, replacing what an earlier row stored there. */
  function Collect(entries: seq<Option<(string, Details)>>): (r: map<string, Details>)
    ensures entries == [] ==> r == map[]
  {
    if entries == [] then map[]
    else
      var m := Collect(entries[..|entries| - 1]);
      match entries[|entries| - 1]
      case None => m
      case Some((key, d)) => m[key := d]
  }

  /** A key is present exactly when some row stored under it. */
  lemma {:induction false} CollectKeys(entries: seq<Option<(string, Details)>>, k: string)
    ensures k in Collect(entries) <==> exists j :: 0 <= j < |entries| && StoresAt(entries, j, k)
    decreases |entries|
  {
    if entries != [] {
      var n := |entries| - 1;
      var init := entries[..n];
      CollectKeys(init, k);
      assert forall j :: 0 <= j < n ==> (StoresAt(entries, j, k) <==> StoresAt(init, j, k));
      if StoresAt(entries, n, k) {
        assert k in Collect(entries);
      }
    }
  }

  /** Whatever a key holds, some row stored it there. */
  lemma {:induction false} CollectHolds(entries: seq<Option<(string, Details)>>, k: string)
    requires k in Collect(entries)
    ensures exists j :: 0 <= j < |entries| && entries[j] == Some((k, Collect(entries)[k]))
    decreases |entries|
  {
    var n := |entries| - 1;
    var init := entries[..n];
    if entries[n].Some? && entries[n].value.0 == k {
      assert entries[n] == Some((k, Collect(entries)[k]));
    } else {
      CollectHolds(init, k);
      var j :| 0 <= j < n && init[j] == Some((k, Collect(init)[k]));
      assert entries[j] == init[j];
    }
  }

  /** A key holds what the last row stored under it. */
  lemma {:induction false} CollectLast(entries: seq<Option<(string, Details)>>, j: int)
    requires 0 <= j < |entries| && entries[j].Some?
    requires forall l :: j < l < |entries| ==> !StoresAt(entries, l, entries[j].value.0)
    ensures entries[j].value.0 in Collect(entries)
    ensures Collect(entries)[entries[j].value.0] == entries[j].value.1
    decreases |entries|
  {
    var n := |entries| - 1;
    if j < n {
      var init := entries[..n];
      assert forall l :: j < l < n ==> (StoresAt(entries, l, entries[j].value.0) <==> StoresAt(init, l, entries[j].value.0));
      CollectLast(init, j);
      assert !StoresAt(entries, n, entries[j].value.0);
    }
  }
}

=== FILE: collections.dfy ===
/** Filtering and ordering of row sequences: the `WHERE` and `ORDER BY` parts of the queries. */
module Collections {
  import opened Wrappers

  /** SQL `ORDER BY a, b` compares rows by the pair `(a, b)` lexicographically. */
  predicate KeyLe(a: (int, int), b: (int, int)) {
    a.0 < b.0 || (a.0 == b.0 && a.1 <= b.1)
  }

  predicate SortedBy<T>(s: seq<T>, key: T -> (int, int)) {
    forall i, j :: 0 <= i < j < |s| ==> KeyLe(key(s[i]), key(s[j]))
  }

  /** The rows of `s` that satisfy `p`, in their original order (SQL `WHERE`). */
  function Filter<T(!new)>(s: seq<T>, p: T -> bool): (r: seq<T>)
    ensures |r| <= |s|
    ensures forall x :: multiset(r)[x] == if p(x) then multiset(s)[x] else 0
    ensures forall i :: 0 <= i < |r| ==> p(r[i])
  {
    if s == [] then []
    else
      var rest := Filter(s[1..], p);
      assert s == [s[0]] + s[1..];
      if p(s[0]) then [s[0]] + rest else rest
  }

  lemma FilterMembership<T(!new)>(s: seq<T>, p: T -> bool, x: T)
    ensures x in Filter(s, p) <==> x in s && p(x)
  {
    assert x in Filter(s, p) <==> multiset(Filter(s, p))[x] > 0;
    assert x in s <==> multiset(s)[x] > 0;
  }

  /** Filtering a sequence whose every element passes keeps it whole. */
  lemma {:induction false} FilterAll<T(!new)>(s: seq<T>, p: T -> bool)
    requires forall i :: 0 <= i < |s| ==> p(s[i])
    ensures Filter(s, p) == s
  {
    if s != [] {
      assert p(s[0]);
      forall i | 0 <= i < |s[1..]| ensures p(s[1..][i]) {
        assert s[1..][i] == s[i + 1];
      }
      FilterAll(s[1..], p);
      assert s == [s[0]] + s[1..];
    }
  }

  /** Filtering distributes over appending one element. */
  lemma {:induction false} FilterSnoc<T(!new)>(s: seq<T>, x: T, p: T -> bool)
    ensures Filter(s + [x], p) == Filter(s, p) + (if p(x) then [x] else [])
  {
    if s == [] {
      assert [x][1..] == [];
    } else {
      var t := s + [x];
      assert t[0] == s[0] && t[1..] == s[1..] + [x];
      FilterSnoc(s[1..], x, p);
      if p(s[0]) {
        ConcatAssoc([s[0]], Filter(s[1..], p), if p(x) then [x] else []);
      }
    }
  }

  lemma ConcatAssoc<T>(a: seq<T>, b: seq<T>, c: seq<T>)
    ensures a + (b + c) == (a + b) + c
  {
  }

  /** Nothing is kept exactly when no element satisfies `p`. */
  lemma {:induction false} FilterEmpty<T(!new)>(s: seq<T>, p: T -> bool)
    ensures Filter(s, p) == [] <==> forall i :: 0 <= i < |s| ==> !p(s[i])
  {
    if s != [] {
      FilterEmpty(s[1..], p);
      assert forall i :: 1 <= i < |s| ==> s[i] == s[1..][i - 1];
    }
  }

  /** The position of the first element satisfying `p` (what `rows[0]` of a filtered query reads). */
  function FirstIndex<T>(s: seq<T>, p: T -> bool): (r: Option<nat>)
    ensures r.None? <==> forall i :: 0 <= i < |s| ==> !p(s[i])
    ensures r.Some? ==> r.value < |s| && p(s[r.value])
    ensures r.Some? ==> forall j :: 0 <= j < r.value ==> !p(s[j])
  {
    if s == [] then None
    else if p(s[0]) then Some(0)
    else
      var r := FirstIndex(s[1..], p);
      assert forall j :: 1 <= j < |s| ==> s[j] == s[1..][j - 1];
      if r.Some? then Some(r.value + 1) else None
  }

  /** `k` is the first position satisfying `p` exactly when `FirstIndex` says so. */
  lemma FirstIndexIs<T>(s: seq<T>, p: T -> bool, k: int)
    requires 0 <= k < |s| && p(s[k]) && forall j :: 0 <= j < k ==> !p(s[j])
    ensures FirstIndex(s, p) == Some(k)
  {
    assert FirstIndex(s, p).Some?;
  }

  /** Inserts `x` into a sorted sequence, keeping it sorted. */
  function Insert<T>(x: T, s: seq<T>, key: T -> (int, int)): (r: seq<T>)
    requires SortedBy(s, key)
    ensures SortedBy(r, key)
    ensures multiset(r) == multiset(s) + multiset{x}
  {
    if s == [] then [x]
    else if KeyLe(key(x), key(s[0])) then [x] + s
    else
      var rest := Insert(x, s[1..], key);
      assert s == [s[0]] + s[1..];
      forall k | 0 <= k < |rest| ensures KeyLe(key(s[0]), key(rest[k])) {
        assert rest[k] in multiset(rest);
        assert rest[k] == x || rest[k] in s[1..];
      }
      [s[0]] + rest
  }

  /** The rows of `s` ordered by `key` (SQL `ORDER BY`); rows with equal keys may come in any order. */
  function SortBy<T>(s: seq<T>, key: T -> (int, int)): (r: seq<T>)
    ensures SortedBy(r, key)
    ensures multiset(r) == multiset(s)
  {
    if s == [] then []
    else
      assert s == [s[0]] + s[1..];
      Insert(s[0], SortBy(s[1..], key), key)
  }

  /** The first `n` rows of a sorted sequence are a smallest-`n` selection: every row left out
      is ordered at or after every row kept (SQL `ORDER BY ... LIMIT n`). */
  lemma SortedPrefixIsSmallest<T>(s: seq<T>, key: T -> (int, int), n: nat, c: T)
    requires SortedBy(s, key) && n <= |s|
    requires c in s && c !in s[..n]
    ensures forall i :: 0 <= i < n ==> KeyLe(key(s[i]), key(c))
  {
    forall i | 0 <= i < n ensures s[i] != c {
      assert s[..n][i] == s[i];
    }
    var j :| 0 <= j < |s| && s[j] == c;
    assert j >= n;
  }

  /** A prefix holds no element more often than the whole sequence does. */
  lemma PrefixBag<T>(s: seq<T>, n: nat)
    requires n <= |s|
    ensures forall x :: multiset(s[..n])[x] <= multiset(s)[x]
  {
    assert s == s[..n] + s[n..];
  }

  /** `f` applied to every element. */
  function Map<T, U>(s: seq<T>, f: T -> U): (r: seq<U>)
    ensures |r| == |s| && forall i :: 0 <= i < |s| ==> r[i] == f(s[i])
  {
    seq(|s|, i requires 0 <= i < |s| => f(s[i]))
  }

  /** The number of elements satisfying `p`. */
  function Count<T>(s: seq<T>, p: T -> bool): (n: nat)
    ensures n <= |s|
  {
    if s == [] then 0 else (if p(s[0]) then 1 else 0) + Count(s[1..], p)
  }

  lemma CountFilter<T(!new)>(s: seq<T>, p: T -> bool)
    ensures Count(s, p) == |Filter(s, p)|
  {
  }

  /** Concatenation of a sequence of sequences. */
  function Flatten<T>(ss: seq<seq<T>>): seq<T> {
    if ss == [] then [] else ss[0] + Flatten(ss[1..])
  }

  /** `s` cut into consecutive pieces of `n` elements, the last one possibly shorter
      (how `execute_values` pages its argument list). */
  function Chunks<T>(s: seq<T>, n: nat): (r: seq<seq<T>>)
    requires n > 0
    ensures forall k :: 0 <= k < |r| ==> 0 < |r[k]| <= n
    decreases |s|
  {
    if s == [] then []
    else if |s| <= n then [s]
    else [s[..n]] + Chunks(s[n..], n)
  }

  /** Gluing the pieces back together gives the original sequence. */
  lemma {:induction false} FlattenChunks<T>(s: seq<T>, n: nat)
    requires n > 0
    ensures Flatten(Chunks(s, n)) == s
    decreases |s|
  {
    if |s| > n {
      FlattenChunks(s[n..], n);
      assert Chunks(s, n)[1..] == Chunks(s[n..], n);
      assert s[..n] + s[n..] == s;
    }
  }

  /** Piece `k` is the slice of `s` from `k * n`, `n` elements long or up to the end. */
  lemma {:induction false} ChunkSlice<T>(s: seq<T>, n: nat, k: nat)
    requires n > 0 && k < |Chunks(s, n)|
    ensures k * n < |s|
    ensures Chunks(s, n)[k] == s[k * n..if (k + 1) * n <= |s| then (k + 1) * n else |s|]
    decreases |s|
  {
    if k > 0 {
      assert |s| > n;
      assert Chunks(s, n)[k] == Chunks(s[n..], n)[k - 1];
      ChunkSlice(s[n..], n, k - 1);
      MulSteps(k, n);
      var hi := if (k + 1) * n <= |s| then (k + 1) * n else |s|;
      assert (if k * n <= |s| - n then k * n else |s| - n) == hi - n;
      assert s[n..][(k - 1) * n..hi - n] == s[k * n..hi];
    }
  }

  lemma MulSteps(k: nat, n: nat)
    requires k > 0
    ensures (k - 1) * n + n == k * n && k * n + n == (k + 1) * n
  {
  }

  /** The values of the `Some` elements of `xs` from the `j`-th on, in order (a list
      comprehension with an `if` that skips the failures). */
  function Present<T>(xs: seq<Option<T>>, j: nat): (r: seq<T>)
    requires j <= |xs|
    decreases |xs| - j
    ensures |r| <= |xs| - j
  {
    if j == |xs| then []
    else
      match xs[j]
      case None => Present(xs, j + 1)
      case Some(v) => [v] + Present(xs, j + 1)
  }

  /** Every value kept stands at some position from `j` on. */
  lemma {:induction false} PresentSound<T>(xs: seq<Option<T>>, j: nat, k: int)
    requires j <= |xs| && 0 <= k < |Present(xs, j)|
    ensures exists q :: j <= q < |xs| && xs[q] == Some(Present(xs, j)[k])
    decreases |xs| - j
  {
    var rest := Present(xs, j + 1);
    match xs[j]
    case None =>
      PresentSound(xs, j + 1, k);
    case Some(v) =>
      if k > 0 {
        assert Present(xs, j)[k] == rest[k - 1];
        PresentSound(xs, j + 1, k - 1);
      }
  }

  /** Every `Some` value at a position from `j` on is kept. */
  lemma {:induction false} PresentComplete<T>(xs: seq<Option<T>>, j: nat, q: nat)
    requires j <= q < |xs| && xs[q].Some?
    ensures xs[q].value in Present(xs, j)
    decreases q - j
  {
    if j < q {
      PresentComplete(xs, j + 1, q);
    }
  }

  /** Every element of the flattened list comes from one of the lists. */
  lemma {:induction false} FlattenSound<T>(xss: seq<seq<T>>, k: int)
    requires 0 <= k < |Flatten(xss)|
    ensures exists i, l :: 0 <= i < |xss| && 0 <= l < |xss[i]| && xss[i][l] == Flatten(xss)[k]
  {
    var r := Flatten(xss);
    if k < |xss[0]| {
      assert r[k] == xss[0][k];
    } else {
      assert r[k] == Flatten(xss[1..])[k - |xss[0]|];
      FlattenSound(xss[1..], k - |xss[0]|);
      var i, l :| 0 <= i < |xss[1..]| && 0 <= l < |xss[1..][i]| && xss[1..][i][l] == r[k];
      assert xss[i + 1][l] == r[k];
    }
  }

  /** Every element of every list is in the flattened list. */
  lemma {:induction false} FlattenComplete<T>(xss: seq<seq<T>>, i: int, x: T)
    requires 0 <= i < |xss| && x in xss[i]
    ensures x in Flatten(xss)
    decreases i
  {
    if i > 0 {
      assert xss[1..][i - 1] == xss[i];
      FlattenComplete(xss[1..], i - 1, x);
    }
  }

  /** The first `Some` of `xs` from position `p` on, or `None` when there is none. */
  function FirstSome<T>(xs: seq<Option<T>>, p: nat): (r: Option<T>)
    requires p <= |xs|
    decreases |xs| - p
    ensures r.Some? ==> exists q :: p <= q < |xs| && xs[q] == r
    ensures r.None? <==> forall q :: p <= q < |xs| ==> xs[q].None?
  {
    if p == |xs| then None
    else if xs[p].Some? then xs[p]
    else FirstSome(xs, p + 1)
  }

  /** What `FirstSome` returns is the element at the first position holding a `Some`. */
  lemma {:induction false} FirstSomeLeftmost<T>(xs: seq<Option<T>>, p: nat, q: nat)
    requires p <= q < |xs|
    requires forall k :: p <= k < q ==> xs[k].None?
    requires xs[q].Some?
    ensures FirstSome(xs, p) == xs[q]
    decreases q - p
  {
    if p < q {
      FirstSomeLeftmost(xs, p + 1, q);
    }
  }
}

=== FILE: cron.dfy ===
/** The two scheduled jobs: the daily reminder run and the weekly deactivation of stale push
    tokens. The clock is a parameter: `today` is the calendar day the run looks up, `now` the
    time of the cleanup in seconds, and a `Clock` the database time of each insert of a run. */
module Cron {
  import opened Wrappers
  import opened Gregorian
  import opened Collections
  import opened Store
  import opened Push

  // ---------------------------------------------------------------------------
  // Schedules
  // ---------------------------------------------------------------------------

  /** One field of a five-field cron expression: `*` or a single number. */
  datatype CronField = Any | At(n: nat)

  datatype CronSpec = CronSpec(minute: CronField, hour: CronField, dayOfMonth: CronField,
                               month: CronField, weekday: CronField)

  /** A wall-clock minute; `weekday` 0 is Sunday. */
  datatype Moment = Moment(minute: nat, hour: nat, dayOfMonth: nat, month: nat, weekday: nat)

  predicate FieldMatches(f: CronField, v: nat) {
    f.Any? || f.n == v
  }

  predicate Fires(spec: CronSpec, t: Moment) {
    && FieldMatches(spec.minute, t.minute) && FieldMatches(spec.hour, t.hour)
    && FieldMatches(spec.dayOfMonth, t.dayOfMonth) && FieldMatches(spec.month, t.month)
    && FieldMatches(spec.weekday, t.weekday)
  }

  /** `'0 9 * * *'`. */
  const DailySchedule := CronSpec(At(0), At(9), Any, Any, Any)
  /** `'0 3 * * 0'`. */
  const CleanupSchedule := CronSpec(At(0), At(3), Any, Any, At(0))

  /** The reminder job runs every day at 09:00 and the cleanup every Sunday at 03:00. */
  lemma SchedulesFire(t: Moment)
    ensures Fires(DailySchedule, t) <==> t.minute == 0 && t.hour == 9
    ensures Fires(CleanupSchedule, t) <==> t.minute == 0 && t.hour == 3 && t.weekday == 0
  {
  }

  // ---------------------------------------------------------------------------
  // Daily reminders
  // ---------------------------------------------------------------------------

  /** The `WHERE date_day = $1 AND date_month = $2 AND is_active = true` condition. */
  function OnDay(today: Date): Event -> bool {
    (e: Event) => e.day == today.day && e.month == today.month && e.active
  }

  function Id(e: Event): nat {
    e.id
  }

  /** The ids of today's active events, in table order. */
  function TodaysEventIds(db: Db, today: Date): (r: seq<nat>)
    ensures forall k :: 0 <= k < |r| ==> exists i :: 0 <= i < |db.events| && db.events[i].id == r[k]
                                                     && OnDay(today)(db.events[i])
  {
    var matched := Filter(db.events, OnDay(today));
    forall k | 0 <= k < |matched| ensures matched[k] in db.events {
      assert multiset(matched)[matched[k]] > 0;
    }
    Map(matched, Id)
  }

  /** Every active event of the day is among the ids. */
  lemma TodaysEventIdsComplete(db: Db, today: Date, i: int)
    requires 0 <= i < |db.events| && OnDay(today)(db.events[i])
    ensures db.events[i].id in TodaysEventIds(db, today)
  {
    var matched := Filter(db.events, OnDay(today));
    assert multiset(db.events)[db.events[i]] > 0;
    assert db.events[i] in matched;
    var k :| 0 <= k < |matched| && matched[k] == db.events[i];
    assert TodaysEventIds(db, today)[k] == db.events[i].id;
  }

  /** The database's `CURRENT_DATE` and `CURRENT_TIMESTAMP` (in seconds) at one insert. */
  datatype Stamp = Stamp(date: Date, at: int)

  /** The database clock during a run: `clock(k)` is the stamp of the `k`-th dispatch's insert.
      Each insert is its own statement, so each reads the clock anew. */
  type Clock = nat -> Stamp

  /** The one-second pause after each dispatch: every insert happens at least one second after
      the one before it. */
  ghost predicate Paced(clock: Clock) {
    forall j: nat, k: nat :: k == j + 1 ==> clock(j).at + 1 <= clock(k).at
  }

  /** The outcome of one run: the store afterwards, the ids dispatched in order, and what each
      dispatch did. */
  datatype JobRun = JobRun(db: Db, dispatched: seq<nat>, outcomes: seq<Dispatch>)

  /** `for (const event of result.rows) await sendEventNotification(event.id)`, the first of
      `ids` being the run's dispatch number `from`. */
  function DispatchAll(gw: Gateway, faults: Faults, db: Db, ids: seq<nat>, clock: Clock, from: nat)
    : (run: JobRun)
    ensures run.dispatched == ids && |run.outcomes| == |ids|
    ensures run.db == db.(records := run.db.records)
    ensures |db.records| <= |run.db.records| && run.db.records[..|db.records|] == db.records
    decreases |ids|
  {
    if ids == [] then JobRun(db, [], [])
    else
      var step := SendEventNotification(gw, faults, db, ids[0], clock(from).date, clock(from).at);
      var rest := DispatchAll(gw, faults, step.1, ids[1..], clock, from + 1);
      JobRun(rest.db, [ids[0]] + rest.dispatched, [step.0] + rest.outcomes)
  }

  /** The daily job. A failing event query is caught and ends the run with nothing done. */
  function DailyJob(gw: Gateway, faults: Faults, db: Db, today: Date, clock: Clock): (run: JobRun)
    ensures run.db == db.(records := run.db.records)
    ensures faults.matchQuery ==> run == JobRun(db, [], [])
    ensures !faults.matchQuery ==> run.dispatched == TodaysEventIds(db, today)
  {
    if faults.matchQuery then JobRun(db, [], [])
    else DispatchAll(gw, faults, db, TodaysEventIds(db, today), clock, 0)
  }

  /** The records a run's dispatches append, given what each of them decided: the `k`-th is
      stamped with the clock's reading number `from + k`. */
  function Stamped(ds: seq<Dispatch>, ids: seq<nat>, clock: Clock, from: nat): (r: seq<seq<Record>>)
    requires |ds| == |ids|
    ensures |r| == |ids|
    decreases |ids|
  {
    if ids == [] then []
    else [RecordsOf(ds[0], ids[0], clock(from).date, clock(from).at)] + Stamped(ds[1..], ids[1..], clock, from + 1)
  }

  /** The `k`-th entry holds the `k`-th dispatch's records with the `k`-th reading after `from`. */
  lemma {:induction false} StampedAt(ds: seq<Dispatch>, ids: seq<nat>, clock: Clock, from: nat, k: int)
    requires |ds| == |ids| && 0 <= k < |ids|
    ensures Stamped(ds, ids, clock, from)[k]
         == RecordsOf(ds[k], ids[k], clock(from + k).date, clock(from + k).at)
    decreases |ids|
  {
    if k > 0 {
      StampedAt(ds[1..], ids[1..], clock, from + 1, k - 1);
      assert ds[1..][k - 1] == ds[k] && ids[1..][k - 1] == ids[k] && from + 1 + (k - 1) == from + k;
    }
  }

  /** Each dispatch in a run decides as if it ran alone against the store the run started
      from: the records earlier dispatches append do not change its outcome. */
  lemma {:induction false} DispatchAllOutcome(gw: Gateway, faults: Faults, db: Db, ids: seq<nat>,
                                              clock: Clock, from: nat, k: int)
    requires 0 <= k < |ids|
    ensures DispatchAll(gw, faults, db, ids, clock, from).outcomes[k] == Outcome(gw, faults, db, ids[k])
    decreases |ids|
  {
    var step := SendEventNotification(gw, faults, db, ids[0], clock(from).date, clock(from).at);
    var rest := DispatchAll(gw, faults, step.1, ids[1..], clock, from + 1);
    assert DispatchAll(gw, faults, db, ids, clock, from).outcomes == [step.0] + rest.outcomes;
    if k > 0 {
      DispatchAllOutcome(gw, faults, step.1, ids[1..], clock, from + 1, k - 1);
      OutcomeIgnoresRecords(gw, faults, db, step.1, ids[k]);
    }
  }

  /** A run appends exactly the records of its dispatches, each stamped with its own clock
      reading, in order. */
  lemma {:induction false} DispatchAllRecords(gw: Gateway, faults: Faults, db: Db, ids: seq<nat>,
                                              clock: Clock, from: nat)
    ensures var run := DispatchAll(gw, faults, db, ids, clock, from);
      run.db.records == db.records + Flatten(Stamped(run.outcomes, ids, clock, from))
    decreases |ids|
  {
    if ids != [] {
      var step := SendEventNotification(gw, faults, db, ids[0], clock(from).date, clock(from).at);
      var rest := DispatchAll(gw, faults, step.1, ids[1..], clock, from + 1);
      var run := DispatchAll(gw, faults, db, ids, clock, from);
      var first := RecordsOf(step.0, ids[0], clock(from).date, clock(from).at);
      DispatchAllRecords(gw, faults, step.1, ids[1..], clock, from + 1);
      assert run.outcomes[0] == step.0 && run.outcomes[1..] == rest.outcomes;
      assert run.db == rest.db;
      var tail := Stamped(rest.outcomes, ids[1..], clock, from + 1);
      assert Stamped(run.outcomes, ids, clock, from) == [first] + tail;
      assert Flatten([first] + tail) == first + Flatten(tail) by {
        assert ([first] + tail)[1..] == tail;
      }
      ConcatAssoc(db.records, first, Flatten(tail));
    }
  }

  /** A day without events leaves the store as it was. */
  lemma QuietDay(gw: Gateway, faults: Faults, db: Db, today: Date, clock: Clock)
    requires forall i :: 0 <= i < |db.events| ==> !OnDay(today)(db.events[i])
    ensures DailyJob(gw, faults, db, today, clock).db == db
    ensures DailyJob(gw, faults, db, today, clock).dispatched == []
  {
    FilterEmpty(db.events, OnDay(today));
  }

  /** Every id names a row of the event table. */
  predicate AllKnown(db: Db, ids: seq<nat>) {
    forall k :: 0 <= k < |ids| ==> exists i :: 0 <= i < |db.events| && db.events[i].id == ids[k]
  }

  /** With no faults, every event of the run gets exactly one record, stamped with its own clock
      reading, `sent` exactly when the fan-out reported a success. */
  lemma {:induction false} HealthyRunRecordsEachEvent(gw: Gateway, db: Db, ids: seq<nat>, clock: Clock, from: nat)
    requires AllKnown(db, ids)
    ensures var run := DispatchAll(gw, NoFaults, db, ids, clock, from);
      OnePerDispatch(run.db.records, |db.records|, ids, run.outcomes, clock, from)
  {
    DispatchAllRecords(gw, NoFaults, db, ids, clock, from);
    var run := DispatchAll(gw, NoFaults, db, ids, clock, from);
    var app := Stamped(run.outcomes, ids, clock, from);
    forall k | 0 <= k < |ids|
      ensures run.outcomes[k].Notified?
      ensures app[k] == [Record(ids[k], clock(from + k).date, clock(from + k).at, StatusOf(run.outcomes[k].fanout))]
    {
      HealthyEventRecorded(gw, db, ids, clock, from, k);
    }
    LaidOut(db.records, run.db.records, app, ids, run.outcomes, clock, from);
  }

  /** From position `base` on, `records` holds one record per dispatch, in dispatch order: the
      `k`-th names the `k`-th id, carries the clock's reading `from + k` and the status of that
      dispatch's fan-out, and every dispatch was fanned out. */
  predicate OnePerDispatch(records: seq<Record>, base: nat, ids: seq<nat>, outcomes: seq<Dispatch>,
                           clock: Clock, from: nat)
  {
    && |records| == base + |ids| && |outcomes| == |ids|
    && forall k :: 0 <= k < |ids| ==>
         && outcomes[k].Notified?
         && records[base + k] == Record(ids[k], clock(from + k).date, clock(from + k).at, StatusOf(outcomes[k].fanout))
  }

  /** One singleton per dispatch, puts the `k`-th dispatch's record `k`
      places after the old end. */
  lemma LaidOut(before: seq<Record>, after: seq<Record>, app: seq<seq<Record>>, ids: seq<nat>,
                outcomes: seq<Dispatch>, clock: Clock, from: nat)
    requires after == before + Flatten(app) && |app| == |ids| && |outcomes| == |ids|
    requires forall k :: 0 <= k < |ids| ==>
               && outcomes[k].Notified?
               && app[k] == [Record(ids[k], clock(from + k).date, clock(from + k).at, StatusOf(outcomes[k].fanout))]
    ensures OnePerDispatch(after, |before|, ids, outcomes, clock, from)
  {
    FlattenSingletons(app);
    forall k | 0 <= k < |ids|
      ensures after[|before| + k] == Record(ids[k], clock(from + k).date, clock(from + k).at, StatusOf(outcomes[k].fanout))
    {
      assert outcomes[k].Notified?;
      assert after[|before| + k] == Flatten(app)[k] == app[k][0];
    }
  }

  /** Without faults the `k`-th event of the run is fanned out and adds its one record. */
  lemma HealthyEventRecorded(gw: Gateway, db: Db, ids: seq<nat>, clock: Clock, from: nat, k: int)
    requires 0 <= k < |ids| && exists i :: 0 <= i < |db.events| && db.events[i].id == ids[k]
    ensures var run := DispatchAll(gw, NoFaults, db, ids, clock, from);
      && run.outcomes[k].Notified?
      && Stamped(run.outcomes, ids, clock, from)[k]
         == [Record(ids[k], clock(from + k).date, clock(from + k).at, StatusOf(run.outcomes[k].fanout))]
  {
    var run := DispatchAll(gw, NoFaults, db, ids, clock, from);
    DispatchAllOutcome(gw, NoFaults, db, ids, clock, from, k);
    HealthyOutcome(gw, db, ids[k]);
    StampedAt(run.outcomes, ids, clock, from, k);
  }

  /** Without faults an existing event is always fanned out and recorded. */
  lemma HealthyOutcome(gw: Gateway, db: Db, id: nat)
    requires exists i :: 0 <= i < |db.events| && db.events[i].id == id
    ensures Outcome(gw, NoFaults, db, id).Notified? && Outcome(gw, NoFaults, db, id).recorded
  {
    var i :| 0 <= i < |db.events| && db.events[i].id == id;
    assert FirstIndex(db.events, (e: Event) => e.id == id).Some?;
  }

  /** Over `k - j` paced dispatches the clock advances by at least `k - j` seconds. */
  lemma {:induction false} PacedGap(clock: Clock, j: nat, k: nat)
    requires Paced(clock) && j <= k
    ensures clock(j).at + (k - j) <= clock(k).at
    decreases k - j
  {
    if j < k {
      PacedGap(clock, j + 1, k);
      assert clock(j).at + 1 <= clock(j + 1).at;
    }
  }

  /** Records laid down one per dispatch under a paced clock, as a run without faults lays them
      down (`HealthyRunRecordsEachEvent`), carry increasing `sent_at` values: a later one at
      least one second per dispatch after an earlier one. */
  lemma StampsIncrease(records: seq<Record>, base: nat, ids: seq<nat>, outcomes: seq<Dispatch>, clock: Clock,
                 from: nat, j: int, k: int)
    requires OnePerDispatch(records, base, ids, outcomes, clock, from)
    requires Paced(clock) && 0 <= j < k < |ids|
    ensures |records| == base + |ids|
    ensures records[base + j].sentAt + (k - j) <= records[base + k].sentAt
  {
    assert outcomes[j].Notified? && records[base + j].sentAt == clock(from + j).at;
    assert outcomes[k].Notified? && records[base + k].sentAt == clock(from + k).at;
    PacedGap(clock, from + j, from + k);
  }

  lemma {:induction false} FlattenSingletons<T>(ss: seq<seq<T>>)
    requires forall k :: 0 <= k < |ss| ==> |ss[k]| == 1
    ensures |Flatten(ss)| == |ss|
    ensures forall k :: 0 <= k < |ss| ==> Flatten(ss)[k] == ss[k][0]
  {
    if ss != [] {
      FlattenSingletons(ss[1..]);
      assert forall k :: 1 <= k < |ss| ==> ss[k] == ss[1..][k - 1];
    }
  }

  /** One active event on 25 December and two active devices with notifications enabled. */
  function ChristmasStore(now: int): Db {
    Db([Event(1, 25, 12, "Різдво", None, None, None, true)], [],
       [Device(1, "token-a", "ios", None, true, now), Device(2, "token-b", "android", None, true, now)],
       [Preference(1, 1, true, None, false, now), Preference(2, 2, true, None, false, now)],
       [], 2, 1, 3, 3)
  }

  /** A gateway that delivers to every token it is given. */
  function DeliveringGateway(): Gateway {
    Gateway(true, (tokens: seq<string>, p: Payload) => Delivered(|tokens|, 0), (t: string, p: Payload) => true)
  }

  lemma ChristmasRecipients(now: int)
    ensures Recipients(ChristmasStore(now)) == ["token-a", "token-b"]
  {
    var db := ChristmasStore(now);
    assert Filter(db.prefs, Enables(db.devices[0])) == [db.prefs[0]];
    assert Filter(db.prefs, Enables(db.devices[1])) == [db.prefs[1]];
    assert JoinedTokens(db.devices[0], db.prefs) == ["token-a"];
    assert JoinedTokens(db.devices[1], db.prefs) == ["token-b"];
    assert RecipientsOf(db.devices[1..], db.prefs) == ["token-b"];
  }

  /** The Christmas scenario: the run on 25 December dispatches the one event, both devices
      receive it, and one `sent` record is written with the clock's first reading. */
  lemma ChristmasScenario(now: int, clock: Clock)
    ensures var run := DailyJob(DeliveringGateway(), NoFaults, ChristmasStore(now), Date(2025, 12, 25), clock);
      && run.dispatched == [1]
      && run.db.records == [Record(1, clock(0).date, clock(0).at, Sent)]
      && run.outcomes[0].Notified? && run.outcomes[0].fanout.counts == Counts(2, 0)
  {
    var db := ChristmasStore(now);
    ChristmasToday(now);
    ChristmasOutcome(now);
    var run := DispatchAll(DeliveringGateway(), NoFaults, db, [1], clock, 0);
    DispatchAllOutcome(DeliveringGateway(), NoFaults, db, [1], clock, 0, 0);
    DispatchAllRecords(DeliveringGateway(), NoFaults, db, [1], clock, 0);
    StampedAt(run.outcomes, [1], clock, 0, 0);
    assert Flatten(Stamped(run.outcomes, [1], clock, 0)) == [Record(1, clock(0).date, clock(0).at, Sent)];
  }

  /** The Christmas event is the one event of 25 December. */
  lemma ChristmasToday(now: int)
    ensures TodaysEventIds(ChristmasStore(now), Date(2025, 12, 25)) == [1]
  {
    var db := ChristmasStore(now);
    assert Filter(db.events, OnDay(Date(2025, 12, 25))) == [db.events[0]];
  }

  /** Dispatching the Christmas event reaches both devices and is recorded as `sent`. */
  lemma ChristmasOutcome(now: int)
    ensures var d := Outcome(DeliveringGateway(), NoFaults, ChristmasStore(now), 1);
      && d.Notified? && d.recorded && d.fanout.counts == Counts(2, 0) && StatusOf(d.fanout) == Sent
  {
    var db := ChristmasStore(now);
    ChristmasRecipients(now);
    assert FirstIndex(db.events, (e: Event) => e.id == 1) == Some(0);
  }

  // ---------------------------------------------------------------------------
  // Weekly token cleanup
  // ---------------------------------------------------------------------------

  const SecondsPerDay := 86400
  const StaleDays := 90

  /** `last_active_at < NOW() - INTERVAL '90 days' AND is_active = true`. */
  predicate Stale(d: Device, now: int) {
    d.active && d.lastActive < now - StaleDays * SecondsPerDay
  }

  /** A stale device is switched off; any other one is left as it is. */
  function Deactivate(d: Device, now: int): (r: Device)
    ensures r == d.(active := r.active)
    ensures r != d <==> Stale(d, now)
    ensures !Stale(r, now)
  {
    if Stale(d, now) then d.(active := false) else d
  }

  /** The `UPDATE ... RETURNING id` statement: the store afterwards and `rowCount`. A failing
      statement is caught and changes nothing. */
  function Cleanup(db: Db, now: int, fails: bool): (r: (Db, Option<nat>))
    ensures r.0 == db.(devices := r.0.devices)
    ensures fails <==> r.1.None?
    ensures fails ==> r.0 == db
  {
    if fails then (db, None)
    else (db.(devices := Map(db.devices, (d: Device) => Deactivate(d, now))), Some(Count(db.devices, (d: Device) => Stale(d, now))))
  }

  /** Number of positions where two equally long row sequences differ. */
  function Changed(a: seq<Device>, b: seq<Device>): nat
    requires |a| == |b|
  {
    if a == [] then 0 else (if a[0] != b[0] then 1 else 0) + Changed(a[1..], b[1..])
  }

  /** Exactly the stale rows are deactivated; every other row, active or not, is kept as it is;
      `rowCount` is the number of rows the statement changed. */
  lemma CleanupChangesExactlyStale(db: Db, now: int)
    ensures var after := Cleanup(db, now, false).0.devices;
      && |after| == |db.devices|
      && (forall i :: 0 <= i < |after| ==>
            (after[i] != db.devices[i] <==> Stale(db.devices[i], now))
            && after[i] == db.devices[i].(active := after[i].active))
      && (forall i :: 0 <= i < |after| ==> !after[i].active || !Stale(db.devices[i], now))
      && Cleanup(db, now, false).1 == Some(Changed(db.devices, after))
  {
    ChangedCountsStale(db.devices, now);
  }

  lemma {:induction false} ChangedCountsStale(devices: seq<Device>, now: int)
    ensures Changed(devices, Map(devices, (d: Device) => Deactivate(d, now)))
         == Count(devices, (d: Device) => Stale(d, now))
  {
    if devices != [] {
      var after := Map(devices, (d: Device) => Deactivate(d, now));
      ChangedCountsStale(devices[1..], now);
      assert after[1..] == Map(devices[1..], (d: Device) => Deactivate(d, now));
    }
  }

  /** After a cleanup no device is stale, so a second one at the same time reports 0 and
      changes nothing. */
  lemma CleanupIdempotent(db: Db, now: int)
    ensures var once := Cleanup(db, now, false).0;
      && Cleanup(once, now, false).1 == Some(0)
      && Cleanup(once, now, false).0 == once
  {
    var once := Cleanup(db, now, false).0;
    assert forall i :: 0 <= i < |once.devices| ==> !Stale(once.devices[i], now);
    NoneStale(once.devices, now);
    assert Map(once.devices, (d: Device) => Deactivate(d, now)) == once.devices;
  }

  lemma {:induction false} NoneStale(devices: seq<Device>, now: int)
    requires forall i :: 0 <= i < |devices| ==> !Stale(devices[i], now)
    ensures Count(devices, (d: Device) => Stale(d, now)) == 0
  {
    if devices != [] {
      NoneStale(devices[1..], now);
    }
  }

  /** The cleanup keeps every store constraint: ids and tokens are untouched. */
  lemma CleanupPreservesWf(db: Db, now: int, fails: bool)
    requires Wf(db)
    ensures Wf(Cleanup(db, now, fails).0)
  {
  }
}

=== FILE: csv_import.dfy ===
/** `import_csv.py`, `import_csv_data`: reads the final calendar CSV and upserts one event per
    usable row into the `events` table, all in one transaction. */
module CsvImport {
  import opened Wrappers
  import opened Text
  import opened Collections
  import opened Gregorian
  import opened Store
  import opened AdminRoutes
  import opened CalendarCsv

  // ---------------------------------------------------------------------------
  // Numbers
  // ---------------------------------------------------------------------------

  /** `int` on text without surrounding whitespace: an optional sign, then ASCII digits. */
  function SignedDigits(t: string): Option<int> {
    if t != [] && (t[0] == '+' || t[0] == '-') then
      if AllDigits(t[1..]) then
        var v: int := DigitsValue(t[1..]);
        Some(if t[0] == '-' then -v else v)
      else None
    else if AllDigits(t) then Some(DigitsValue(t))
    else None
  }

  /** Python `int(s)` on text: whitespace around, an optional sign, then ASCII digits. */
  function ParseInt(s: string): (r: Option<int>)
    ensures AllDigits(Strip(s)) ==> r == Some(DigitsValue(Strip(s)))
    ensures r.Some? && r.value < 0 ==> |Strip(s)| > 0 && Strip(s)[0] == '-'
  {
    SignedDigits(Strip(s))
  }

  /** A digit string reads back as its value. */
  lemma ParseIntDigits(s: string)
    requires AllDigits(s)
    ensures ParseInt(s) == Some(DigitsValue(s))
  {
    assert IsDigit(s[0]) && IsDigit(s[|s| - 1]);
    StripOfTrimmed(s);
  }

  /** `int(str(n)) == n`: the decimal text of any integer, sign included, reads back. */
  lemma ParseIntReadsBack(n: int)
    ensures ParseInt(IntToString(n)) == Some(n)
  {
    var t := IntToString(n);
    var m := if n < 0 then -n else n;
    var digits := NatToString(m);
    NatToStringRoundTrip(m);
    assert IsDigit(t[|t| - 1]) by { assert t[|t| - 1] == digits[|digits| - 1]; }
    StripOfTrimmed(t);
    if n < 0 {
      assert t[1..] == digits;
    }
  }

  /** Two-digit padding reads back as the number. */
  lemma ParseIntPad2(n: nat)
    ensures ParseInt(Pad2(n)) == Some(n)
  {
    Pad2RoundTrip(n);
    ParseIntDigits(Pad2(n));
  }

  /** Python `f"{n:02d}"`: at least two characters, zeros after a minus sign. */
  function Fmt02(n: int): (r: string)
    ensures 0 <= n < 100 ==> |r| == 2 && AllDigits(r)
  {
    if n >= 0 then Pad2(n) else "-" + NatToString(-n)
  }

  /** The formatted number reads back as the number. */
  lemma Fmt02RoundTrip(n: int)
    ensures ParseInt(Fmt02(n)) == Some(n)
  {
    if n >= 0 {
      ParseIntPad2(n);
    } else {
      var s := "-" + NatToString(-n);
      var digits := NatToString(-n);
      assert Trimmed(s) by {
        assert IsDigit(digits[|digits| - 1]);
      }
      StripOfTrimmed(s);
      assert s[1..] == digits;
      NatToStringRoundTrip(-n);
    }
  }

  // ---------------------------------------------------------------------------
  // Rows
  // ---------------------------------------------------------------------------

  /** The values one row contributes to the insert. */
  datatype Item = Item(day: int, month: int, title: string, description: string, traditions: string, preparation: string)

  /** What reading one row does: raise past the `except ValueError` (a missing date or a
      missing column), skip the row, or keep its values. */
  datatype Parsed = Abort | Skip | Keep(item: Item)

  /** The title given to a day without one: "День DD.MM". */
  function DefaultTitle(day: int, month: int): string {
    "День " + Fmt02(day) + "." + Fmt02(month)
  }

  /** The day and month of a stripped date column: nothing (the row is skipped) when it is
      empty, has no dot, does not split into exactly two pieces, or a piece is not a number. */
  function DateNumbers(date: string): (r: Option<(int, int)>)
    ensures r.Some? ==> date != "" && |Split(date, '.')| == 2
  {
    if date == "" || '.' !in date then None
    else
      var parts := Split(date, '.');
      if |parts| != 2 then None
      else match (ParseInt(parts[0]), ParseInt(parts[1]))
        case (Some(day), Some(month)) => Some((day, month))
        case _ => None
  }

  /** The rest of a pass once the date is read: a missing column raises, otherwise the values
      are stripped and an empty title becomes the default one. */
  function RowItem(row: Row, day: int, month: int): (r: Parsed)
    ensures r.Abort? <==> (row.event.None? || row.description.None? || row.traditions.None? || row.preparation.None?)
    ensures r.Keep? ==> (r.item.day == day && r.item.month == month && r.item.title != ""
      && Trimmed(r.item.description) && Trimmed(r.item.traditions) && Trimmed(r.item.preparation))
  {
    if row.event.None? || row.description.None? || row.traditions.None? || row.preparation.None? then Abort
    else
      var title := Strip(row.event.value);
      StripTrimmed(row.description.value);
      StripTrimmed(row.traditions.value);
      StripTrimmed(row.preparation.value);
      Keep(Item(day, month, if title == "" then DefaultTitle(day, month) else title,
                Strip(row.description.value), Strip(row.traditions.value), Strip(row.preparation.value)))
  }

  /** One pass of the reading loop. */
  function ParseRow(row: Row): (r: Parsed)
    ensures r.Abort? ==> (row.date.None? || row.event.None? || row.description.None?
      || row.traditions.None? || row.preparation.None?)
    ensures r.Keep? ==> (r.item.title != "" && Trimmed(r.item.description)
      && Trimmed(r.item.traditions) && Trimmed(r.item.preparation))
  {
    if row.date.None? then Abort
    else match DateNumbers(Strip(row.date.value))
      case None => Skip
      case Some((day, month)) => RowItem(row, day, month)
  }

  /** A calendar date needs no stripping and splits at its dot into the two padded numbers. */
  lemma CalendarDateSplits(d: Date)
    requires Valid(d)
    ensures Strip(DayMonthText(d)) == DayMonthText(d) && '.' in DayMonthText(d)
    ensures Split(DayMonthText(d), '.') == [Pad2(d.day), Pad2(d.month)]
  {
    assert DayMonthText(d) == Pad2(d.day) + "." + Pad2(d.month);
    DigitsAroundDot(Pad2(d.day), Pad2(d.month));
  }

  /** Two digit strings joined by a dot need no stripping and split back at the dot. */
  lemma DigitsAroundDot(a: string, b: string)
    requires AllDigits(a) && AllDigits(b)
    ensures Strip(a + "." + b) == a + "." + b && '.' in a + "." + b
    ensures Split(a + "." + b, '.') == [a, b]
  {
    var t := a + "." + b;
    assert t[0] == a[0] && IsDigit(a[0]);
    assert t[|t| - 1] == b[|b| - 1] && IsDigit(b[|b| - 1]);
    StripOfTrimmed(t);
    assert t[|a|] == '.';
    assert '.' !in a && '.' !in b by {
      assert forall k :: 0 <= k < |a| ==> IsDigit(a[k]);
      assert forall k :: 0 <= k < |b| ==> IsDigit(b[k]);
    }
    SplitTwo(a, b, '.');
  }

  /** A row the calendar scripts write, dated "DD.MM" for a real day, is kept with that day
      and month; a row without a name is titled "День DD.MM" after its own date. */
  lemma ReadsCalendarRow(d: Date, event: string, description: string, traditions: string, preparation: string)
    requires Valid(d)
    ensures ParseRow(Row(Some(DayMonthText(d)), Some(event), Some(description), Some(traditions), Some(preparation)))
      == Keep(Item(d.day, d.month, if Strip(event) == "" then "День " + DayMonthText(d) else Strip(event),
                   Strip(description), Strip(traditions), Strip(preparation)))
  {
    CalendarDateNumbers(d);
    DefaultTitleOfDate(d);
  }

  /** The day and month read back from a calendar date are that date's. */
  lemma CalendarDateNumbers(d: Date)
    requires Valid(d)
    ensures DateNumbers(Strip(DayMonthText(d))) == Some((d.day, d.month))
  {
    CalendarDateSplits(d);
    ParseIntPad2(d.day);
    ParseIntPad2(d.month);
    DateNumbersOfPieces(DayMonthText(d), Pad2(d.day), Pad2(d.month));
  }

  /** A date that splits into two numbers gives those numbers. */
  lemma DateNumbersOfPieces(date: string, a: string, b: string)
    requires date != "" && '.' in date && Split(date, '.') == [a, b]
    requires ParseInt(a).Some? && ParseInt(b).Some?
    ensures DateNumbers(date) == Some((ParseInt(a).value, ParseInt(b).value))
  {
    var parts := Split(date, '.');
    assert parts[0] == a && parts[1] == b;
  }

  /** The default title of a real day is "День " followed by its calendar text. */
  lemma DefaultTitleOfDate(d: Date)
    requires Valid(d)
    ensures DefaultTitle(d.day, d.month) == "День " + DayMonthText(d)
  {
    ConcatAssoc("День " + Pad2(d.day), ".", Pad2(d.month));
    ConcatAssoc("День ", Pad2(d.day), "." + Pad2(d.month));
  }

  /** The reading loop over the outcomes of its rows: the kept values in file order, or None
      when a row raised and the whole import was abandoned. */
  function Gather(ps: seq<Parsed>): (r: Option<seq<Item>>)
    ensures r.Some? ==> |r.value| <= |ps|
  {
    if ps == [] then Some([])
    else match ps[0]
      case Abort => None
      case Skip => Gather(ps[1..])
      case Keep(item) =>
        match Gather(ps[1..])
        case None => None
        case Some(rest) => Some([item] + rest)
  }

  /** The reading loop of `import_csv_data`. */
  function EventsData(rows: seq<Row>): (r: Option<seq<Item>>)
    ensures r.None? <==> exists i :: 0 <= i < |rows| && ParseRow(rows[i]).Abort?
  {
    var ps := Map(rows, ParseRow);
    GatherAborts(ps);
    Gather(ps)
  }

  /** The reading is abandoned exactly when some row raises. */
  lemma {:induction false} GatherAborts(ps: seq<Parsed>)
    ensures Gather(ps).None? <==> exists i :: 0 <= i < |ps| && ps[i].Abort?
    decreases |ps|
  {
    if ps != [] {
      GatherAborts(ps[1..]);
      assert forall i :: 1 <= i < |ps| ==> ps[i] == ps[1..][i - 1];
      if exists i :: 0 <= i < |ps[1..]| && ps[1..][i].Abort? {
        var i :| 0 <= i < |ps[1..]| && ps[1..][i].Abort?;
        assert ps[i + 1].Abort?;
      }
    }
  }

  /** Every kept row's values are in the list. */
  lemma {:induction false} GatherKeeps(ps: seq<Parsed>, i: int)
    requires Gather(ps).Some? && 0 <= i < |ps| && ps[i].Keep?
    ensures ps[i].item in Gather(ps).value
    decreases |ps|
  {
    if i > 0 {
      assert ps[i] == ps[1..][i - 1];
      GatherKeeps(ps[1..], i - 1);
    }
  }

  /** Everything in the list was kept from some row. */
  lemma {:induction false} GatherOnlyKeeps(ps: seq<Parsed>, it: Item)
    requires Gather(ps).Some? && it in Gather(ps).value
    ensures exists i :: 0 <= i < |ps| && ps[i] == Keep(it)
    decreases |ps|
  {
    if ps[0] != Keep(it) {
      GatherOnlyKeeps(ps[1..], it);
      var i :| 0 <= i < |ps[1..]| && ps[1..][i] == Keep(it);
      assert ps[i + 1] == ps[1..][i];
    }
  }

  /** The import reads nothing when a row lacks its date or, once its date parses, a column;
      otherwise it reads exactly the values of the kept rows. */
  lemma EventsDataFacts(rows: seq<Row>)
    ensures EventsData(rows).None? <==> exists i :: 0 <= i < |rows| && ParseRow(rows[i]).Abort?
    ensures EventsData(rows).Some? ==> forall it :: it in EventsData(rows).value <==>
      exists i :: 0 <= i < |rows| && ParseRow(rows[i]) == Keep(it)
  {
    var ps := Map(rows, ParseRow);
    GatherAborts(ps);
    if EventsData(rows).Some? {
      forall it ensures it in EventsData(rows).value <==> exists i :: 0 <= i < |rows| && ParseRow(rows[i]) == Keep(it) {
        if it in EventsData(rows).value {
          GatherOnlyKeeps(ps, it);
        }
        if exists i :: 0 <= i < |rows| && ParseRow(rows[i]) == Keep(it) {
          var i :| 0 <= i < |rows| && ParseRow(rows[i]) == Keep(it);
          GatherKeeps(ps, i);
        }
      }
    }
  }

  // ---------------------------------------------------------------------------
  // Inserting
  // ---------------------------------------------------------------------------

  /** `execute_values` sends the argument list in statements of this many rows. */
  const PageSize: nat := 100

  /** Two rows of one statement on the same (day, month): PostgreSQL refuses to let an
      `ON CONFLICT DO UPDATE` statement touch a row twice. */
  predicate HasDuplicateDate(page: seq<Item>) {
    exists i, j :: 0 <= i < j < |page| && page[i].day == page[j].day && page[i].month == page[j].month
  }

  /** Some statement of the insert repeats a date. */
  predicate PagesClash(items: seq<Item>) {
    var pages := Chunks(items, PageSize);
    exists p :: 0 <= p < |pages| && HasDuplicateDate(pages[p])
  }

  /** The upsert of one row of the insert; all four text columns are given. */
  function UpsertItem(db: Db, item: Item): Db {
    Upsert(db, item.day, item.month, item.title, Some(item.description), Some(item.traditions),
           Some(item.preparation)).1
  }

  /** The rows upserted one after another. */
  function ApplyAll(db: Db, items: seq<Item>): (r: Db)
    ensures r == db.(events := r.events, nextEventId := r.nextEventId)
    decreases |items|
  {
    if items == [] then db else ApplyAll(UpsertItem(db, items[0]), items[1..])
  }

  /** The statements executed one after another. */
  function ApplyPages(db: Db, pages: seq<seq<Item>>): (r: Db)
    decreases |pages|
    ensures r == db.(events := r.events, nextEventId := r.nextEventId)
  {
    if pages == [] then db else ApplyPages(ApplyAll(db, pages[0]), pages[1..])
  }

  /** `import_csv_data`: with nothing kept there is nothing to do; a row that raises, a
      database error or a statement with a repeated date rolls everything back; otherwise
      every statement's upserts are committed. Only the events table changes. */
  function ImportCsvData(db: Db, rows: seq<Row>, fails: bool): (r: Db)
    ensures r == db.(events := r.events, nextEventId := r.nextEventId)
    ensures fails || EventsData(rows).None? ==> r == db
    ensures EventsData(rows).Some? && PagesClash(EventsData(rows).value) ==> r == db
  {
    match EventsData(rows)
    case None => db
    case Some(items) =>
      if items == [] then db
      else
        var pages := Chunks(items, PageSize);
        if fails || PagesClash(items) then db
        else
          ApplyPages(db, pages)
  }

  /** Running two lists one after the other is running their concatenation. */
  lemma {:induction false} ApplyAllConcat(db: Db, a: seq<Item>, b: seq<Item>)
    ensures ApplyAll(db, a + b) == ApplyAll(ApplyAll(db, a), b)
    decreases |a|
  {
    if a != [] {
      assert (a + b)[0] == a[0] && (a + b)[1..] == a[1..] + b;
      ApplyAllConcat(UpsertItem(db, a[0]), a[1..], b);
    } else {
      assert a + b == b;
    }
  }

  /** Executing the statements in turn is upserting their rows in turn. */
  lemma {:induction false} ApplyPagesFlatten(db: Db, pages: seq<seq<Item>>)
    ensures ApplyPages(db, pages) == ApplyAll(db, Flatten(pages))
    decreases |pages|
  {
    if pages != [] {
      ApplyPagesFlatten(ApplyAll(db, pages[0]), pages[1..]);
      ApplyAllConcat(db, pages[0], Flatten(pages[1..]));
    }
  }

  /** A committed import is the upsert of every kept row in file order, whatever the paging. */
  lemma ImportIsUpsertOfAll(db: Db, rows: seq<Row>, fails: bool)
    requires EventsData(rows).Some? && ImportCsvData(db, rows, fails) != db
    ensures ImportCsvData(db, rows, fails) == ApplyAll(db, EventsData(rows).value)
  {
    var items := EventsData(rows).value;
    ApplyPagesFlatten(db, Chunks(items, PageSize));
    FlattenChunks(items, PageSize);
  }

  // ---------------------------------------------------------------------------
  // What a committed import leaves in the table
  // ---------------------------------------------------------------------------

  /** The upserts keep the table's constraints. */
  lemma {:induction false} ApplyAllPreservesWf(db: Db, items: seq<Item>)
    requires Wf(db)
    ensures Wf(ApplyAll(db, items))
    decreases |items|
  {
    if items != [] {
      var it := items[0];
      UpsertPreservesWf(db, it.day, it.month, it.title, Some(it.description), Some(it.traditions), Some(it.preparation));
      ApplyAllPreservesWf(UpsertItem(db, it), items[1..]);
    }
  }

  /** An import, committed or rolled back, keeps the table's constraints. */
  lemma ImportPreservesWf(db: Db, rows: seq<Row>, fails: bool)
    requires Wf(db)
    ensures Wf(ImportCsvData(db, rows, fails))
  {
    if EventsData(rows).Some? && ImportCsvData(db, rows, fails) != db {
      ImportIsUpsertOfAll(db, rows, fails);
      ApplyAllPreservesWf(db, EventsData(rows).value);
    }
  }

  /** The row in the table holds the item's values. */
  predicate Stores(e: Event, item: Item) {
    e.day == item.day && e.month == item.month && e.title == item.title
    && e.description == Some(item.description) && e.traditions == Some(item.traditions)
    && e.preparation == Some(item.preparation)
  }

  /** A row on a date no item has stays in the table untouched. */
  lemma {:induction false} ApplyAllKeepsOtherDates(db: Db, items: seq<Item>, e: Event)
    requires e in db.events
    requires forall k :: 0 <= k < |items| ==> items[k].day != e.day || items[k].month != e.month
    ensures e in ApplyAll(db, items).events
    decreases |items|
  {
    if items != [] {
      var it := items[0];
      UpsertKeepsOtherDates(db, it.day, it.month, it.title, Some(it.description), Some(it.traditions), Some(it.preparation), e);
      ApplyAllKeepsOtherDates(UpsertItem(db, it), items[1..], e);
    }
  }

  /** The last item for a date decides that date's row. */
  lemma {:induction false} ApplyAllLastWins(db: Db, items: seq<Item>, k: int)
    requires 0 <= k < |items|
    requires forall l :: k < l < |items| ==> items[l].day != items[k].day || items[l].month != items[k].month
    ensures exists e :: e in ApplyAll(db, items).events && Stores(e, items[k])
    decreases |items|
  {
    var it := items[0];
    var db' := UpsertItem(db, it);
    if k == 0 {
      var (e, _) := Upsert(db, it.day, it.month, it.title, Some(it.description), Some(it.traditions), Some(it.preparation));
      assert e in db'.events && Stores(e, it);
      ApplyAllKeepsOtherDates(db', items[1..], e);
    } else {
      ApplyAllLastWins(db', items[1..], k - 1);
    }
  }

  /** After a committed import, every date's last kept row is in the table with its values. */
  lemma ImportLastRowWins(db: Db, rows: seq<Row>, fails: bool, k: int)
    requires EventsData(rows).Some? && ImportCsvData(db, rows, fails) != db
    requires 0 <= k < |EventsData(rows).value|
    requires var items := EventsData(rows).value;
      forall l :: k < l < |items| ==> items[l].day != items[k].day || items[l].month != items[k].month
    ensures exists e :: e in ImportCsvData(db, rows, fails).events && Stores(e, EventsData(rows).value[k])
  {
    ImportIsUpsertOfAll(db, rows, fails);
    ApplyAllLastWins(db, EventsData(rows).value, k);
  }

  /** After any import, a row on a date the file does not keep is still in the table. */
  lemma ImportKeepsOtherDates(db: Db, rows: seq<Row>, fails: bool, e: Event)
    requires e in db.events
    requires EventsData(rows).Some? ==> forall it :: it in EventsData(rows).value ==> it.day != e.day || it.month != e.month
    ensures e in ImportCsvData(db, rows, fails).events
  {
    if EventsData(rows).Some? && ImportCsvData(db, rows, fails) != db {
      ImportIsUpsertOfAll(db, rows, fails);
      var items := EventsData(rows).value;
      assert forall k :: 0 <= k < |items| ==> items[k] in items;
      ApplyAllKeepsOtherDates(db, items, e);
    }
  }

  /** Items with distinct dates never repeat a date within a statement. */
  lemma PageHasNoDuplicate(items: seq<Item>, p: int)
    requires forall i, j :: 0 <= i < j < |items| ==> items[i].day != items[j].day || items[i].month != items[j].month
    requires 0 <= p < |Chunks(items, PageSize)|
    ensures !HasDuplicateDate(Chunks(items, PageSize)[p])
  {
    var page := Chunks(items, PageSize)[p];
    ChunkSlice(items, PageSize, p);
    var lo := p * PageSize;
    forall i, j | 0 <= i < j < |page|
      ensures page[i].day != page[j].day || page[i].month != page[j].month
    {
      assert page[i] == items[lo + i] && page[j] == items[lo + j];
    }
  }

  /** Kept rows with distinct dates never share a statement's date, so only a database
      error can roll such an import back. */
  lemma DistinctDatesCommit(db: Db, rows: seq<Row>)
    requires EventsData(rows).Some?
    requires var items := EventsData(rows).value;
      forall i, j :: 0 <= i < j < |items| ==> items[i].day != items[j].day || items[i].month != items[j].month
    ensures ImportCsvData(db, rows, false) == ApplyAll(db, EventsData(rows).value)
  {
    var items := EventsData(rows).value;
    if items != [] {
      var pages := Chunks(items, PageSize);
      forall p | 0 <= p < |pages| ensures !HasDuplicateDate(pages[p]) {
        PageHasNoDuplicate(items, p);
      }
      ApplyPagesFlatten(db, pages);
      FlattenChunks(items, PageSize);
    }
  }
}

=== FILE: epub_extract.dfy ===
/** The EPUB date extractor (extract_dates_from_epub.py): Ukrainian day-and-month phrases are
    normalised to "DD.MM", the text around each phrase is cut out and classified as pagan or
    Christian, and the results are grouped by normalised date.

    The two regular expressions of the script are written out by hand with Python's
    backtracking semantics; `\d` is the ASCII digits and `\w` is `Text.IsWordChar`. */
module EpubExtract {
  import opened Wrappers
  import opened Text
  import opened Collections

  // ---------------------------------------------------------------------------
  // Month names
  // ---------------------------------------------------------------------------

  /** MONTHS_MAP, one triple per month: genitive name, three-letter abbreviation, month number. */
  const MonthNames: seq<(string, string, string)> := [
    ("січня", "січ", "01"), ("лютого", "лют", "02"), ("березня", "бер", "03"),
    ("квітня", "кві", "04"), ("травня", "тра", "05"), ("червня", "чер", "06"),
    ("липня", "лип", "07"), ("серпня", "сер", "08"), ("вересня", "вер", "09"),
    ("жовтня", "жов", "10"), ("листопада", "лис", "11"), ("грудня", "гру", "12")
  ]

  /** `word` is one of the two keys of month `i` (0-based). */
  predicate NamesMonth(word: string, i: int)
    requires 0 <= i < |MonthNames|
  {
    word == MonthNames[i].0 || word == MonthNames[i].1
  }

  /** The month whose key `word` is, searching the table from month `k` on. */
  function IndexFrom(word: string, k: nat): (r: Option<nat>)
    requires k <= |MonthNames|
    decreases |MonthNames| - k
    ensures r.Some? ==> k <= r.value < |MonthNames| && NamesMonth(word, r.value)
    ensures r.None? <==> forall i :: k <= i < |MonthNames| ==> !NamesMonth(word, i)
  {
    if k == |MonthNames| then None
    else if NamesMonth(word, k) then Some(k)
    else IndexFrom(word, k + 1)
  }

  function MonthIndex(word: string): Option<nat> {
    IndexFrom(word, 0)
  }

  /** `MONTHS_MAP.get(word)`. */
  function MonthLookup(word: string): (r: Option<string>)
    ensures r.None? <==> forall i :: 0 <= i < |MonthNames| ==> !NamesMonth(word, i)
  {
    match MonthIndex(word)
    case None => None
    case Some(i) => Some(MonthNames[i].2)
  }

  /** The 24 keys are pairwise different, so the dictionary literal loses none of them. */
  lemma MonthKeysDistinct(i: int, j: int, word: string)
    requires 0 <= i < |MonthNames| && 0 <= j < |MonthNames|
    requires NamesMonth(word, i) && NamesMonth(word, j)
    ensures i == j
  {
  }

  /** Every value of the table is a two-digit month number: the `i`-th month is `i + 1`. */
  lemma MonthNumbers(i: int)
    requires 0 <= i < |MonthNames|
    ensures |MonthNames[i].2| == 2 && AllDigits(MonthNames[i].2)
    ensures DigitsValue(MonthNames[i].2) == i + 1
  {
  }

  /** A key of month `i` looks up month `i`'s number. */
  lemma LookupNamesMonth(word: string, i: int)
    requires 0 <= i < |MonthNames| && NamesMonth(word, i)
    ensures MonthIndex(word) == Some(i)
    ensures MonthLookup(word) == Some(MonthNames[i].2)
  {
    MonthKeysDistinct(i, MonthIndex(word).value, word);
  }

  /** The genitive name and the abbreviation of a month give the same month number. */
  lemma NameAndAbbreviationAgree(i: int)
    requires 0 <= i < |MonthNames|
    ensures MonthLookup(MonthNames[i].0) == MonthLookup(MonthNames[i].1) == Some(MonthNames[i].2)
  {
    LookupNamesMonth(MonthNames[i].0, i);
    LookupNamesMonth(MonthNames[i].1, i);
  }

  // ---------------------------------------------------------------------------
  // Greedy runs: the building blocks of the two patterns
  // ---------------------------------------------------------------------------

  /** The character classes the two patterns use. */
  datatype Class = Digit | Space | Word | NameChar

  /** `c` belongs to the class: `\d`, `\s`, `\w` and `[А-ЯЇІЄҐ\s]`. */
  predicate In(cls: Class, c: char) {
    match cls
    case Digit => IsDigit(c)
    case Space => IsSpace(c)
    case Word => IsWordChar(c)
    case NameChar => InNameClass(c)
  }

  /** The longest run, of at most `max` characters of class `cls`, from `p` on. */
  function Run(s: string, p: nat, cls: Class, max: nat): (n: nat)
    requires p <= |s|
    decreases max
    ensures n <= max && p + n <= |s|
    ensures forall k :: p <= k < p + n ==> In(cls, s[k])
    ensures n < max && p + n < |s| ==> !In(cls, s[p + n])
  {
    if max == 0 || p == |s| || !In(cls, s[p]) then 0 else 1 + Run(s, p + 1, cls, max - 1)
  }

  /** The unbounded greedy run (`*`, and `+` when non-empty). */
  function Span(s: string, p: nat, cls: Class): (n: nat)
    requires p <= |s|
    ensures p + n <= |s|
    ensures forall k :: p <= k < p + n ==> In(cls, s[k])
    ensures p + n < |s| ==> !In(cls, s[p + n])
  {
    Run(s, p, cls, |s| - p)
  }

  /** A run is pinned down by its extent: everything inside is in the class and the run stops at
      the bound, at the end of the text or at a character outside the class. */
  lemma RunExact(s: string, p: nat, cls: Class, max: nat, n: nat)
    requires p + n <= |s| && n <= max
    requires forall k :: p <= k < p + n ==> In(cls, s[k])
    requires n == max || p + n == |s| || !In(cls, s[p + n])
    ensures Run(s, p, cls, max) == n
  {
  }

  lemma SpanExact(s: string, p: nat, cls: Class, n: nat)
    requires p + n <= |s|
    requires forall k :: p <= k < p + n ==> In(cls, s[k])
    requires p + n == |s| || !In(cls, s[p + n])
    ensures Span(s, p, cls) == n
  {
    RunExact(s, p, cls, |s| - p, n);
  }

  lemma WordCharNotSpace(c: char)
    requires IsWordChar(c)
    ensures !IsSpace(c) && c != '/'
  {
  }

  // ---------------------------------------------------------------------------
  // normalize_date
  // ---------------------------------------------------------------------------

  /** A match of `(\d{1,2})\s*\/\s*\d{1,2}` at `p`: the end of the group and of the match.
      Backing off the first `\d{1,2}` never helps, since a digit is neither a space nor '/'. */
  function SlashMatchAt(s: string, p: nat): (r: Option<(nat, nat)>)
    requires p <= |s|
    ensures r.Some? ==> p < r.value.0 <= p + 2 && r.value.0 < r.value.1 <= |s|
    ensures r.Some? ==> forall k :: p <= k < r.value.0 ==> IsDigit(s[k])
    ensures r.Some? ==> exists k :: r.value.0 <= k < r.value.1 && s[k] == '/'
  {
    var d := Run(s, p, Digit, 2);
    var q := p + d + Span(s, p + d, Space);
    if d == 0 || q == |s| || s[q] != '/' then None
    else
      var b := q + 1 + Span(s, q + 1, Space);
      var d2 := Run(s, b, Digit, 2);
      if d2 == 0 then None else Some((p + d, b + d2))
  }

  /** Per-position matches of the slash pattern over `s` that can drive a scan: each ends
      after its position and within `s`. */
  predicate SlashesWf(s: string, ms: seq<Option<(nat, nat)>>) {
    && |ms| == |s| + 1
    && forall p :: 0 <= p < |ms| && ms[p].Some? ==> p < ms[p].value.0 <= ms[p].value.1 <= |s|
  }

  /** The slash pattern's match, if any, at each position 0..|s| of `s`. */
  function SlashMatches(s: string): (r: seq<Option<(nat, nat)>>)
    ensures SlashesWf(s, r) && forall p :: 0 <= p <= |s| ==> r[p] == SlashMatchAt(s, p)
  {
    seq(|s| + 1, p requires 0 <= p <= |s| => SlashMatchAt(s, p))
  }

  /** The left-to-right scan of the substitution over the matches `ms`: each match, taken
      without overlap, is replaced by its first number. */
  function SubWith(s: string, ms: seq<Option<(nat, nat)>>, p: nat): string
    requires SlashesWf(s, ms) && p <= |s|
    decreases |s| - p
  {
    if p == |s| then []
    else match ms[p]
      case Some((g, e)) => s[p..g] + SubWith(s, ms, e)
      case None => [s[p]] + SubWith(s, ms, p + 1)
  }

  /** A scan over positions without a match copies the text. */
  lemma {:induction false} SubWithCopies(s: string, ms: seq<Option<(nat, nat)>>, p: nat)
    requires SlashesWf(s, ms) && p <= |s|
    requires forall k :: p <= k < |s| ==> ms[k].None?
    ensures SubWith(s, ms, p) == s[p..]
    decreases |s| - p
  {
    if p < |s| {
      SubWithCopies(s, ms, p + 1);
      assert s[p..] == [s[p]] + s[p + 1..];
    }
  }

  /** `re.sub(r'(\d{1,2})\s*\/\s*\d{1,2}', r'\1', s[p..])`. */
  function SubSlashes(s: string, p: nat): string
    requires p <= |s|
  {
    SubWith(s, SlashMatches(s), p)
  }

  /** A match is replaced by its first number and the scan resumes after it. */
  lemma SubSlashesAtMatch(s: string, p: nat, g: nat, e: nat)
    requires p < |s| && SlashMatchAt(s, p) == Some((g, e))
    ensures p <= g <= e <= |s| && SubSlashes(s, p) == s[p..g] + SubSlashes(s, e)
  {
    assert SlashMatches(s)[p] == Some((g, e));
  }

  /** Text without '/' passes the substitution unchanged. */
  lemma SubSlashesNoSlash(s: string, p: nat)
    requires p <= |s|
    requires forall k :: p <= k < |s| ==> s[k] != '/'
    ensures SubSlashes(s, p) == s[p..]
  {
    var ms := SlashMatches(s);
    forall k | p <= k < |s| ensures ms[k].None? {
      SlashNeedsSlash(s, k);
    }
    SubWithCopies(s, ms, p);
  }

  /** The slash pattern cannot match where no '/' follows. */
  lemma SlashNeedsSlash(s: string, p: nat)
    requires p <= |s| && forall k :: p <= k < |s| ==> s[k] != '/'
    ensures SlashMatchAt(s, p).None?
  {
  }

  /** A match of `(\d{1,2})\s+(\w+)` at `p`: the day digits and the month word. */
  function DayMonthAt(s: string, p: nat): (r: Option<(string, string)>)
    requires p <= |s|
    ensures r.Some? ==> AllDigits(r.value.0) && |r.value.0| <= 2
    ensures r.Some? ==> r.value.1 != [] && forall k :: 0 <= k < |r.value.1| ==> IsWordChar(r.value.1[k])
  {
    var d := Run(s, p, Digit, 2);
    if d == 0 then None
    else
      var day := s[p..p + d];
      SliceIn(s, p, d, Digit, day);
      WordAfterDay(s, p + d, day)
  }

  /** The rest of the match once the day digits `day` end at `q`: spaces, then the word. */
  function WordAfterDay(s: string, q: nat, day: string): (r: Option<(string, string)>)
    requires q <= |s|
    ensures r.Some? ==> r.value.0 == day
    ensures r.Some? ==> r.value.1 != [] && forall k :: 0 <= k < |r.value.1| ==> IsWordChar(r.value.1[k])
  {
    var gap := Span(s, q, Space);
    var w := Span(s, q + gap, Word);
    if gap == 0 || w == 0 then None
    else
      var word := s[q + gap..q + gap + w];
      SliceIn(s, q + gap, w, Word, word);
      Some((day, word))
  }

  /** A stretch of characters of one class, cut out. */
  lemma SliceIn(s: string, p: nat, n: nat, cls: Class, t: string)
    requires p + n <= |s| && t == s[p..p + n] && forall k :: p <= k < p + n ==> In(cls, s[k])
    ensures forall k :: 0 <= k < |t| ==> In(cls, t[k])
  {
    assert forall k :: 0 <= k < |t| ==> t[k] == s[p + k];
  }

  /** What every match of `(\d{1,2})\s+(\w+)` captures: one or two digits and a non-empty word. */
  predicate IsDayWord(m: (string, string)) {
    AllDigits(m.0) && |m.0| <= 2 && m.1 != []
  }

  /** The match at every position of `s`, the end included. */
  function DayMonths(s: string): (r: seq<Option<(string, string)>>)
    ensures |r| == |s| + 1
    ensures forall q :: 0 <= q <= |s| ==> r[q] == DayMonthAt(s, q)
    ensures forall q :: 0 <= q <= |s| && r[q].Some? ==> IsDayWord(r[q].value)
  {
    seq(|s| + 1, q requires 0 <= q <= |s| => DayMonthAt(s, q))
  }

  /** `re.search(r'(\d{1,2})\s+(\w+)', s[p..])`: the match at the first position from `p` on
      that has one. */
  function SearchDayMonth(s: string, p: nat): (r: Option<(string, string)>)
    requires p <= |s|
    ensures r.Some? ==> AllDigits(r.value.0) && |r.value.0| <= 2 && r.value.1 != []
    ensures r.Some? ==> exists q :: p <= q <= |s| && DayMonthAt(s, q) == r
    ensures r.None? <==> forall q :: p <= q <= |s| ==> DayMonthAt(s, q).None?
  {
    var ms := DayMonths(s);
    var r := FirstSome(ms, p);
    SearchShape(ms, p, r);
    SearchFound(s, p, ms, r);
    SearchNone(s, p, ms, r);
    assert r.None? <== forall q :: p <= q <= |s| ==> DayMonthAt(s, q).None?;
    r
  }

  /** A match taken from the table of matches is a `DayMonthAt` match from `p` on. */
  lemma SearchFound(s: string, p: nat, ms: seq<Option<(string, string)>>, r: Option<(string, string)>)
    requires p <= |s| && |ms| == |s| + 1
    requires forall q :: 0 <= q <= |s| ==> ms[q] == DayMonthAt(s, q)
    requires r.Some? ==> exists q :: p <= q < |ms| && ms[q] == r
    ensures r.Some? ==> exists q :: p <= q <= |s| && DayMonthAt(s, q) == r
  {
    if r.Some? {
      var q :| p <= q < |ms| && ms[q] == r;
      assert DayMonthAt(s, q) == r;
    }
  }

  /** A match taken from the table of matches has the shape of every match in it. */
  lemma SearchShape(ms: seq<Option<(string, string)>>, p: nat, r: Option<(string, string)>)
    requires p <= |ms| && r == FirstSome(ms, p)
    requires forall q :: 0 <= q < |ms| && ms[q].Some? ==> IsDayWord(ms[q].value)
    ensures r.Some? ==> IsDayWord(r.value)
  {
  }

  /** When the table has no match from `p` on, no position from `p` on matches. */
  lemma SearchNone(s: string, p: nat, ms: seq<Option<(string, string)>>, r: Option<(string, string)>)
    requires p <= |s| && |ms| == |s| + 1 && r == FirstSome(ms, p)
    requires forall q :: 0 <= q <= |s| ==> ms[q] == DayMonthAt(s, q)
    ensures r.None? ==> forall q :: p <= q <= |s| ==> DayMonthAt(s, q).None?
  {
    if r.None? {
      forall q | p <= q <= |s| ensures DayMonthAt(s, q).None? {
        assert ms[q].None?;
      }
    }
  }

  /** The search returns the match at the first position that has one: the leftmost match. */
  lemma SearchDayMonthLeftmost(s: string, p: nat, q: nat)
    requires p <= q <= |s|
    requires forall k :: p <= k < q ==> DayMonthAt(s, k).None?
    requires DayMonthAt(s, q).Some?
    ensures SearchDayMonth(s, p) == DayMonthAt(s, q)
  {
    FirstSomeLeftmost(DayMonths(s), p, q);
  }

  /** The shape of a normalised date: two digits, a dot and a two-digit month from 01 to 12. */
  predicate IsDayMonth(r: string) {
    |r| == 5 && IsDigit(r[0]) && IsDigit(r[1]) && r[2] == '.'
    && AllDigits(r[3..]) && 1 <= DigitsValue(r[3..]) <= 12
  }

  lemma DayMonthShape(dd: string, i: int)
    requires AllDigits(dd) && |dd| == 2 && 0 <= i < |MonthNames|
    ensures IsDayMonth(dd + "." + MonthNames[i].2)
  {
    MonthNumbers(i);
    var r := dd + "." + MonthNames[i].2;
    assert r[3..] == MonthNames[i].2;
  }

  /** `normalize_date`: drop a second day after '/', find "day word", zero-pad the day and look up
      the lower-cased word. */
  function NormalizeDate(dateStr: string): (r: Option<string>)
    ensures r.Some? ==> IsDayMonth(r.value)
  {
    match SearchDayMonth(SubSlashes(dateStr, 0), 0)
    case None => None
    case Some((day, word)) =>
      match MonthIndex(Lower(word))
      case None => None
      case Some(i) =>
        var dd := ZFill(day, 2);
        ZFillDigits(day, 2);
        DayMonthShape(dd, i);
        Some(dd + "." + MonthNames[i].2)
  }

  /** Day digits, spaces and a word: the pattern's match at the start of the text. */
  lemma DayGapWordMatch(d: string, gap: string, w: string)
    requires AllDigits(d) && |d| <= 2
    requires gap != [] && forall k :: 0 <= k < |gap| ==> IsSpace(gap[k])
    requires w != [] && forall k :: 0 <= k < |w| ==> IsWordChar(w[k])
    ensures SearchDayMonth(d + gap + w, 0) == Some((d, w))
  {
    DayGapWordAt(d, gap, w);
    SearchHitsFirst(d + gap + w);
  }

  lemma DayGapWordAt(d: string, gap: string, w: string)
    requires AllDigits(d) && |d| <= 2
    requires gap != [] && forall k :: 0 <= k < |gap| ==> IsSpace(gap[k])
    requires w != [] && forall k :: 0 <= k < |w| ==> IsWordChar(w[k])
    ensures DayMonthAt(d + gap + w, 0) == Some((d, w))
  {
    DayRun(d, gap, w);
    GapRun(d, gap, w);
    WordRun(d, gap, w);
    ThreeParts(d, gap, w);
  }

  /** A match at the start is the leftmost one. */
  lemma SearchHitsFirst(s: string)
    requires DayMonthAt(s, 0).Some?
    ensures SearchDayMonth(s, 0) == DayMonthAt(s, 0)
  {
  }

  /** The outer parts of a three-part concatenation are read back by slicing. */
  lemma ThreeParts(a: string, b: string, c: string)
    ensures (a + b + c)[0..|a|] == a
    ensures (a + b + c)[|a| + |b|..|a| + |b| + |c|] == c
  {
    var s := a + b + c;
    assert forall k :: 0 <= k < |a| ==> s[0..|a|][k] == a[k];
    assert forall k :: 0 <= k < |c| ==> s[|a| + |b|..|a| + |b| + |c|][k] == c[k];
  }

  // The three greedy runs of the pattern over "day, spaces, word", one per lemma.

  lemma DayRun(d: string, gap: string, w: string)
    requires AllDigits(d) && |d| <= 2
    requires gap != [] && forall k :: 0 <= k < |gap| ==> IsSpace(gap[k])
    requires w != [] && forall k :: 0 <= k < |w| ==> IsWordChar(w[k])
    ensures Run(d + gap + w, 0, Digit, 2) == |d|
  {
    var s := d + gap + w;
    assert forall k :: 0 <= k < |d| ==> s[k] == d[k];
    assert s[|d|] == gap[0];
    RunExact(s, 0, Digit, 2, |d|);
  }

  lemma GapRun(d: string, gap: string, w: string)
    requires AllDigits(d) && |d| <= 2
    requires gap != [] && forall k :: 0 <= k < |gap| ==> IsSpace(gap[k])
    requires w != [] && forall k :: 0 <= k < |w| ==> IsWordChar(w[k])
    ensures Span(d + gap + w, |d|, Space) == |gap|
  {
    var s := d + gap + w;
    var n := |d| + |gap|;
    assert forall k :: |d| <= k < n ==> s[k] == gap[k - |d|];
    assert s[n] == w[0];
    WordCharNotSpace(w[0]);
    SpanExact(s, |d|, Space, |gap|);
  }

  lemma WordRun(d: string, gap: string, w: string)
    requires AllDigits(d) && |d| <= 2
    requires gap != [] && forall k :: 0 <= k < |gap| ==> IsSpace(gap[k])
    requires w != [] && forall k :: 0 <= k < |w| ==> IsWordChar(w[k])
    ensures Span(d + gap + w, |d| + |gap|, Word) == |w|
  {
    var s := d + gap + w;
    var n := |d| + |gap|;
    assert forall k :: n <= k < |s| ==> s[k] == w[k - n];
    SpanExact(s, n, Word, |w|);
  }

  /** A phrase "D month" with a known month name normalises to the padded day and its number. */
  lemma NormalizeDayMonth(d: string, gap: string, w: string, i: int)
    requires AllDigits(d) && |d| <= 2
    requires gap != [] && forall k :: 0 <= k < |gap| ==> IsSpace(gap[k])
    requires w != [] && forall k :: 0 <= k < |w| ==> IsWordChar(w[k])
    requires 0 <= i < |MonthNames| && NamesMonth(Lower(w), i)
    ensures NormalizeDate(d + gap + w) == Some(ZFill(d, 2) + "." + MonthNames[i].2)
  {
    GapWordNoSlash(gap, w);
    DigitsNoSlash(d, gap + w);
    assert d + gap + w == d + (gap + w);
    DayGapWordMatch(d, gap, w);
    LookupNamesMonth(Lower(w), i);
  }

  /** A phrase whose word is no month name normalises to nothing. */
  lemma UnknownMonthRejected(d: string, gap: string, w: string)
    requires AllDigits(d) && |d| <= 2
    requires gap != [] && forall k :: 0 <= k < |gap| ==> IsSpace(gap[k])
    requires w != [] && forall k :: 0 <= k < |w| ==> IsWordChar(w[k])
    requires forall i :: 0 <= i < |MonthNames| ==> !NamesMonth(Lower(w), i)
    ensures NormalizeDate(d + gap + w) == None
  {
    GapWordNoSlash(gap, w);
    DigitsNoSlash(d, gap + w);
    assert d + gap + w == d + (gap + w);
    DayGapWordMatch(d, gap, w);
  }

  /** Text without a digit has no "day word" match and normalises to nothing. */
  lemma NoDigitRejected(s: string)
    requires forall k :: 0 <= k < |s| ==> !IsDigit(s[k])
    ensures NormalizeDate(s) == None
  {
    NoDigitSubSlashes(s, 0);
    assert s[0..] == s;
    forall q | 0 <= q <= |s| ensures DayMonthAt(s, q).None? {
      assert Run(s, q, Digit, 2) == 0;
    }
  }

  lemma NoDigitSubSlashes(s: string, p: nat)
    requires p <= |s|
    requires forall k :: 0 <= k < |s| ==> !IsDigit(s[k])
    ensures SubSlashes(s, p) == s[p..]
  {
    var ms := SlashMatches(s);
    forall k | p <= k < |s| ensures ms[k].None? {
      assert Run(s, k, Digit, 2) == 0;
    }
    SubWithCopies(s, ms, p);
  }

  /** Spaces followed by word characters hold no '/'. */
  lemma GapWordNoSlash(gap: string, w: string)
    requires forall k :: 0 <= k < |gap| ==> IsSpace(gap[k])
    requires forall k :: 0 <= k < |w| ==> IsWordChar(w[k])
    ensures forall k :: 0 <= k < |gap + w| ==> (gap + w)[k] != '/'
  {
    forall k | 0 <= k < |gap + w| ensures (gap + w)[k] != '/' {
      if k >= |gap| {
        WordCharNotSpace(w[k - |gap|]);
      }
    }
  }

  /** Prefixing digits to text without '/' keeps the substitution the identity. */
  lemma DigitsNoSlash(d: string, rest: string)
    requires AllDigits(d)
    requires forall k :: 0 <= k < |rest| ==> rest[k] != '/'
    ensures SubSlashes(d + rest, 0) == d + rest
  {
    var t := d + rest;
    assert forall k :: 0 <= k < |t| ==> t[k] != '/' by {
      forall k | 0 <= k < |t| ensures t[k] != '/' {
        if k >= |d| {
          assert t[k] == rest[k - |d|];
        }
      }
    }
    SubSlashesNoSlash(t, 0);
    assert t[0..] == t;
  }

  /** The substitution turns "D1/D2" followed by spaces and a word into "D1", the spaces and the
      word. */
  lemma SlashedSubstitution(d1: string, d2: string, gap: string, w: string)
    requires AllDigits(d1) && |d1| <= 2 && AllDigits(d2) && |d2| <= 2
    requires gap != [] && forall k :: 0 <= k < |gap| ==> IsSpace(gap[k])
    requires w != [] && forall k :: 0 <= k < |w| ==> IsWordChar(w[k])
    ensures SubSlashes(d1 + "/" + d2 + gap + w, 0) == d1 + gap + w
  {
    GapWordNoSlash(gap, w);
    SlashThenRest(d1, d2, gap + w);
    ConcatAssoc(d1 + "/" + d2, gap, w);
    ConcatAssoc(d1, gap, w);
  }

  /** The substitution keeps "D1" of a leading "D1/D2" and copies the rest when it holds no '/'. */
  lemma SlashThenRest(d1: string, d2: string, rest: string)
    requires AllDigits(d1) && |d1| <= 2 && AllDigits(d2) && |d2| <= 2
    requires rest != [] && IsSpace(rest[0])
    requires forall k :: 0 <= k < |rest| ==> rest[k] != '/'
    ensures SubSlashes(d1 + "/" + d2 + rest, 0) == d1 + rest
  {
    var h := d1 + "/" + d2;
    var s := h + rest;
    SlashFirst(d1, d2, rest);
    assert s[0..|d1|] == d1 && s[|h|..] == rest;
    SubSlashesKeepsGroup(s, |d1|, |h|, rest);
  }

  /** A match at the start followed by text without '/' leaves the group and that text. */
  lemma SubSlashesKeepsGroup(s: string, g: nat, e: nat, rest: string)
    requires 0 < |s| && SlashMatchAt(s, 0) == Some((g, e))
    requires s[e..] == rest && forall k :: 0 <= k < |rest| ==> rest[k] != '/'
    ensures SubSlashes(s, 0) == s[0..g] + rest
  {
    SubSlashesAtMatch(s, 0, g, e);
    SubSlashesOfTail(s, e, rest);
  }

  /** Text after `e` without '/' is copied unchanged. */
  lemma SubSlashesOfTail(s: string, e: nat, rest: string)
    requires e <= |s| && s[e..] == rest
    requires forall k :: 0 <= k < |rest| ==> rest[k] != '/'
    ensures SubSlashes(s, e) == rest
  {
    forall k | e <= k < |s| ensures s[k] != '/' {
      assert s[k] == s[e..][k - e];
    }
    SubSlashesNoSlash(s, e);
  }

  /** "D1/D2 month" is normalised by its first day only: the substitution turns it into
      "D1 month". */
  lemma SecondDayDropped(d1: string, d2: string, gap: string, w: string)
    requires AllDigits(d1) && |d1| <= 2 && AllDigits(d2) && |d2| <= 2
    requires gap != [] && forall k :: 0 <= k < |gap| ==> IsSpace(gap[k])
    requires w != [] && forall k :: 0 <= k < |w| ==> IsWordChar(w[k])
    ensures NormalizeDate(d1 + "/" + d2 + gap + w) == NormalizeDate(d1 + gap + w)
  {
    SlashedSubstitution(d1, d2, gap, w);
    assert SubSlashes(d1 + gap + w, 0) == d1 + gap + w by {
      GapWordNoSlash(gap, w);
      DigitsNoSlash(d1, gap + w);
      ConcatAssoc(d1, gap, w);
    }
  }

  /** The slash pattern matches "D1/D2" at the start, keeping "D1". */
  lemma SlashFirst(d1: string, d2: string, rest: string)
    requires AllDigits(d1) && |d1| <= 2 && AllDigits(d2) && |d2| <= 2
    requires rest != [] && IsSpace(rest[0])
    ensures SlashMatchAt(d1 + "/" + d2 + rest, 0) == Some((|d1|, |d1| + 1 + |d2|))
  {
    var s := d1 + "/" + d2 + rest;
    SlashFirstDay(d1, d2, rest);
    SlashNoSpaceBefore(d1, d2, rest);
    SlashNoSpaceAfter(d1, d2, rest);
    SlashSecondDay(d1, d2, rest);
    assert s[|d1|] == '/';
  }

  // The greedy runs of the slash pattern over "D1/D2" and a space, one per lemma.

  lemma SlashFirstDay(d1: string, d2: string, rest: string)
    requires AllDigits(d1) && |d1| <= 2 && AllDigits(d2) && |d2| <= 2
    requires rest != [] && IsSpace(rest[0])
    ensures Run(d1 + "/" + d2 + rest, 0, Digit, 2) == |d1|
  {
    var s := d1 + "/" + d2 + rest;
    assert forall k :: 0 <= k < |d1| ==> s[k] == d1[k];
    assert s[|d1|] == '/';
    RunExact(s, 0, Digit, 2, |d1|);
  }

  lemma SlashNoSpaceBefore(d1: string, d2: string, rest: string)
    requires AllDigits(d1) && |d1| <= 2 && AllDigits(d2) && |d2| <= 2
    requires rest != [] && IsSpace(rest[0])
    ensures Span(d1 + "/" + d2 + rest, |d1|, Space) == 0
  {
    var s := d1 + "/" + d2 + rest;
    assert s[|d1|] == '/';
    SpanExact(s, |d1|, Space, 0);
  }

  lemma SlashNoSpaceAfter(d1: string, d2: string, rest: string)
    requires AllDigits(d1) && |d1| <= 2 && AllDigits(d2) && |d2| <= 2
    requires rest != [] && IsSpace(rest[0])
    ensures Span(d1 + "/" + d2 + rest, |d1| + 1, Space) == 0
  {
    var s := d1 + "/" + d2 + rest;
    assert s[|d1| + 1] == d2[0];
    SpanExact(s, |d1| + 1, Space, 0);
  }

  lemma SlashSecondDay(d1: string, d2: string, rest: string)
    requires AllDigits(d1) && |d1| <= 2 && AllDigits(d2) && |d2| <= 2
    requires rest != [] && IsSpace(rest[0])
    ensures Run(d1 + "/" + d2 + rest, |d1| + 1, Digit, 2) == |d2|
  {
    var s := d1 + "/" + d2 + rest;
    var q := |d1|;
    assert forall k :: q + 1 <= k < q + 1 + |d2| ==> s[k] == d2[k - q - 1];
    assert s[q + 1 + |d2|] == rest[0];
    RunExact(s, q + 1, Digit, 2, |d2|);
  }

  // ---------------------------------------------------------------------------
  // is_pagan_content
  // ---------------------------------------------------------------------------

  const PaganKeywords: seq<string> := [
    "язичниц", "слов'ян", "древн", "дохристиян",
    "обряд", "ритуал", "гадання", "ворожіння",
    "Перун", "Велес", "Сварог", "Даждьбог", "Лада", "Мокош",
    "Купал", "Марена", "Ярило", "Коляда",
    "весняне", "літнє", "осіннє", "зимове", "рівнодення", "сонцестояння"
  ]

  const ChristianKeywords: seq<string> := [
    "апостол", "святий", "святої", "мучени", "Христ",
    "церков", "православ", "хрищен", "Богородиц"
  ]

  /** Some keyword, lower-cased, occurs in `text` (the loops of `is_pagan_content`). */
  function MentionsAny(text: string, keywords: seq<string>): (r: bool)
    ensures r <==> exists i :: 0 <= i < |keywords| && Contains(text, Lower(keywords[i]))
  {
    if keywords == [] then false
    else
      assert forall i :: 1 <= i < |keywords| ==> keywords[i] == keywords[1..][i - 1];
      Contains(text, Lower(keywords[0])) || MentionsAny(text, keywords[1..])
  }

  /** `is_pagan_content`: any Christian keyword vetoes; otherwise some pagan keyword must occur. */
  function IsPaganContent(text: string): (r: bool)
    ensures r <==>
      && (forall i :: 0 <= i < |ChristianKeywords| ==> !Contains(Lower(text), Lower(ChristianKeywords[i])))
      && (exists i :: 0 <= i < |PaganKeywords| && Contains(Lower(text), Lower(PaganKeywords[i])))
  {
    var t := Lower(text);
    if MentionsAny(t, ChristianKeywords) then false else MentionsAny(t, PaganKeywords)
  }

  /** A Christian keyword anywhere in the text, in any letter case, makes it non-pagan, whatever
      pagan keywords it also holds. */
  lemma ChristianVetoes(text: string, i: int)
    requires 0 <= i < |ChristianKeywords|
    requires Contains(Lower(text), Lower(ChristianKeywords[i]))
    ensures !IsPaganContent(text)
  {
  }

  /** Without Christian keywords, the text is pagan exactly when a pagan keyword occurs in it. */
  lemma PaganIffKeyword(text: string)
    requires forall i :: 0 <= i < |ChristianKeywords| ==> !Contains(Lower(text), Lower(ChristianKeywords[i]))
    ensures IsPaganContent(text) <==> exists i :: 0 <= i < |PaganKeywords| && Contains(Lower(text), Lower(PaganKeywords[i]))
  {
  }

  lemma LowerCharIdempotent(c: char)
    ensures LowerChar(LowerChar(c)) == LowerChar(c)
  {
  }

  /** The classification ignores letter case: lower-casing the text first changes nothing. */
  lemma PaganIgnoresCase(text: string)
    ensures IsPaganContent(Lower(text)) == IsPaganContent(text)
  {
    forall k | 0 <= k < |text| ensures Lower(Lower(text))[k] == Lower(text)[k] {
      LowerCharIdempotent(text[k]);
    }
    assert Lower(Lower(text)) == Lower(text);
  }

  /** Inserting a Christian keyword into any text makes it non-pagan. */
  lemma InsertedChristianVetoes(a: string, b: string, i: int)
    requires 0 <= i < |ChristianKeywords|
    ensures !IsPaganContent(a + ChristianKeywords[i] + b)
  {
    var k := ChristianKeywords[i];
    var s := a + k + b;
    var low := Lower(k);
    assert Lower(s)[|a|..|a| + |k|] == low by {
      forall j | 0 <= j < |k| ensures Lower(s)[|a|..|a| + |k|][j] == low[j] {
        assert s[|a| + j] == k[j];
      }
    }
    ContainsAt(Lower(s), low, |a|);
    ChristianVetoes(s, i);
  }

  // ---------------------------------------------------------------------------
  // extract_event_info
  // ---------------------------------------------------------------------------

  /** The characters before the date kept in the context. */
  const Before: nat := 300
  /** The characters from the date on kept in the context. */
  const After: nat := 800

  /** `text[max(0, p - 300):min(len(text), p + 800)]`. */
  function ContextWindow(text: string, p: nat): (r: string)
    ensures |r| <= Before + After
    ensures p <= |text| ==> r == text[(if p >= Before then p - Before else 0)..(if p + After <= |text| then p + After else |text|)]
  {
    var lo := if p >= Before then p - Before else 0;
    var hi := if p + After <= |text| then p + After else |text|;
    if lo <= hi then text[lo..hi] else []
  }

  /** The window holds the date it was cut around, up to 800 characters of it. */
  lemma WindowHoldsDate(text: string, date: string, p: nat)
    requires OccursAt(text, date, p) && |date| <= After
    ensures OccursAt(ContextWindow(text, p), date, if p >= Before then Before else p)
  {
    var lo := if p >= Before then p - Before else 0;
    var w := ContextWindow(text, p);
    var at := p - lo;
    forall j | 0 <= j < |date| ensures w[at..at + |date|][j] == date[j] {
      assert w[at + j] == text[p + j] == text[p..p + |date|][j];
    }
  }

  /** Far enough from both ends of the text, the window is exactly 300 + 800 characters. */
  lemma WindowFullWidth(text: string, p: nat)
    requires Before <= p && p + After <= |text|
    ensures |ContextWindow(text, p)| == Before + After
  {
  }

  /** An upper-case Ukrainian letter: `[А-ЯЇІЄҐ]`. */
  predicate IsCapital(c: char) {
    'А' <= c <= 'Я' || c == 'Ї' || c == 'І' || c == 'Є' || c == 'Ґ'
  }

  /** The repeated class `[А-ЯЇІЄҐ\s]`. */
  predicate InNameClass(c: char) {
    IsCapital(c) || IsSpace(c)
  }

  /** `\s*--` matches at `e`: any spaces, then two hyphens. */
  predicate DashesAt(s: string, e: nat)
    requires e <= |s|
  {
    var k := e + Span(s, e, Space);
    k + 2 <= |s| && s[k] == '-' && s[k + 1] == '-'
  }

  /** Backtracking over the `{3,50}` repetition that starts at `b`: the longest count, from `n`
      down to 3, after which `\s*--` matches. */
  function NameEnd(s: string, b: nat, n: nat): (r: Option<nat>)
    requires b + n <= |s|
    decreases n
    ensures r.Some? ==> b + 3 <= r.value <= b + n && DashesAt(s, r.value)
  {
    if n < 3 then None
    else if DashesAt(s, b + n) then Some(b + n)
    else NameEnd(s, b, n - 1)
  }

  /** The backtracking keeps the longest repetition that works. */
  lemma {:induction false} NameEndLongest(s: string, b: nat, n: nat, e: nat)
    requires b + n <= |s| && NameEnd(s, b, n).Some? && NameEnd(s, b, n).value < e <= b + n
    ensures !DashesAt(s, e)
    decreases n
  {
    if e < b + n {
      NameEndLongest(s, b, n - 1, e);
    }
  }

  /** The backtracking fails only when no count from 3 to `n` works. */
  lemma {:induction false} NameEndNone(s: string, b: nat, n: nat, e: nat)
    requires b + n <= |s| && NameEnd(s, b, n).None? && b + 3 <= e <= b + n
    ensures !DashesAt(s, e)
    decreases n
  {
    if e < b + n {
      NameEndNone(s, b, n - 1, e);
    }
  }

  /** A match of `([А-ЯЇІЄҐ][А-ЯЇІЄҐ\s]{3,50})\s*--` at `p`: the end of the group. */
  function NameMatchAt(s: string, p: nat): (r: Option<nat>)
    requires p <= |s|
    ensures r.Some? ==> p + 4 <= r.value <= p + 51 && r.value <= |s|
    ensures r.Some? ==> IsCapital(s[p]) && forall k :: p < k < r.value ==> InNameClass(s[k])
  {
    if p == |s| || !IsCapital(s[p]) then None
    else NameEnd(s, p + 1, Run(s, p + 1, NameChar, 50))
  }

  /** Whether the event-name pattern matches at each position 0..|s| of `s`. */
  function Matches(s: string): (r: seq<Option<nat>>)
    ensures |r| == |s| + 1 && forall q :: 0 <= q <= |s| ==> r[q] == NameMatchAt(s, q)
  {
    seq(|s| + 1, q requires 0 <= q <= |s| => NameMatchAt(s, q))
  }

  /** The first position at or after `p` where `ms` holds a match, with that match. */
  function FirstMatch(ms: seq<Option<nat>>, p: nat): (r: Option<(nat, nat)>)
    requires p <= |ms|
    decreases |ms| - p
    ensures r.Some? ==> p <= r.value.0 < |ms| && ms[r.value.0] == Some(r.value.1)
  {
    if p == |ms| then None
    else match ms[p]
      case Some(e) => Some((p, e))
      case None => FirstMatch(ms, p + 1)
  }

  /** Nothing matches before the first match. */
  lemma {:induction false} FirstMatchLeftmost(ms: seq<Option<nat>>, p: nat, q: nat)
    requires p <= q < |ms| && FirstMatch(ms, p).Some? && q < FirstMatch(ms, p).value.0
    ensures ms[q].None?
    decreases |ms| - p
  {
    if q > p {
      FirstMatchLeftmost(ms, p + 1, q);
    }
  }

  /** No match is reported only when there is none. */
  lemma {:induction false} FirstMatchNone(ms: seq<Option<nat>>, p: nat, q: nat)
    requires p <= q < |ms| && FirstMatch(ms, p).None?
    ensures ms[q].None?
    decreases |ms| - p
  {
    if q > p {
      FirstMatchNone(ms, p + 1, q);
    }
  }

  /** `re.search` for the event-name pattern from `p` on: the leftmost match's group bounds. */
  function SearchName(s: string, p: nat): (r: Option<(nat, nat)>)
    requires p <= |s|
    ensures r.Some? ==> p <= r.value.0 <= |s| && NameMatchAt(s, r.value.0) == Some(r.value.1)
  {
    FirstMatch(Matches(s), p)
  }

  /** The match found is the leftmost one. */
  lemma SearchNameLeftmost(s: string, p: nat, q: nat)
    requires p <= q <= |s| && SearchName(s, p).Some? && q < SearchName(s, p).value.0
    ensures NameMatchAt(s, q).None?
  {
    FirstMatchLeftmost(Matches(s), p, q);
  }

  /** No match is reported only when there is none. */
  lemma SearchNameNone(s: string, p: nat, q: nat)
    requires p <= q <= |s| && SearchName(s, p).None?
    ensures NameMatchAt(s, q).None?
  {
    FirstMatchNone(Matches(s), p, q);
  }

  /** Stripping a group that starts with a capital letter only drops spaces at its end. */
  lemma StripGroup(g: string)
    requires g != [] && IsCapital(g[0])
    requires forall k :: 0 <= k < |g| ==> InNameClass(g[k])
    ensures Strip(g) != [] && Strip(g)[0] == g[0] && |Strip(g)| <= |g| && Trimmed(Strip(g))
    ensures forall k :: 0 <= k < |Strip(g)| ==> InNameClass(Strip(g)[k])
  {
    KeepsLeadingLetter(g);
    StripTrimmed(g);
    var r := DropLastWhile(g, IsSpace);
    assert r == g[..|r|];
    assert forall k :: 0 <= k < |r| ==> r[k] == g[k];
  }

  lemma KeepsLeadingLetter(g: string)
    requires g != [] && !IsSpace(g[0])
    ensures DropWhile(g, IsSpace) == g
  {
  }

  /** The event name: the stripped group of the first match, or "" when nothing matches. It is
      empty or a capital letter followed by capitals and spaces, at most 51 characters, with no
      space at either end. */
  function EventName(context: string): (r: string)
    ensures r != [] ==> IsCapital(r[0]) && |r| <= 51 && Trimmed(r)
    ensures forall k :: 0 <= k < |r| ==> InNameClass(r[k])
  {
    match SearchName(context, 0)
    case None => []
    case Some((b, e)) =>
      GroupName(context, b, e);
      Strip(context[b..e])
  }

  /** The stripped group of a match is a capital letter followed by capitals and spaces, at
      most 51 characters, with no space at either end. */
  lemma GroupName(s: string, b: nat, e: nat)
    requires b < e <= |s| && e - b <= 51 && IsCapital(s[b])
    requires forall k :: b < k < e ==> InNameClass(s[k])
    ensures var r := Strip(s[b..e]);
      r != [] && IsCapital(r[0]) && |r| <= 51 && Trimmed(r) && forall k :: 0 <= k < |r| ==> InNameClass(r[k])
  {
    var g := s[b..e];
    assert forall k :: 0 <= k < |g| ==> g[k] == s[b + k];
    StripGroup(g);
  }

  /** A context without a capital letter has no event name. */
  lemma EventNameNeedsCapital(context: string)
    requires forall k :: 0 <= k < |context| ==> !IsCapital(context[k])
    ensures EventName(context) == []
  {
  }

  datatype EventInfo = EventInfo(date: string, eventName: string, context: string)

  /** `extract_event_info`: the window around the first occurrence of the date, its event name
      and the stripped window. */
  function ExtractEventInfo(text: string, dateStr: string): (r: Option<EventInfo>)
    ensures r.None? <==> !Contains(text, dateStr)
    ensures r.Some? ==> r.value.date == dateStr && |r.value.context| <= Before + After && Trimmed(r.value.context)
    ensures r.Some? ==> r.value.context == Strip(ContextWindow(text, IndexOf(text, dateStr).value))
    ensures r.Some? ==> r.value.eventName == EventName(ContextWindow(text, IndexOf(text, dateStr).value))
  {
    match IndexOf(text, dateStr)
    case None => None
    case Some(p) =>
      var window := ContextWindow(text, p);
      StripTrimmed(window);
      Some(EventInfo(dateStr, EventName(window), Strip(window)))
  }

  // ---------------------------------------------------------------------------
  // The grouping loop of main
  // ---------------------------------------------------------------------------

  datatype Entry = Entry(eventName: string, context: string, sourceFile: string, isPagan: bool)

  /** One HTML file of the book: its name, its extracted text and the date phrases found in it. */
  datatype Page = Page(file: string, text: string, dates: seq<string>)

  /** What one date phrase of a page contributes: its key and its entry, if both steps succeed. */
  function Contribution(page: Page, dateStr: string): (r: Option<(string, Entry)>)
    ensures r.Some? ==> NormalizeDate(dateStr) == Some(r.value.0) && IsDayMonth(r.value.0)
    ensures r.Some? ==> r.value.1.isPagan == IsPaganContent(r.value.1.context) && r.value.1.sourceFile == page.file
    ensures r.None? <==> !Contains(page.text, dateStr) || NormalizeDate(dateStr).None?
  {
    match ExtractEventInfo(page.text, dateStr)
    case None => None
    case Some(info) =>
      match NormalizeDate(dateStr)
      case None => None
      case Some(key) => Some((key, Entry(info.eventName, info.context, page.file, IsPaganContent(info.context))))
  }

  /** `kv` is what some date phrase of `page` contributes. */
  predicate FromPage(page: Page, kv: (string, Entry)) {
    exists j :: 0 <= j < |page.dates| && Contribution(page, page.dates[j]) == Some(kv)
  }

  /** `kv` is what some date phrase of some page contributes. */
  predicate FromPages(pages: seq<Page>, kv: (string, Entry)) {
    exists i :: 0 <= i < |pages| && FromPage(pages[i], kv)
  }

  /** What each date phrase of `page` contributes, phrase by phrase. */
  function Contributions(page: Page): (r: seq<Option<(string, Entry)>>)
    ensures |r| == |page.dates|
    ensures forall j :: 0 <= j < |r| ==> r[j] == Contribution(page, page.dates[j])
  {
    seq(|page.dates|, j requires 0 <= j < |page.dates| => Contribution(page, page.dates[j]))
  }

  /** The pairs of one page, in phrase order: none when its text is empty (`if not text:
      continue`), otherwise the contribution of every phrase that has one. */
  function PagePairs(page: Page): (r: seq<(string, Entry)>)
    ensures forall k :: 0 <= k < |r| ==> FromPage(page, r[k])
  {
    if page.text == [] then []
    else
      var cs := Contributions(page);
      var r := Present(cs, 0);
      forall k | 0 <= k < |r| ensures FromPage(page, r[k]) {
        PresentSound(cs, 0, k);
      }
      r
  }

  /** Every contribution of a phrase of a page with text is among the page's pairs. */
  lemma PagePairsComplete(page: Page, j: nat, kv: (string, Entry))
    requires page.text != [] && j < |page.dates| && Contribution(page, page.dates[j]) == Some(kv)
    ensures kv in PagePairs(page)
  {
    PresentComplete(Contributions(page), 0, j);
  }

  /** The pairs of each page, page by page. */
  function PairsByPage(pages: seq<Page>): (r: seq<seq<(string, Entry)>>)
    ensures |r| == |pages|
    ensures forall i :: 0 <= i < |r| ==> r[i] == PagePairs(pages[i])
  {
    seq(|pages|, i requires 0 <= i < |pages| => PagePairs(pages[i]))
  }

  /** The (key, entry) pairs of all pages, page by page and phrase by phrase. */
  function Pairs(pages: seq<Page>): seq<(string, Entry)> {
    Flatten(PairsByPage(pages))
  }

  /** Every pair comes from a date phrase of some page. */
  lemma PairsFromPages(pages: seq<Page>, k: int)
    requires 0 <= k < |Pairs(pages)|
    ensures FromPages(pages, Pairs(pages)[k])
  {
    var byPage := PairsByPage(pages);
    FlattenSound(byPage, k);
    var i, l :| 0 <= i < |byPage| && 0 <= l < |byPage[i]| && byPage[i][l] == Pairs(pages)[k];
    assert FromPage(pages[i], byPage[i][l]);
  }

  /** The pairs of every page are among the pairs of all pages. */
  lemma PairsComplete(pages: seq<Page>, i: int, kv: (string, Entry))
    requires 0 <= i < |pages| && kv in PagePairs(pages[i])
    ensures kv in Pairs(pages)
  {
    FlattenComplete(PairsByPage(pages), i, kv);
  }

  /** `events_by_date`: the entries of every key, in the order they were appended. */
  function Group(pairs: seq<(string, Entry)>): map<string, seq<Entry>> {
    if pairs == [] then map[]
    else
      var g := Group(pairs[..|pairs| - 1]);
      var (key, e) := pairs[|pairs| - 1];
      g[key := (if key in g then g[key] else []) + [e]]
  }

  /** The entries of `key` in `pairs`, in order: the reference the grouping must agree with. */
  function EntriesFor(pairs: seq<(string, Entry)>, key: string): seq<Entry> {
    if pairs == [] then []
    else
      var last := pairs[|pairs| - 1];
      EntriesFor(pairs[..|pairs| - 1], key) + (if last.0 == key then [last.1] else [])
  }

  /** Grouping loses, duplicates and reorders nothing: a key is present exactly when some pair
      has it, and it holds exactly that key's entries in order. */
  lemma {:induction false} GroupIsEntriesFor(pairs: seq<(string, Entry)>, key: string)
    ensures key in Group(pairs) <==> EntriesFor(pairs, key) != []
    ensures key in Group(pairs) ==> Group(pairs)[key] == EntriesFor(pairs, key)
  {
    if pairs != [] {
      GroupIsEntriesFor(pairs[..|pairs| - 1], key);
    }
  }

  /** Every entry of `key` comes from a pair with that key. */
  lemma {:induction false} EntriesForFacts(pairs: seq<(string, Entry)>, key: string)
    ensures forall e :: e in EntriesFor(pairs, key) ==> (key, e) in pairs
  {
    if pairs != [] {
      var init := pairs[..|pairs| - 1];
      EntriesForFacts(init, key);
      assert pairs == init + [pairs[|pairs| - 1]];
    }
  }

  /** Every pair with `key` has its entry among the entries of `key`. */
  lemma {:induction false} EntriesForComplete(pairs: seq<(string, Entry)>, key: string, e: Entry)
    requires (key, e) in pairs
    ensures e in EntriesFor(pairs, key)
  {
    var init := pairs[..|pairs| - 1];
    assert pairs == init + [pairs[|pairs| - 1]];
    if pairs[|pairs| - 1] != (key, e) {
      EntriesForComplete(init, key, e);
    }
  }

  /** The grouped result of `main`: every entry under a key was contributed, under that key, by a
      date phrase of some page; no key has an empty list. */
  function GroupPages(pages: seq<Page>): (r: map<string, seq<Entry>>)
    ensures forall key :: key in r ==> r[key] != []
    ensures forall key, e :: key in r && e in r[key] ==> FromPages(pages, (key, e))
  {
    var pairs := Pairs(pages);
    var r := Group(pairs);
    forall key | key in r
      ensures r[key] != [] && forall e :: e in r[key] ==> FromPages(pages, (key, e))
    {
      GroupIsEntriesFor(pairs, key);
      EntriesForFacts(pairs, key);
      forall e | e in r[key] ensures FromPages(pages, (key, e)) {
        var k :| 0 <= k < |pairs| && pairs[k] == (key, e);
        PairsFromPages(pages, k);
      }
    }
    r
  }

  /** Nothing found is lost: a date phrase of a page with text whose context and date both
      succeed puts its entry under its key. */
  lemma GroupPagesComplete(pages: seq<Page>, i: int, j: int, key: string, e: Entry)
    requires 0 <= i < |pages| && pages[i].text != [] && 0 <= j < |pages[i].dates|
    requires Contribution(pages[i], pages[i].dates[j]) == Some((key, e))
    ensures key in GroupPages(pages) && e in GroupPages(pages)[key]
  {
    PagePairsComplete(pages[i], j, (key, e));
    PairsComplete(pages, i, (key, e));
    EntriesForComplete(Pairs(pages), key, e);
    GroupIsEntriesFor(Pairs(pages), key);
  }

  /** Every key of the result is a successful normalisation of some date phrase of some page, and
      every entry's flag is the classification of its own context. */
  lemma GroupedKeysNormalise(pages: seq<Page>, key: string, e: Entry)
    requires key in GroupPages(pages) && e in GroupPages(pages)[key]
    ensures IsDayMonth(key)
    ensures exists i, j :: 0 <= i < |pages| && 0 <= j < |pages[i].dates| && NormalizeDate(pages[i].dates[j]) == Some(key)
    ensures e.isPagan == IsPaganContent(e.context)
  {
    var i :| 0 <= i < |pages| && FromPage(pages[i], (key, e));
    var j :| 0 <= j < |pages[i].dates| && Contribution(pages[i], pages[i].dates[j]) == Some((key, e));
  }
}

=== FILE: events_routes.dfy ===
/** The read-only routes under `/api/events`: each answers from the store without changing it. */
module EventsRoutes {
  import opened Wrappers
  import opened Gregorian
  import opened Collections
  import opened Store
  import opened Text

  /** An event row together with its aggregated `images` column. */
  datatype EventView = EventView(event: Event, images: Option<seq<Image>>)

  /** `ORDER BY e.date_month, e.date_day`. */
  function DateKey(e: Event): (int, int) {
    (e.month, e.day)
  }

  /** `ORDER BY e.date_day`. */
  function DayKey(e: Event): (int, int) {
    (e.day, 0)
  }

  /** `ORDER BY ei.image_order`. */
  function OrderKey(im: Image): (int, int) {
    (im.order, 0)
  }

  predicate IsActive(e: Event) {
    e.active
  }

  /** The `json_agg(... ORDER BY ei.image_order) FILTER (WHERE ei.id IS NOT NULL)` column of
      the left join: the event's images by `image_order`, or NULL when it has none. */
  function ImagesOf(db: Db, eventId: int): (r: Option<seq<Image>>)
    ensures r.None? <==> forall i :: 0 <= i < |db.images| ==> db.images[i].eventId != eventId
    ensures r.Some? ==> SortedBy(r.value, OrderKey)
    ensures r.Some? ==> forall im ::
      multiset(r.value)[im] == if im.eventId == eventId then multiset(db.images)[im] else 0
  {
    var own := Filter(db.images, (im: Image) => im.eventId == eventId);
    forall i | 0 <= i < |db.images| && db.images[i].eventId == eventId ensures own != [] {
      assert multiset(db.images)[db.images[i]] > 0;
      assert multiset(own)[db.images[i]] > 0;
    }
    if own == [] then None else Some(SortBy(own, OrderKey))
  }

  function View(db: Db, e: Event): EventView {
    EventView(e, ImagesOf(db, e.id))
  }

  function Views(db: Db, rows: seq<Event>): (r: seq<EventView>)
    ensures Events(r) == rows
    ensures forall i :: 0 <= i < |r| ==> r[i] == View(db, r[i].event)
  {
    var r := Map(rows, e => View(db, e));
    assert Events(r) == rows;
    r
  }

  function Events(vs: seq<EventView>): seq<Event> {
    Map(vs, (v: EventView) => v.event)
  }

  /** GET `/`: every active event, ordered by (month, day), each with its images; 500 when the
      query fails. */
  function ListEvents(db: Db, fails: bool): (r: Reply<seq<EventView>>)
    ensures r.Ok? || r.ServerError?
    ensures r.ServerError? <==> fails
    ensures r.Ok? ==> SortedBy(Events(r.value), DateKey)
    ensures r.Ok? ==> forall e ::
      multiset(Events(r.value))[e] == if e.active then multiset(db.events)[e] else 0
    ensures r.Ok? ==> forall i :: 0 <= i < |r.value| ==> r.value[i] == View(db, r.value[i].event)
  {
    if fails then ServerError else Ok(Views(db, SortBy(Filter(db.events, IsActive), DateKey)))
  }

  /** GET `/:id`: the active event with that id; 404 when it is absent or inactive; 500 when
      the query fails. */
  function GetById(db: Db, id: int, fails: bool): (r: Reply<EventView>)
    ensures r.Ok? || r.NotFound? || r.ServerError?
    ensures r.ServerError? <==> fails
    ensures r.NotFound? <==>
      !fails && forall i :: 0 <= i < |db.events| ==> !(db.events[i].id == id && db.events[i].active)
    ensures r.Ok? ==> r.value.event in db.events && r.value.event.id == id
    ensures r.Ok? ==> r.value.event.active && r.value == View(db, r.value.event)
  {
    if fails then ServerError else
    match FirstIndex(db.events, (e: Event) => e.id == id && e.active)
    case None => NotFound
    case Some(k) => Ok(View(db, db.events[k]))
  }

  /** GET `/date/:month/:day`: the first active event on that day; 404 when there is none;
      500 when the query fails. */
  function GetByDate(db: Db, month: int, day: int, fails: bool): (r: Reply<EventView>)
    ensures r.Ok? || r.NotFound? || r.ServerError?
    ensures r.ServerError? <==> fails
    ensures r.NotFound? <==> !fails && forall i :: 0 <= i < |db.events| ==>
      !(db.events[i].month == month && db.events[i].day == day && db.events[i].active)
    ensures r.Ok? ==> exists k :: 0 <= k < |db.events| && db.events[k] == r.value.event &&
                                  FirstOnDate(db, month, day, k)
    ensures r.Ok? ==> r.value == View(db, r.value.event)
  {
    if fails then ServerError else
    match FirstIndex(db.events, (e: Event) => e.month == month && e.day == day && e.active)
    case None => NotFound
    case Some(k) => Ok(View(db, db.events[k]))
  }

  /** Row `k` is the first active event on (`month`, `day`). */
  predicate FirstOnDate(db: Db, month: int, day: int, k: int)
    requires 0 <= k < |db.events|
  {
    && db.events[k].month == month && db.events[k].day == day && db.events[k].active
    && forall j :: 0 <= j < k ==>
         !(db.events[j].month == month && db.events[j].day == day && db.events[j].active)
  }

  /** GET `/month/:month`: the active events of that month, ordered by day; 500 when the query
      fails. */
  function ByMonth(db: Db, month: int, fails: bool): (r: Reply<seq<EventView>>)
    ensures r.Ok? || r.ServerError?
    ensures r.ServerError? <==> fails
    ensures r.Ok? ==> SortedBy(Events(r.value), DayKey)
    ensures r.Ok? ==> forall e ::
      multiset(Events(r.value))[e] == if InMonth(e, month) then multiset(db.events)[e] else 0
    ensures r.Ok? ==> forall i :: 0 <= i < |r.value| ==> r.value[i] == View(db, r.value[i].event)
  {
    if fails then ServerError else Ok(Views(db, SortBy(Filter(db.events, e => InMonth(e, month)), DayKey)))
  }

  /** The `WHERE` of the month query. */
  predicate InMonth(e: Event, month: int) {
    e.active && e.month == month
  }

  /** The `WHERE` of the upcoming query: on or after (`month`, `day`) within the same year. */
  predicate OnOrAfter(e: Event, month: int, day: int) {
    (e.month == month && e.day >= day) || e.month > month
  }

  function Min(a: int, b: int): int {
    if a < b then a else b
  }

  predicate IsUpcoming(e: Event, today: Date) {
    e.active && OnOrAfter(e, today.month, today.day)
  }

  function UpcomingOn(today: Date): Event -> bool {
    e => IsUpcoming(e, today)
  }

  /** The rows of the upcoming query with a non-negative `LIMIT`. */
  function UpcomingRows(db: Db, today: Date, limit: nat): seq<Event> {
    Take(SortBy(Filter(db.events, UpcomingOn(today)), DateKey), limit)
  }

  /** The columns the upcoming query selects: it leaves out `traditions` and `preparation`,
      which the view then carries as absent. */
  function Brief(e: Event): Event {
    e.(traditions := None, preparation := None)
  }

  /** GET `/upcoming/:days`: active events from today to the end of the year, ordered by
      (month, day), at most `limit` of them, without their traditions and preparation. A
      negative `LIMIT` is a database error, like a failing query. */
  function Upcoming(db: Db, today: Date, limit: int, fails: bool): (r: Reply<seq<EventView>>)
    ensures r.Ok? || r.ServerError?
    ensures r.ServerError? <==> fails || limit < 0
    ensures r.Ok? ==> |r.value| == |UpcomingRows(db, today, limit)| <= limit
    ensures r.Ok? ==> forall i :: 0 <= i < |r.value| ==>
      var e := UpcomingRows(db, today, limit)[i];
      && r.value[i].event == e.(traditions := None, preparation := None)
      && r.value[i].images == ImagesOf(db, e.id)
  {
    if fails || limit < 0 then ServerError
    else Ok(Map(UpcomingRows(db, today, limit), e => EventView(Brief(e), ImagesOf(db, e.id))))
  }

  /** The upcoming rows are ordered by (month, day). */
  lemma UpcomingSorted(db: Db, today: Date, limit: nat)
    ensures SortedBy(UpcomingRows(db, today, limit), DateKey)
  {
    var sorted := SortBy(Filter(db.events, UpcomingOn(today)), DateKey);
    var rows := Take(sorted, limit);
    assert forall i :: 0 <= i < |rows| ==> rows[i] == sorted[i];
  }

  /** The upcoming rows are drawn from the active events on or after today. */
  lemma UpcomingDrawn(db: Db, today: Date, limit: nat)
    ensures forall e ::
      multiset(UpcomingRows(db, today, limit))[e] <=
        if IsUpcoming(e, today) then multiset(db.events)[e] else 0
  {
    var candidates := Filter(db.events, UpcomingOn(today));
    var sorted := SortBy(candidates, DateKey);
    var rows := Take(sorted, limit);
    PrefixBag(sorted, |rows|);
    forall e ensures multiset(rows)[e] <= if IsUpcoming(e, today) then multiset(db.events)[e] else 0 {
      assert multiset(rows)[e] <= multiset(sorted)[e] == multiset(candidates)[e];
      assert multiset(candidates)[e] == if UpcomingOn(today)(e) then multiset(db.events)[e] else 0;
    }
  }

  /** There are as many upcoming rows as the limit allows. */
  lemma UpcomingCount(db: Db, today: Date, limit: nat)
    ensures |UpcomingRows(db, today, limit)| == Min(limit, Count(db.events, UpcomingOn(today)))
  {
    var candidates := Filter(db.events, UpcomingOn(today));
    var sorted := SortBy(candidates, DateKey);
    CountFilter(db.events, UpcomingOn(today));
    assert |multiset(sorted)| == |multiset(candidates)|;
  }

  /** Nothing upcoming is skipped: an upcoming event left out of the answer is ordered at or
      after every event in it. */
  lemma UpcomingSmallest(db: Db, today: Date, limit: nat, c: Event)
    requires c in db.events && IsUpcoming(c, today) && c !in UpcomingRows(db, today, limit)
    ensures forall i :: 0 <= i < |UpcomingRows(db, today, limit)| ==>
      KeyLe(DateKey(UpcomingRows(db, today, limit)[i]), DateKey(c))
  {
    var candidates := Filter(db.events, UpcomingOn(today));
    var sorted := SortBy(candidates, DateKey);
    var rows := Take(sorted, limit);
    FilterMembership(db.events, UpcomingOn(today), c);
    assert c in multiset(sorted);
    SortedPrefixIsSmallest(sorted, DateKey, |rows|, c);
    assert forall i :: 0 <= i < |rows| ==> rows[i] == sorted[i];
  }

  /** The upcoming query never wraps into the next year: nothing dated before today is returned,
      however large the limit. */
  lemma UpcomingNeverWraps(db: Db, today: Date, limit: nat, e: Event)
    requires e.month < today.month || (e.month == today.month && e.day < today.day)
    ensures e !in UpcomingRows(db, today, limit)
  {
    UpcomingDrawn(db, today, limit);
    assert multiset(UpcomingRows(db, today, limit))[e] == 0;
  }
}

=== FILE: final_calendar.dfy ===
/** `create_final_calendar.py`: one CSV row for every day of the common year 2023, filled
    from the rows of the refined calendar CSV that carry some content. */
module FinalCalendar {
  import opened Wrappers
  import opened Text
  import opened Gregorian
  import opened Collections
  import opened CalendarCsv

  // ---------------------------------------------------------------------------
  // The days of the year
  // ---------------------------------------------------------------------------

  /** `generate_365_days`: the 365 days of 2023 as "DD.MM". */
  function Days365(): (r: seq<string>)
    ensures |r| == 365
  {
    YearTexts(2023)
  }

  /** Every day appears once, from "01.01" to "31.12", and there is no leap day. */
  lemma Days365Facts()
    ensures forall i, j :: 0 <= i < j < 365 ==> Days365()[i] != Days365()[j]
    ensures Days365()[0] == "01.01" && Days365()[364] == "31.12"
    ensures "29.02" !in Days365()
  {
    forall i, j | 0 <= i < j < 365 ensures Days365()[i] != Days365()[j] {
      YearTextsDistinct(2023, i, j);
    }
    YearTextsEnds(2023);
    LeapDayListed(2023);
  }

  // ---------------------------------------------------------------------------
  // Loading the rows with content
  // ---------------------------------------------------------------------------

  /** `x.strip().strip('"')`, applied to the date and to every column. */
  function Unwrap(s: string): (r: string)
    ensures Unquoted(r, '"')
  {
    StripCharUnquoted(Strip(s), '"');
    StripChar(Strip(s), '"')
  }

  /** Date values the loader passes over outright. */
  const Junk: seq<string> := [";;;;", ""]

  lemma JunkHasNoDot(date: string)
    requires date in Junk
    ensures '.' !in date
  {
  }

  /** The key `load_quality_data` stores a row under, given its unwrapped date: both
      dot-separated parts stripped and zero-padded to two characters, with no check that
      they are numbers. None when the date does not split into exactly two parts. */
  function QualityKey(date: string): (r: Option<string>)
    ensures r.Some? <==> |Split(date, '.')| == 2
  {
    if date == "" || date in Junk || '.' !in date then
      assert |Split(date, '.')| != 2 by {
        if date in Junk { JunkHasNoDot(date); }
        if |Split(date, '.')| == 2 { TwoPiecesHaveSeparator(date, '.'); }
      }
      None
    else
      var parts := Split(date, '.');
      if |parts| != 2 then None
      else Some(ZFill(Strip(parts[0]), 2) + "." + ZFill(Strip(parts[1]), 2))
  }

  /** Any two dot-free, trimmed pieces make a key, digits or not: "ab.cd" is stored as is. */
  lemma QualityKeyOfPieces(a: string, b: string)
    requires '.' !in a && '.' !in b && a != [] && b != []
    requires Trimmed(a) && Trimmed(b) && a[0] != '"' && b[|b| - 1] != '"'
    ensures QualityKey(Unwrap(a + "." + b)) == Some(ZFill(a, 2) + "." + ZFill(b, 2))
  {
    var s := a + "." + b;
    assert s[0] == a[0] && s[|s| - 1] == b[|b| - 1];
    StripOfTrimmed(s);
    StripCharOfUnquoted(s, '"');
    SplitTwo(a, b, '.');
    StripOfTrimmed(a);
    StripOfTrimmed(b);
  }

  /** A row has content: a name, or a description longer than fifty characters. */
  predicate HasContent(d: Details) {
    d.event != "" || |d.description| > 50
  }

  /** What a CSV row contributes: its key and its unwrapped columns, when it has content.
      A row with a missing column raises inside the inner `try` and is passed over. */
  function QualityEntry(row: Row): (r: Option<(string, Details)>)
    ensures r.Some? ==> row.date.Some? && QualityKey(Unwrap(row.date.value)) == Some(r.value.0)
    ensures r.Some? ==> HasContent(r.value.1)
    ensures r.Some? ==> (Unquoted(r.value.1.event, '"') && Unquoted(r.value.1.description, '"')
      && Unquoted(r.value.1.traditions, '"') && Unquoted(r.value.1.preparation, '"'))
    ensures row.date.Some? && QualityKey(Unwrap(row.date.value)).Some?
      && row.event.Some? && row.description.Some? && row.traditions.Some? && row.preparation.Some?
      ==> (r.Some? <==> Unwrap(row.event.value) != "" || |Unwrap(row.description.value)| > 50)
  {
    if row.date.None? then None
    else match QualityKey(Unwrap(row.date.value))
      case None => None
      case Some(key) =>
        if row.event.None? || row.description.None? || row.traditions.None? || row.preparation.None? then None
        else
          var d := Details(Unwrap(row.event.value), Unwrap(row.description.value),
                           Unwrap(row.traditions.value), Unwrap(row.preparation.value));
          if HasContent(d) then Some((key, d)) else None
  }

  /** `load_quality_data`: the rows with content read before any line without a date
      column, a later row for a date replacing an earlier one. */
  function LoadQualityData(rows: seq<Row>): (r: map<string, Details>)
    ensures forall key :: key in r ==> HasContent(r[key])
  {
    var es := Map(Readable(rows), QualityEntry);
    var r := Collect(es);
    forall key | key in r ensures HasContent(r[key]) {
      CollectHolds(es, key);
    }
    r
  }

  /** Every stored date holds the columns of some row read, and they have content. */
  lemma StoredRowsHaveContent(rows: seq<Row>, key: string)
    requires key in LoadQualityData(rows)
    ensures HasContent(LoadQualityData(rows)[key])
    ensures exists j :: 0 <= j < |Readable(rows)| && QualityEntry(Readable(rows)[j]) == Some((key, LoadQualityData(rows)[key]))
  {
    var es := Map(Readable(rows), QualityEntry);
    CollectHolds(es, key);
  }

  /** The last row with content for a date supplies its columns. */
  lemma QualityLastRowWins(rows: seq<Row>, j: int)
    requires 0 <= j < |Readable(rows)|
    requires QualityEntry(Readable(rows)[j]).Some?
    requires forall l :: j < l < |Readable(rows)| ==> (QualityEntry(Readable(rows)[l]).None?
      || QualityEntry(Readable(rows)[l]).value.0 != QualityEntry(Readable(rows)[j]).value.0)
    ensures var (key, d) := QualityEntry(Readable(rows)[j]).value;
      key in LoadQualityData(rows) && LoadQualityData(rows)[key] == d
  {
    var es := Map(Readable(rows), QualityEntry);
    CollectLast(es, j);
  }

  /** A line without a date column ends the loading: nothing after it is read. */
  lemma DatelessLineEndsQualityLoading(before: seq<Row>, bad: Row, after: seq<Row>)
    requires bad.date.None?
    ensures LoadQualityData(before + [bad] + after) == LoadQualityData(before)
  {
    ReadableStops(before, bad, after);
  }

  // ---------------------------------------------------------------------------
  // Writing the calendar
  // ---------------------------------------------------------------------------

  /** The number of dates in `dates` that have stored content. */
  function QualityDays(quality: map<string, Details>, dates: seq<string>): (n: nat)
    ensures n <= |dates|
  {
    if dates == [] then 0 else (if dates[0] in quality then 1 else 0) + QualityDays(quality, dates[1..])
  }

  /** The writing loop over a list of dates. */
  method WriteRows(quality: map<string, Details>, dates: seq<string>) returns (rows: seq<OutRow>, filled: nat)
    ensures |rows| == |dates|
    ensures forall i :: 0 <= i < |dates| ==> rows[i].date == dates[i]
    ensures forall i :: 0 <= i < |dates| ==> rows[i].details == if dates[i] in quality then quality[dates[i]] else NoDetails
    ensures filled == QualityDays(quality, dates)
  {
    rows := [];
    filled := 0;
    var i := 0;
    while i < |dates|
      invariant 0 <= i <= |dates|
      invariant |rows| == i
      invariant forall k :: 0 <= k < i ==> rows[k].date == dates[k]
      invariant forall k :: 0 <= k < i ==> rows[k].details == if dates[k] in quality then quality[dates[k]] else NoDetails
      invariant filled + QualityDays(quality, dates[i..]) == QualityDays(quality, dates)
    {
      var date := dates[i];
      assert dates[i..][1..] == dates[i + 1..];
      if date in quality {
        rows := rows + [OutRow(date, quality[date])];
        filled := filled + 1;
      } else {
        rows := rows + [OutRow(date, NoDetails)];
      }
      i := i + 1;
    }
  }

  /** `create_final_csv`: one row per day of 2023 in calendar order, with the stored
      columns of that date or four empty ones; `filled` counts the stored ones. */
  method CreateFinalCsv(quality: map<string, Details>) returns (rows: seq<OutRow>, filled: nat)
    ensures |rows| == 365
    ensures forall i :: 0 <= i < 365 ==> rows[i].date == Days365()[i]
    ensures forall i :: 0 <= i < 365 ==>
      rows[i].details == if Days365()[i] in quality then quality[Days365()[i]] else NoDetails
    ensures filled == QualityDays(quality, Days365()) && filled <= 365
  {
    rows, filled := WriteRows(quality, Days365());
  }

  /** No row is written for "29.02": content stored for the leap day is dropped. */
  lemma LeapDayDropped(quality: map<string, Details>, rows: seq<OutRow>)
    requires |rows| == 365 && forall i :: 0 <= i < 365 ==> rows[i].date == Days365()[i]
    ensures forall i :: 0 <= i < |rows| ==> rows[i].date != "29.02"
  {
    Days365Facts();
  }
}

=== FILE: full_calendar.dfy ===
/** `generate_full_calendar.py`: one CSV row for every day of the leap year 2024, filled from
    the refined calendar CSV first, from the events extracted out of the book second, and
    left empty otherwise. */
module FullCalendar {
  import opened Wrappers
  import opened Text
  import opened Gregorian
  import opened Collections
  import opened CalendarCsv
  import EpubExtract

  // ---------------------------------------------------------------------------
  // The days of the year
  // ---------------------------------------------------------------------------

  /** `generate_all_dates`: the 366 days of 2024 as "DD.MM". */
  function AllDates(): (r: seq<string>)
    ensures |r| == 366
  {
    YearTexts(2024)
  }

  /** Every day appears once, from "01.01" to "31.12", the leap day included. */
  lemma AllDatesFacts()
    ensures forall i, j :: 0 <= i < j < 366 ==> AllDates()[i] != AllDates()[j]
    ensures AllDates()[0] == "01.01" && AllDates()[365] == "31.12"
    ensures "29.02" in AllDates()
  {
    forall i, j | 0 <= i < j < 366 ensures AllDates()[i] != AllDates()[j] {
      YearTextsDistinct(2024, i, j);
    }
    YearTextsEnds(2024);
    LeapDayListed(2024);
  }

  // ---------------------------------------------------------------------------
  // Loading the refined CSV
  // ---------------------------------------------------------------------------

  /** Date values the loader rejects outright. */
  const Junk: seq<string> := [";;;;", "\"\"\";;;;", ""]

  /** The date splits at dots into exactly two parts that are digit strings once quotes are
      stripped from their ends. */
  predicate DigitParts(date: string) {
    var parts := Split(date, '.');
    |parts| == 2 && AllDigits(StripChar(parts[0], '"')) && AllDigits(StripChar(parts[1], '"'))
  }

  /** A normalised key: two digit strings of at least two characters joined by a dot. */
  predicate PaddedKey(key: string) {
    var parts := Split(key, '.');
    |parts| == 2 && AllDigits(parts[0]) && AllDigits(parts[1]) && |parts[0]| >= 2 && |parts[1]| >= 2
  }

  /** No rejected value has a dot, so the emptiness, junk and dot tests pass over nothing
      that the two-part digit test would accept. */
  lemma JunkHasNoDot(date: string)
    requires date in Junk
    ensures '.' !in date
  {
  }

  /** The key `load_existing_csv` stores a row under, given its stripped date; None when the
      row is passed over. */
  function ExistingKey(date: string): (r: Option<string>)
    ensures r.Some? <==> DigitParts(date)
    ensures r.Some? ==> PaddedKey(r.value)
  {
    if date == "" || date in Junk || '.' !in date then
      assert |Split(date, '.')| != 2 by {
        if date in Junk { JunkHasNoDot(date); }
        if |Split(date, '.')| == 2 { TwoPiecesHaveSeparator(date, '.'); }
      }
      None
    else
      var parts := Split(date, '.');
      if |parts| != 2 then None
      else
        var day := StripChar(parts[0], '"');
        var month := StripChar(parts[1], '"');
        if AllDigits(day) && AllDigits(month) then
          var d, m := ZFill(day, 2), ZFill(month, 2);
          ZFillDigits(day, 2);
          ZFillDigits(month, 2);
          SplitTwo(d, m, '.');
          Some(d + "." + m)
        else None
  }

  /** A normalised key is its own key: loading the generated CSV again keeps every date. */
  lemma ExistingKeyFixesPadded(key: string)
    requires PaddedKey(key)
    ensures ExistingKey(key) == Some(key)
  {
    var parts := Split(key, '.');
    StripCharAbsent(parts[0], '"');
    StripCharAbsent(parts[1], '"');
    assert Join(parts, '.') == parts[0] + "." + parts[1];
  }

  /** What a CSV row contributes: its key and its stripped columns. A row with a missing
      column raises inside the inner `try` and is passed over. */
  function ExistingEntry(row: Row): (r: Option<(string, Details)>)
    ensures r.Some? ==> row.date.Some? && ExistingKey(Strip(row.date.value)) == Some(r.value.0)
    ensures r.Some? ==> (Trimmed(r.value.1.event) && Trimmed(r.value.1.description)
      && Trimmed(r.value.1.traditions) && Trimmed(r.value.1.preparation))
  {
    if row.date.None? then None
    else match ExistingKey(Strip(row.date.value))
      case None => None
      case Some(key) =>
        if row.event.None? || row.description.None? || row.traditions.None? || row.preparation.None? then None
        else
          StripTrimmed(row.event.value);
          StripTrimmed(row.description.value);
          StripTrimmed(row.traditions.value);
          StripTrimmed(row.preparation.value);
          Some((key, Details(Strip(row.event.value), Strip(row.description.value),
                             Strip(row.traditions.value), Strip(row.preparation.value))))
  }

  /** `load_existing_csv`: the accepted rows read before any line without a date column,
      a later row for a date replacing an earlier one. */
  function LoadExistingCsv(rows: seq<Row>): (r: map<string, Details>)
    ensures forall key :: key in r ==>
      exists j :: 0 <= j < |Readable(rows)| && ExistingEntry(Readable(rows)[j]) == Some((key, r[key]))
  {
    var es := Map(Readable(rows), ExistingEntry);
    var r := Collect(es);
    forall key | key in r
      ensures exists j :: 0 <= j < |Readable(rows)| && ExistingEntry(Readable(rows)[j]) == Some((key, r[key]))
    {
      CollectHolds(es, key);
      var j :| 0 <= j < |es| && es[j] == Some((key, r[key]));
      assert ExistingEntry(Readable(rows)[j]) == Some((key, r[key]));
    }
    r
  }

  /** A date is loaded exactly when some row read before the first dateless line stores
      under it. */
  lemma LoadedKeys(rows: seq<Row>, key: string)
    ensures key in LoadExistingCsv(rows) <==>
      exists j :: 0 <= j < |Readable(rows)| && ExistingEntry(Readable(rows)[j]).Some?
        && ExistingEntry(Readable(rows)[j]).value.0 == key
  {
    var es := Map(Readable(rows), ExistingEntry);
    CollectKeys(es, key);
    assert forall j :: 0 <= j < |es| ==> (StoresAt(es, j, key) <==>
      ExistingEntry(Readable(rows)[j]).Some? && ExistingEntry(Readable(rows)[j]).value.0 == key);
  }

  /** Every loaded key is a normalised "DD.MM"-like key. */
  lemma LoadedKeysPadded(rows: seq<Row>, key: string)
    requires key in LoadExistingCsv(rows)
    ensures PaddedKey(key)
  {
    LoadedKeys(rows, key);
    var j :| 0 <= j < |Readable(rows)| && ExistingEntry(Readable(rows)[j]).Some?
      && ExistingEntry(Readable(rows)[j]).value.0 == key;
  }

  /** The last accepted row for a date supplies its columns. */
  lemma LoadedLastRowWins(rows: seq<Row>, j: int)
    requires 0 <= j < |Readable(rows)|
    requires ExistingEntry(Readable(rows)[j]).Some?
    requires forall l :: j < l < |Readable(rows)| ==> (ExistingEntry(Readable(rows)[l]).None?
      || ExistingEntry(Readable(rows)[l]).value.0 != ExistingEntry(Readable(rows)[j]).value.0)
    ensures var (key, d) := ExistingEntry(Readable(rows)[j]).value;
      key in LoadExistingCsv(rows) && LoadExistingCsv(rows)[key] == d
  {
    var es := Map(Readable(rows), ExistingEntry);
    CollectLast(es, j);
  }

  /** A line without a date column ends the loading: nothing after it is read. */
  lemma DatelessLineEndsLoading(before: seq<Row>, bad: Row, after: seq<Row>)
    requires bad.date.None?
    ensures LoadExistingCsv(before + [bad] + after) == LoadExistingCsv(before)
  {
    ReadableStops(before, bad, after);
  }

  // ---------------------------------------------------------------------------
  // The events extracted from the book
  // ---------------------------------------------------------------------------

  /** `clean_text`: drops runs of quotes and of semicolons, then quotes and whitespace at the ends. */
  function CleanText(text: Option<string>): (r: string)
    ensures Trimmed(r)
    ensures text.None? || text == Some("") ==> r == ""
  {
    if text.None? || text.value == "" then ""
    else
      var t := ReplaceAll(ReplaceAll(ReplaceAll(text.value, "\"\"\"\"", ""), "\"\"\"", ""), ";;;;", "");
      StripTrimmed(StripChar(t, '"'));
      Strip(StripChar(t, '"'))
  }

  /** Text without quotes, without ";;;;" and without surrounding whitespace is already clean. */
  lemma CleanTextKeepsPlain(s: string)
    requires '"' !in s && !Contains(s, ";;;;") && Trimmed(s)
    ensures CleanText(Some(s)) == s
  {
    if s != "" {
      AbsentCharNotContained(s, "\"\"\"\"", 0);
      ReplaceAllAbsent(s, "\"\"\"\"", "");
      AbsentCharNotContained(s, "\"\"\"", 0);
      ReplaceAllAbsent(s, "\"\"\"", "");
      ReplaceAllAbsent(s, ";;;;", "");
      StripCharAbsent(s, '"');
      StripOfTrimmed(s);
    }
  }

  /** The position of the event a day's description comes from: the first pagan one, or the
      first one when none is pagan. */
  function ChosenIndex(events: seq<EpubExtract.Entry>): (i: nat)
    requires events != []
    ensures i < |events|
    ensures events[i].isPagan ==> forall j :: 0 <= j < i ==> !events[j].isPagan
    ensures !events[i].isPagan ==> i == 0 && forall j :: 0 <= j < |events| ==> !events[j].isPagan
  {
    match FirstIndex(events, (e: EpubExtract.Entry) => e.isPagan)
    case Some(i) => i
    case None => 0
  }

  /** The marker that starts the literature list of an article. */
  const Literature := "Літ.:"

  /** The description limit before the ellipsis. */
  const Limit: nat := 1000

  /** A context cut before its literature list and shortened to the limit. */
  function Describe(context: string): (r: string)
    ensures |r| <= Limit + 3
    ensures !Contains(r, Literature)
  {
    var cut := if Contains(context, Literature) then Strip(SplitOn(context, Literature)[0]) else context;
    assert !Contains(cut, Literature) by {
      if Contains(context, Literature) {
        BeforeFirstOccurrence(context, Literature);
        StripNotContained(context[..IndexOf(context, Literature).value], Literature);
      }
    }
    if |cut| > Limit then
      assert !Contains(cut[..Limit], Literature) by {
        if Contains(cut[..Limit], Literature) { ContainsSlice(cut, 0, Limit, Literature); }
      }
      AppendNotContained(cut[..Limit], "...", Literature);
      cut[..Limit] + "..."
    else cut
  }

  /** A context without a literature list and within the limit is kept whole. */
  lemma DescribeKeepsShort(context: string)
    requires !Contains(context, Literature) && |context| <= Limit
    ensures Describe(context) == context
  {
  }

  /** A long context keeps its first thousand characters and gains an ellipsis. */
  lemma DescribeShortensLong(context: string)
    requires !Contains(context, Literature) && |context| > Limit
    ensures Describe(context)[..Limit] == context[..Limit]
    ensures Describe(context)[Limit..] == "..."
  {
  }

  /** `extract_event_details`: the name and description of the chosen event; the third
      column, traditions, stays empty. */
  function ExtractEventDetails(events: seq<EpubExtract.Entry>): (r: (string, string, string))
    ensures events == [] ==> r == ("", "", "")
    ensures events != [] ==> r.0 == CleanText(Some(events[ChosenIndex(events)].eventName))
    ensures events != [] ==> r.1 == Describe(CleanText(Some(events[ChosenIndex(events)].context)))
    ensures Trimmed(r.0) && |r.1| <= Limit + 3 && !Contains(r.1, Literature) && r.2 == ""
  {
    if events == [] then ("", "", "")
    else
      var e := events[ChosenIndex(events)];
      (CleanText(Some(e.eventName)), Describe(CleanText(Some(e.context))), "")
  }

  // ---------------------------------------------------------------------------
  // Seasons
  // ---------------------------------------------------------------------------

  /** The season of a month under the rule that winter is December to February, spring
      March to May, summer June to August and autumn September to November. */
  function SeasonName(month: int): string {
    if month == 12 || 1 <= month <= 2 then "Зима"
    else if 3 <= month <= 5 then "Весна"
    else if 6 <= month <= 8 then "Літо"
    else if 9 <= month <= 11 then "Осінь"
    else ""
  }

  /** The table `get_seasonal_info` reads: a season and a note for months 1 to 12. */
  const Seasons: seq<(string, string)> := [
    ("Зима", "Час зимових свят, коляд та щедрівок. Період відпочинку природи."),
    ("Зима", "Останній місяць зими. Час підготовки до весни."),
    ("Весна", "Початок весни. Час пробудження природи та весняних обрядів."),
    ("Весна", "Розквіт весни. Час великодніх та весняних традицій."),
    ("Весна", "Пізня весна. Час зелених свят та закличних обрядів."),
    ("Літо", "Початок літа. Час купальських свят та літніх обрядів."),
    ("Літо", "Розпал літа. Час жнив та літніх традицій."),
    ("Літо", "Кінець літа. Час спасівських свят та збору врожаю."),
    ("Осінь", "Початок осені. Час осінніх обрядів та подяки за врожай."),
    ("Осінь", "Розпал осені. Час підготовки до зими."),
    ("Осінь", "Пізня осінь. Час завершення польових робіт."),
    ("Зима", "Початок зими. Час зимових свят та підготовки до Нового року.")]

  /** `get_seasonal_info`: the season of a month and a note about it; two empty texts for a
      number that is not a month. */
  function SeasonalInfo(month: int): (r: (string, string))
    ensures !(1 <= month <= 12) ==> r == ("", "")
  {
    if 1 <= month <= 12 then Seasons[month - 1] else ("", "")
  }

  /** The month table agrees with the three-months-per-season rule and has a note for every month. */
  lemma SeasonTableAgrees(month: int)
    requires 1 <= month <= 12
    ensures SeasonalInfo(month).0 == SeasonName(month) != ""
    ensures SeasonalInfo(month).1 != ""
  {
  }

  /** The month read back from a generated date, `int(date_str.split('.')[1])`, is that
      day's month, so the empty-row branch always finds a season. */
  lemma EveryDateHasSeason(i: int)
    requires 0 <= i < 366
    ensures var parts := Split(AllDates()[i], '.');
      |parts| == 2 && AllDigits(parts[1]) && SeasonalInfo(DigitsValue(parts[1])).0 != ""
  {
    YearTextMonth(2024, i);
    SeasonTableAgrees(YearDates(2024)[i].month);
  }

  // ---------------------------------------------------------------------------
  // Writing the calendar
  // ---------------------------------------------------------------------------

  /** The row `generate_calendar_csv` writes for a date. */
  function RowFor(existing: map<string, Details>, extracted: map<string, seq<EpubExtract.Entry>>, date: string): OutRow {
    if date in existing then OutRow(date, existing[date])
    else if date in extracted then
      var (name, description, traditions) := ExtractEventDetails(extracted[date]);
      OutRow(date, Details(name, description, traditions, ""))
    else OutRow(date, NoDetails)
  }

  /** The date counts as filled: it has CSV data, or the book gives it a name or a description. */
  predicate Filled(existing: map<string, Details>, extracted: map<string, seq<EpubExtract.Entry>>, date: string) {
    date in existing
    || (date in extracted && (ExtractEventDetails(extracted[date]).0 != "" || ExtractEventDetails(extracted[date]).1 != ""))
  }

  /** The number of filled dates in `dates`. */
  function FilledDays(existing: map<string, Details>, extracted: map<string, seq<EpubExtract.Entry>>, dates: seq<string>): (n: nat)
    ensures n <= |dates|
  {
    if dates == [] then 0
    else (if Filled(existing, extracted, dates[0]) then 1 else 0) + FilledDays(existing, extracted, dates[1..])
  }

  /** The writing loop over a list of dates: one row per date in the same order, and the
      number of filled ones. */
  method WriteRows(existing: map<string, Details>, extracted: map<string, seq<EpubExtract.Entry>>, dates: seq<string>)
    returns (rows: seq<OutRow>, filled: nat)
    ensures |rows| == |dates|
    ensures forall i :: 0 <= i < |dates| ==> rows[i] == RowFor(existing, extracted, dates[i])
    ensures filled == FilledDays(existing, extracted, dates)
  {
    rows := [];
    filled := 0;
    var i := 0;
    while i < |dates|
      invariant 0 <= i <= |dates|
      invariant |rows| == i
      invariant forall k :: 0 <= k < i ==> rows[k] == RowFor(existing, extracted, dates[k])
      invariant filled + FilledDays(existing, extracted, dates[i..]) == FilledDays(existing, extracted, dates)
    {
      var date := dates[i];
      assert dates[i..][1..] == dates[i + 1..];
      if Filled(existing, extracted, date) {
        filled := filled + 1;
      }
      rows := rows + [RowFor(existing, extracted, date)];
      i := i + 1;
    }
  }

  /** `generate_calendar_csv`: one row per day of 2024 in calendar order, taken from the
      CSV when it has the date, else from the book, else left empty; `filled` counts the
      rows that received content. */
  method GenerateCalendarCsv(existing: map<string, Details>, extracted: map<string, seq<EpubExtract.Entry>>)
    returns (rows: seq<OutRow>, filled: nat)
    ensures |rows| == 366
    ensures forall i :: 0 <= i < 366 ==> rows[i].date == AllDates()[i]
    ensures forall i :: 0 <= i < 366 && AllDates()[i] in existing ==> rows[i].details == existing[AllDates()[i]]
    ensures forall i :: 0 <= i < 366 && AllDates()[i] !in existing && AllDates()[i] in extracted ==>
      var (name, description, _) := ExtractEventDetails(extracted[AllDates()[i]]);
      rows[i].details == Details(name, description, "", "")
    ensures forall i :: 0 <= i < 366 && AllDates()[i] !in existing && AllDates()[i] !in extracted ==>
      rows[i].details == NoDetails
    ensures filled == FilledDays(existing, extracted, AllDates()) && filled <= 366
  {
    rows, filled := WriteRows(existing, extracted, AllDates());
  }

  /** The number of dates in `dates` that the CSV has data for. */
  function CsvDays(existing: map<string, Details>, dates: seq<string>): nat {
    if dates == [] then 0 else (if dates[0] in existing then 1 else 0) + CsvDays(existing, dates[1..])
  }

  /** Every day with CSV data is filled, so the count is at least the number of such days. */
  lemma {:induction false} CsvDaysAreFilled(existing: map<string, Details>, extracted: map<string, seq<EpubExtract.Entry>>, dates: seq<string>)
    ensures CsvDays(existing, dates) <= FilledDays(existing, extracted, dates)
    decreases |dates|
  {
    if dates != [] {
      CsvDaysAreFilled(existing, extracted, dates[1..]);
    }
  }
}

=== FILE: gregorian.dfy ===
/** A small proleptic Gregorian calendar: the part of JavaScript `Date` and Python
    `datetime`/`timedelta` that the calendar export and the data-preparation scripts use. */
module Gregorian {
  import opened Text

  /** A calendar day; `month` is 1-based. */
  datatype Date = Date(year: int, month: int, day: int)

  predicate IsLeap(y: int) {
    y % 4 == 0 && (y % 100 != 0 || y % 400 == 0)
  }

  function DaysInMonth(y: int, m: int): (r: int)
    requires 1 <= m <= 12
    ensures 28 <= r <= 31
    ensures r == 29 <==> m == 2 && IsLeap(y)
  {
    if m == 2 then (if IsLeap(y) then 29 else 28)
    else if m == 4 || m == 6 || m == 9 || m == 11 then 30
    else 31
  }

  function DaysInYear(y: int): int {
    if IsLeap(y) then 366 else 365
  }

  predicate Valid(d: Date) {
    1 <= d.month <= 12 && 1 <= d.day <= DaysInMonth(d.year, d.month)
  }

  /** `a` is strictly earlier than `b`. */
  predicate Before(a: Date, b: Date) {
    a.year < b.year
    || (a.year == b.year && (a.month < b.month || (a.month == b.month && a.day < b.day)))
  }

  /** The following calendar day, rolling over the month and the year. */
  function NextDay(d: Date): (r: Date)
    requires Valid(d)
    ensures Valid(r)
  {
    if d.day < DaysInMonth(d.year, d.month) then d.(day := d.day + 1)
    else if d.month < 12 then Date(d.year, d.month + 1, 1)
    else Date(d.year + 1, 1, 1)
  }

  /** `NextDay` is the successor in calendar order: later, and no valid day lies in between. */
  lemma NextDayIsSuccessor(d: Date)
    requires Valid(d)
    ensures Before(d, NextDay(d))
    ensures forall e :: Valid(e) && Before(d, e) ==> !Before(e, NextDay(d))
  {
  }

  /** Day `d` of month `m` (1-based) of year `y`, with days outside the month carried into the
      neighbouring months and years, as the ECMAScript `MakeDay` operation does. */
  function NormalizeDay(y: int, m: int, d: int): (r: Date)
    requires 1 <= m <= 12
    ensures Valid(r)
    decreases if d < 1 then 1 else 0, if d < 1 then -d else d
  {
    if d < 1 then
      if m == 1 then NormalizeDay(y - 1, 12, d + 31)
      else NormalizeDay(y, m - 1, d + DaysInMonth(y, m - 1))
    else if d > DaysInMonth(y, m) then
      if m == 12 then NormalizeDay(y + 1, 1, d - 31)
      else NormalizeDay(y, m + 1, d - DaysInMonth(y, m))
    else Date(y, m, d)
  }

  /** JavaScript `new Date(year, monthIndex, day)` read back through `getFullYear()`,
      `getMonth() + 1` and `getDate()`. Years 0..99 denote 1900..1999. */
  function MakeDate(year: int, monthIndex: int, day: int): (r: Date)
    ensures Valid(r)
  {
    var y := if 0 <= year <= 99 then 1900 + year else year;
    NormalizeDay(y + monthIndex / 12, monthIndex % 12 + 1, day)
  }

  /** A valid day is left as it is by `new Date`. */
  lemma MakeDateOfValid(d: Date)
    requires Valid(d) && !(0 <= d.year <= 99)
    ensures MakeDate(d.year, d.month - 1, d.day) == d
  {
  }

  /** `new Date(y, m - 1, d + 1)` is the calendar day after `d.m.y`, across month and year ends. */
  lemma MakeDateNextDay(d: Date)
    requires Valid(d) && !(0 <= d.year <= 99)
    ensures MakeDate(d.year, d.month - 1, d.day + 1) == NextDay(d)
  {
    var dim := DaysInMonth(d.year, d.month);
    if d.day == dim && d.month < 12 {
      assert NormalizeDay(d.year, d.month, d.day + 1) == NormalizeDay(d.year, d.month + 1, 1);
    } else if d.day == dim {
      assert NormalizeDay(d.year, 12, d.day + 1) == NormalizeDay(d.year + 1, 1, 1);
    }
  }

  /** 29 February of a common year becomes 1 March. */
  lemma MakeDateLeapDayOfCommonYear(y: int)
    requires !IsLeap(y) && !(0 <= y <= 99)
    ensures MakeDate(y, 1, 29) == Date(y, 3, 1)
  {
    assert NormalizeDay(y, 2, 29) == NormalizeDay(y, 3, 1);
  }

  // ---------------------------------------------------------------------------
  // Ordinal day of the year
  // ---------------------------------------------------------------------------

  /** Days of the year `y` before the first of month `m` (`m` = 13 gives the whole year). */
  function DaysBeforeMonth(y: int, m: int): (r: int)
    requires 1 <= m <= 13
    ensures m == 13 ==> r == DaysInYear(y)
  {
    var common := [0, 31, 59, 90, 120, 151, 181, 212, 243, 273, 304, 334, 365][m - 1];
    if m > 2 && IsLeap(y) then common + 1 else common
  }

  /** The table of month starts agrees with the month lengths. */
  lemma DaysBeforeMonthStep(y: int, m: int)
    requires 1 <= m <= 12
    ensures DaysBeforeMonth(y, m) + DaysInMonth(y, m) == DaysBeforeMonth(y, m + 1)
  {
  }

  lemma DaysBeforeMonthMonotone(y: int, m: int, n: int)
    requires 1 <= m <= n <= 13
    ensures DaysBeforeMonth(y, m) <= DaysBeforeMonth(y, n)
    decreases n - m
  {
    if m < n {
      DaysBeforeMonthStep(y, m);
      DaysBeforeMonthMonotone(y, m + 1, n);
    }
  }

  /** The 1-based position of `d` in its year. */
  function DayOfYear(d: Date): (r: int)
    requires Valid(d)
    ensures 1 <= r <= DaysInYear(d.year)
  {
    DaysBeforeMonthStep(d.year, d.month);
    DaysBeforeMonthMonotone(d.year, d.month + 1, 13);
    DaysBeforeMonth(d.year, d.month) + d.day
  }

  /** Within one year, calendar order is the order of the ordinals. */
  lemma DayOfYearOrder(a: Date, b: Date)
    requires Valid(a) && Valid(b) && a.year == b.year
    ensures Before(a, b) <==> DayOfYear(a) < DayOfYear(b)
  {
    if a.month < b.month {
      DaysBeforeMonthStep(a.year, a.month);
      DaysBeforeMonthMonotone(a.year, a.month + 1, b.month);
    } else if b.month < a.month {
      DaysBeforeMonthStep(a.year, b.month);
      DaysBeforeMonthMonotone(a.year, b.month + 1, a.month);
    }
  }

  lemma DayOfYearInjective(a: Date, b: Date)
    requires Valid(a) && Valid(b) && a.year == b.year && DayOfYear(a) == DayOfYear(b)
    ensures a == b
  {
    DayOfYearOrder(a, b);
    DayOfYearOrder(b, a);
  }

  /** Before the last day of the year, the next day is in the same year with the next ordinal. */
  lemma NextDayOrdinal(d: Date)
    requires Valid(d) && DayOfYear(d) < DaysInYear(d.year)
    ensures NextDay(d).year == d.year
    ensures DayOfYear(NextDay(d)) == DayOfYear(d) + 1
  {
    DaysBeforeMonthStep(d.year, d.month);
  }

  // ---------------------------------------------------------------------------
  // Runs of consecutive days
  // ---------------------------------------------------------------------------

  /** `start + timedelta(days=i)` for `i` in `range(n)`. */
  function DaysFrom(start: Date, n: nat): (r: seq<Date>)
    requires Valid(start)
    ensures |r| == n
    ensures n > 0 ==> r[0] == start
    decreases n
  {
    if n == 0 then [] else [start] + DaysFrom(NextDay(start), n - 1)
  }

  lemma {:induction false} DaysFromWithinYear(start: Date, n: nat)
    requires Valid(start) && DayOfYear(start) + n - 1 <= DaysInYear(start.year)
    ensures forall i :: 0 <= i < n ==>
      var d := DaysFrom(start, n)[i];
      Valid(d) && d.year == start.year && DayOfYear(d) == DayOfYear(start) + i
    decreases n
  {
    if n > 1 {
      NextDayOrdinal(start);
      var next := NextDay(start);
      DaysFromWithinYear(next, n - 1);
      var r := DaysFrom(start, n);
      forall i | 1 <= i < n
        ensures Valid(r[i]) && r[i].year == start.year && DayOfYear(r[i]) == DayOfYear(start) + i
      {
        assert r[i] == DaysFrom(next, n - 1)[i - 1];
      }
    }
  }

  /** Every day of year `y`, from 1 January on. */
  function YearDates(y: int): seq<Date> {
    DaysFrom(Date(y, 1, 1), DaysInYear(y))
  }

  /** The days of a year: all valid, in that year, strictly chronological, and every valid day
      of the year is among them. */
  lemma YearDatesFacts(y: int)
    ensures |YearDates(y)| == DaysInYear(y)
    ensures forall i :: 0 <= i < |YearDates(y)| ==>
      Valid(YearDates(y)[i]) && YearDates(y)[i].year == y && DayOfYear(YearDates(y)[i]) == i + 1
    ensures forall i, j :: 0 <= i < j < |YearDates(y)| ==> Before(YearDates(y)[i], YearDates(y)[j])
    ensures forall d :: Valid(d) && d.year == y ==> d in YearDates(y)
  {
    var r := YearDates(y);
    DaysFromWithinYear(Date(y, 1, 1), DaysInYear(y));
    forall i, j | 0 <= i < j < |r| ensures Before(r[i], r[j]) {
      DayOfYearOrder(r[i], r[j]);
    }
    forall d | Valid(d) && d.year == y ensures d in r {
      var k := DayOfYear(d) - 1;
      DayOfYearInjective(d, r[k]);
    }
  }

  /** The first and last entries are 1 January and 31 December. */
  lemma YearDatesEnds(y: int)
    ensures YearDates(y)[0] == Date(y, 1, 1)
    ensures YearDates(y)[|YearDates(y)| - 1] == Date(y, 12, 31)
  {
    var r := YearDates(y);
    DaysFromWithinYear(Date(y, 1, 1), DaysInYear(y));
    var last := r[|r| - 1];
    assert Valid(last) && last.year == y && DayOfYear(last) == DaysInYear(y);
    DaysBeforeMonthStep(y, 12);
    DayOfYearInjective(last, Date(y, 12, 31));
  }

  // ---------------------------------------------------------------------------
  // "DD.MM" text
  // ---------------------------------------------------------------------------

  /** Python `strftime("%d.%m")`. */
  function DayMonthText(d: Date): (r: string)
    requires Valid(d)
    ensures |r| == 5 && r[2] == '.'
  {
    Pad2(d.day) + "." + Pad2(d.month)
  }

  /** The text determines day and month. */
  lemma DayMonthTextInjective(a: Date, b: Date)
    requires Valid(a) && Valid(b) && DayMonthText(a) == DayMonthText(b)
    ensures a.day == b.day && a.month == b.month
  {
    var s, t := DayMonthText(a), DayMonthText(b);
    assert s[..2] == Pad2(a.day) && t[..2] == Pad2(b.day);
    assert s[3..] == Pad2(a.month) && t[3..] == Pad2(b.month);
    Pad2Injective(a.day, b.day);
    Pad2Injective(a.month, b.month);
  }
}

=== FILE: ical.dfy ===
/** The calendar export: the Google Calendar "add event" link and the iCalendar document
    (RFC 5545) with one yearly recurring all-day VEVENT per event. The current year and the
    DTSTAMP instant are parameters. */
module ICal {
  import opened Wrappers
  import opened Text
  import opened Gregorian
  import opened Store

  // ---------------------------------------------------------------------------
  // Date texts
  // ---------------------------------------------------------------------------

  /** `formatDateOnly`: `${year}${month}${day}` with month and day padded to two digits, the
      DATE value form of section 3.3.4 of RFC 5545. */
  function FormatDateOnly(d: Date): (r: string)
    requires Valid(d)
    ensures d.year >= 0 ==> AllDigits(r)
    ensures 1000 <= d.year <= 9999 ==> |r| == 8
  {
    FourDigits(d.year);
    IntToStringChars(d.year);
    AllDigitsConcat(IntToString(d.year), Pad2(d.month));
    AllDigitsConcat(IntToString(d.year) + Pad2(d.month), Pad2(d.day));
    IntToString(d.year) + Pad2(d.month) + Pad2(d.day)
  }

  /** A date text holds only digits and minus signs. */
  lemma DateTextChars(d: Date)
    requires Valid(d)
    ensures forall i :: 0 <= i < |FormatDateOnly(d)| ==> IsDigit(FormatDateOnly(d)[i]) || FormatDateOnly(d)[i] == '-'
  {
    var y, m, dd := IntToString(d.year), Pad2(d.month), Pad2(d.day);
    IntToStringChars(d.year);
    assert FormatDateOnly(d) == y + m + dd;
    assert forall i :: 0 <= i < |y + m + dd| ==>
      (y + m + dd)[i] == if i < |y| then y[i] else if i < |y + m| then m[i - |y|] else dd[i - |y + m|];
  }

  /** Reading a `YYYYMMDD` text back into a day. */
  function ParseDateOnly(r: string): Option<Date> {
    if |r| == 8 && AllDigits(r) then
      Some(Date(DigitsValue(r[..4]), DigitsValue(r[4..6]), DigitsValue(r[6..])))
    else None
  }

  lemma ParseDateOnlyParts(y: string, m: string, dd: string)
    requires |y| == 4 && |m| == 2 && |dd| == 2
    requires AllDigits(y + m + dd)
    ensures forall i :: 0 <= i < |y| ==> IsDigit(y[i])
    ensures forall i :: 0 <= i < |m| ==> IsDigit(m[i])
    ensures forall i :: 0 <= i < |dd| ==> IsDigit(dd[i])
    ensures ParseDateOnly(y + m + dd) == Some(Date(DigitsValue(y), DigitsValue(m), DigitsValue(dd)))
  {
    var r := y + m + dd;
    assert r[..4] == y && r[4..6] == m && r[6..] == dd;
    assert forall i :: 0 <= i < |m| ==> m[i] == r[4 + i];
    assert forall i :: 0 <= i < |dd| ==> dd[i] == r[6 + i];
  }

  /** For four-digit years the day is read back from its text. */
  lemma FormatDateOnlyRoundTrip(d: Date)
    requires Valid(d) && 1000 <= d.year <= 9999
    ensures ParseDateOnly(FormatDateOnly(d)) == Some(d)
  {
    var y, m, dd := NatToString(d.year), Pad2(d.month), Pad2(d.day);
    FourDigits(d.year);
    assert FormatDateOnly(d) == y + m + dd;
    ParseDateOnlyParts(y, m, dd);
    NatToStringRoundTrip(d.year);
    Pad2RoundTrip(d.month);
    Pad2RoundTrip(d.day);
  }

  lemma FormatDateOnlyInjective(a: Date, b: Date)
    requires Valid(a) && 1000 <= a.year <= 9999 && Valid(b) && 1000 <= b.year <= 9999
    requires FormatDateOnly(a) == FormatDateOnly(b)
    ensures a == b
  {
    FormatDateOnlyRoundTrip(a);
    FormatDateOnlyRoundTrip(b);
  }

  /** A UTC instant, as `new Date()` gives it. */
  datatype Instant = Instant(date: Date, hour: nat, minute: nat, second: nat)

  predicate ValidInstant(t: Instant) {
    Valid(t.date) && t.hour < 24 && t.minute < 60 && t.second < 60
  }

  /** `HHMMSS`. */
  function ClockText(t: Instant): (r: string)
    requires ValidInstant(t)
    ensures |r| == 6
  {
    Pad2(t.hour) + Pad2(t.minute) + Pad2(t.second)
  }

  /** `formatDate`: `toISOString()` without `-` and `:`, cut at the fraction and closed with
      `Z` — the UTC DATE-TIME form of section 3.3.5 of RFC 5545. */
  function FormatStamp(t: Instant): (r: string)
    requires ValidInstant(t)
    ensures 1000 <= t.date.year <= 9999 ==> |r| == 16
  {
    FormatDateOnly(t.date) + "T" + ClockText(t) + "Z"
  }

  /** For four-digit years the stamp is `YYYYMMDD` `T` `HHMMSS` `Z`. */
  lemma FormatStampShape(t: Instant)
    requires ValidInstant(t) && 1000 <= t.date.year <= 9999
    ensures var r := FormatStamp(t);
      && r[..8] == FormatDateOnly(t.date) && r[8] == 'T' && r[9..15] == ClockText(t) && r[15] == 'Z'
  {
    var date, clock := FormatDateOnly(t.date), ClockText(t);
    var r := date + "T" + clock + "Z";
    assert FormatStamp(t) == r;
    assert r[..8] == date && r[9..15] == clock;
  }

  /** The time of day is read back from `HHMMSS`. */
  lemma ClockTextRoundTrip(t: Instant)
    requires ValidInstant(t)
    ensures var c := ClockText(t);
      && (forall i :: 0 <= i < 6 ==> IsDigit(c[i]))
      && DigitsValue(c[..2]) == t.hour && DigitsValue(c[2..4]) == t.minute
      && DigitsValue(c[4..]) == t.second
  {
    var h, m, sec := Pad2(t.hour), Pad2(t.minute), Pad2(t.second);
    var c := h + m + sec;
    assert ClockText(t) == c;
    assert c[..2] == h && c[2..4] == m && c[4..] == sec;
    assert forall i :: 0 <= i < 6 ==> c[i] == if i < 2 then h[i] else if i < 4 then m[i - 2] else sec[i - 4];
    Pad2RoundTrip(t.hour);
    Pad2RoundTrip(t.minute);
    Pad2RoundTrip(t.second);
  }

  // ---------------------------------------------------------------------------
  // Description escaping
  // ---------------------------------------------------------------------------

  /** `(description || '').replace(/\n/g, '\\n').replace(/,/g, '\\,')`. */
  function EscapeDescription(description: Option<string>): (r: string)
    ensures '\n' !in r
    ensures '\r' in r <==> '\r' in description.GetOr("")
  {
    var d := description.GetOr("");
    EscapeIsCharMap(d);
    EscapedLineSafe(d);
    EscapeText(d)
  }

  /** The two chained replacements on a text. */
  function EscapeText(s: string): string {
    ReplaceAll(ReplaceAll(s, "\n", "\\n"), ",", "\\,")
  }

  /** The escape of one character: newline and comma get a backslash, all else is kept. */
  function EscapedChar(c: char): string {
    if c == '\n' then "\\n" else if c == ',' then "\\," else [c]
  }

  /** The escape as a character-by-character map, the reference for the two passes. */
  function Escaped(s: string): string {
    if s == [] then [] else EscapedChar(s[0]) + Escaped(s[1..])
  }

  /** Replacing a one-character pattern distributes over concatenation. */
  lemma {:induction false} ReplaceCharAppend(a: string, b: string, c: char, rep: string)
    ensures ReplaceAll(a + b, [c], rep) == ReplaceAll(a, [c], rep) + ReplaceAll(b, [c], rep)
    decreases |a|
  {
    if a == [] {
      assert a + b == b;
    } else {
      assert (a + b)[..1] == a[..1];
      assert (a + b)[1..] == a[1..] + b;
      ReplaceCharAppend(a[1..], b, c, rep);
    }
  }

  /** The two replacement passes are the character map: the first pass introduces no comma. */
  lemma {:induction false} EscapeIsCharMap(s: string)
    ensures EscapeText(s) == Escaped(s)
    decreases |s|
  {
    if s != [] {
      EscapeIsCharMap(s[1..]);
      var first := ReplaceAll(s[1..], "\n", "\\n");
      assert ReplaceAll(s, "\n", "\\n") == (if s[0] == '\n' then "\\n" else [s[0]]) + first by {
        assert s[..1] == [s[0]];
      }
      ReplaceCharAppend(if s[0] == '\n' then "\\n" else [s[0]], first, ',', "\\,");
      if s[0] == '\n' {
        assert ReplaceAll("\\n", ",", "\\,") == "\\n" by {
          assert "\\n"[..1] != ",";
          assert "\\n"[1..][..1] != ",";
        }
      } else {
        assert [s[0]][..1] == [s[0]];
      }
    }
  }

  /** A missing description is escaped to the empty text. */
  lemma MissingDescriptionIsEmpty()
    ensures EscapeDescription(None) == ""
  {
  }

  /** Reading an escaped text back: `\n` gives a newline, `\,` a comma. */
  function Unescape(t: string): string
    decreases |t|
  {
    if |t| >= 2 && t[0] == '\\' && t[1] == 'n' then "\n" + Unescape(t[2..])
    else if |t| >= 2 && t[0] == '\\' && t[1] == ',' then "," + Unescape(t[2..])
    else if t == [] then []
    else [t[0]] + Unescape(t[1..])
  }

  /** The escape is undone by `Unescape` when the text has no backslash of its own. */
  lemma {:induction false} UnescapeEscaped(s: string)
    requires '\\' !in s
    ensures Unescape(Escaped(s)) == s
    decreases |s|
  {
    if s != [] {
      assert '\\' !in s[1..];
      UnescapeEscaped(s[1..]);
      var rest := Escaped(s[1..]);
      var t := EscapedChar(s[0]) + rest;
      if s[0] == '\n' || s[0] == ',' {
        assert t[2..] == rest;
      } else {
        assert t[1..] == rest;
      }
    }
  }

  /** The escape adds one character per newline and per comma. */
  lemma {:induction false} EscapedLength(s: string)
    ensures |Escaped(s)| == |s| + CountChar(s, '\n') + CountChar(s, ',')
    decreases |s|
  {
    if s != [] {
      EscapedLength(s[1..]);
    }
  }

  /** Nothing is altered exactly when there is no newline and no comma. */
  lemma EscapedUnchangedIff(s: string)
    ensures Escaped(s) == s <==> '\n' !in s && ',' !in s
  {
    EscapedLength(s);
    if '\n' !in s && ',' !in s {
      KeepsPlain(s);
    } else if '\n' in s {
      CountCharPresent(s, '\n');
    } else {
      CountCharPresent(s, ',');
    }
  }

  lemma {:induction false} KeepsPlain(s: string)
    requires '\n' !in s && ',' !in s
    ensures Escaped(s) == s
    decreases |s|
  {
    if s != [] {
      assert s[0] in s;
      assert '\n' !in s[1..] && ',' !in s[1..];
      KeepsPlain(s[1..]);
    }
  }

  lemma {:induction false} CountCharPresent(s: string, c: char)
    requires c in s
    ensures CountChar(s, c) > 0
    decreases |s|
  {
    if s[0] != c {
      assert c in s[1..];
      CountCharPresent(s[1..], c);
    }
  }

  /** An escaped text has no raw newline, so it stays on one content line, and it has a
      carriage return only where the input had one. */
  lemma {:induction false} EscapedLineSafe(s: string)
    ensures '\n' !in Escaped(s)
    ensures '\r' in Escaped(s) <==> '\r' in s
    decreases |s|
  {
    if s != [] {
      EscapedLineSafe(s[1..]);
      assert s == [s[0]] + s[1..];
    }
  }

  // ---------------------------------------------------------------------------
  // The document
  // ---------------------------------------------------------------------------

  const Header: seq<string> := [
    "BEGIN:VCALENDAR",
    "VERSION:2.0",
    "PRODID:-//Ukrainian Calendar//UA",
    "CALSCALE:GREGORIAN",
    "METHOD:PUBLISH",
    "X-WR-CALNAME:" + "Українські Язичницькі Свята",
    "X-WR-TIMEZONE:Europe/Kiev",
    "X-WR-CALDESC:" + "Календар українських язичницьких свят"]

  /** `UID:event-${id}@ukrainian-calendar.app`. */
  function Uid(id: nat): string {
    "event-" + NatToString(id) + "@ukrainian-calendar.app"
  }

  /** Distinct events get distinct UIDs (section 3.8.4.7 of RFC 5545). */
  lemma UidInjective(a: nat, b: nat)
    requires Uid(a) == Uid(b)
    ensures a == b
  {
    var sa, sb := NatToString(a), NatToString(b);
    assert |sa| == |sb|;
    assert Uid(a)[6..6 + |sa|] == sa;
    assert Uid(b)[6..6 + |sb|] == sb;
    NatToStringInjective(a, b);
  }

  /** One event in the current year: the UID number, the day it falls on and the day after,
      the summary and the description. */
  datatype VEvent = VEvent(id: nat, start: Date, end: Date, summary: string, description: Option<string>)

  predicate ValidVEvent(v: VEvent) {
    Valid(v.start) && Valid(v.end)
  }

  /** `new Date(year, month - 1, day)` and the same with `day + 1`. */
  function ToVEvent(e: Event, year: int): (v: VEvent)
    ensures ValidVEvent(v)
    ensures v.id == e.id && v.summary == e.title && v.description == e.description
  {
    VEvent(e.id, MakeDate(year, e.month - 1, e.day), MakeDate(year, e.month - 1, e.day + 1),
           e.title, e.description)
  }

  /** The property values of one VEVENT block, as written after the property names. */
  datatype Fields = Fields(
    uid: string, stamp: string, start: string, end: string, summary: string, description: string)

  /** The values of an event's block; `stamp` is the DTSTAMP text. */
  function FieldsOf(v: VEvent, stamp: string): Fields
    requires ValidVEvent(v)
  {
    Fields(Uid(v.id), stamp, FormatDateOnly(v.start), FormatDateOnly(v.end), v.summary,
           EscapeDescription(v.description))
  }

  /** The values of every event's block, in input order. */
  function EventFields(events: seq<Event>, year: int, stamp: string): (r: seq<Fields>)
    ensures |r| == |events|
    ensures forall i :: 0 <= i < |events| ==> r[i] == FieldsOf(ToVEvent(events[i], year), stamp)
  {
    seq(|events|, i requires 0 <= i < |events| => FieldsOf(ToVEvent(events[i], year), stamp))
  }

  /** The eleven content lines of a VEVENT block around its property values. */
  function Block(f: Fields): (r: seq<string>)
    ensures |r| == 11
  {
    ["BEGIN:VEVENT",
     "UID:" + f.uid,
     "DTSTAMP:" + f.stamp,
     "DTSTART;VALUE=DATE:" + f.start,
     "DTEND;VALUE=DATE:" + f.end,
     "SUMMARY:" + f.summary,
     "DESCRIPTION:" + f.description,
     "STATUS:CONFIRMED",
     "TRANSP:TRANSPARENT",
     "RRULE:FREQ=YEARLY",
     "END:VEVENT"]
  }

  /** The blocks one after the other. */
  function Blocks(fs: seq<Fields>): (r: seq<string>)
    ensures |r| == 11 * |fs|
    ensures forall i :: 0 <= i < |fs| ==> r[11 * i..11 * i + 11] == Block(fs[i])
  {
    if fs == [] then []
    else
      var head, rest := Block(fs[0]), Blocks(fs[1..]);
      var r := head + rest;
      forall i | 0 <= i < |fs| ensures r[11 * i..11 * i + 11] == Block(fs[i]) {
        if i == 0 {
          assert r[..11] == head;
        } else {
          assert r[11 * i..11 * i + 11] == rest[11 * (i - 1)..11 * (i - 1) + 11];
          assert fs[i] == fs[1..][i - 1];
        }
      }
      r
  }

  /** The header, one block per event and the closing line. */
  function Document(fs: seq<Fields>): (r: seq<string>)
    ensures |r| == 8 + 11 * |fs| + 1
    ensures r[..8] == Header && r[|r| - 1] == "END:VCALENDAR"
    ensures forall i :: 0 <= i < |fs| ==> r[8 + 11 * i..8 + 11 * i + 11] == Block(fs[i])
  {
    var blocks := Blocks(fs);
    var r := Header + blocks + ["END:VCALENDAR"];
    forall i | 0 <= i < |fs| ensures r[8 + 11 * i..8 + 11 * i + 11] == Block(fs[i]) {
      assert r[8 + 11 * i..8 + 11 * i + 11] == blocks[11 * i..11 * i + 11];
    }
    r
  }

  /** The `lines` array of `generateICalendar`. */
  function CalendarLines(events: seq<Event>, year: int, stamp: Instant): seq<string>
    requires ValidInstant(stamp)
  {
    Document(EventFields(events, year, FormatStamp(stamp)))
  }

  /** `generateICalendar`: the lines joined with CRLF (section 3.1 of RFC 5545). */
  function GenerateICalendar(events: seq<Event>, year: int, stamp: Instant): (r: string)
    requires ValidInstant(stamp)
    ensures |r| >= 17 && r[..17] == "BEGIN:VCALENDAR\r\n"
  {
    JoinWith(CalendarLines(events, year, stamp), "\r\n")
  }

  /** The document has the eight header lines, eleven lines per event and the closing line;
      every block opens and closes its VEVENT, carries its event's UID and recurs yearly. */
  lemma EventBlockShape(events: seq<Event>, year: int, stamp: Instant, i: int)
    requires ValidInstant(stamp) && 0 <= i < |events|
    ensures var r := CalendarLines(events, year, stamp);
      && |r| == 8 + 11 * |events| + 1 && r[..8] == Header && r[|r| - 1] == "END:VCALENDAR"
      && r[8 + 11 * i] == "BEGIN:VEVENT" && r[8 + 11 * i + 10] == "END:VEVENT"
      && r[8 + 11 * i + 1] == "UID:" + Uid(events[i].id)
      && r[8 + 11 * i + 9] == "RRULE:FREQ=YEARLY"
  {
    var fs := EventFields(events, year, FormatStamp(stamp));
    DocumentShape(fs, i);
    assert fs[i].uid == Uid(events[i].id);
  }

  lemma DocumentShape(fs: seq<Fields>, i: int)
    requires 0 <= i < |fs|
    ensures var r := Document(fs);
      && r[8 + 11 * i] == "BEGIN:VEVENT" && r[8 + 11 * i + 10] == "END:VEVENT"
      && r[8 + 11 * i + 1] == "UID:" + fs[i].uid
      && r[8 + 11 * i + 9] == "RRULE:FREQ=YEARLY"
  {
    var r, block := Document(fs), Block(fs[i]);
    assert r[8 + 11 * i..8 + 11 * i + 11] == block;
    assert r[8 + 11 * i] == block[0] && r[8 + 11 * i + 1] == block[1];
    assert r[8 + 11 * i + 9] == block[9] && r[8 + 11 * i + 10] == block[10];
  }

  /** For a real calendar day, DTSTART is that day and DTEND the next one, across month and
      year ends: an all-day event ends on the following date (section 3.6.1 of RFC 5545). */
  lemma EventSpansOneDay(e: Event, year: int)
    requires !(0 <= year <= 99) && Valid(Date(year, e.month, e.day))
    ensures ToVEvent(e, year).start == Date(year, e.month, e.day)
    ensures ToVEvent(e, year).end == NextDay(Date(year, e.month, e.day))
  {
    MakeDateOfValid(Date(year, e.month, e.day));
    MakeDateNextDay(Date(year, e.month, e.day));
  }

  /** In any year past 99, an event on 31 December ends on 1 January of the next year, one on
      the last day of another month ends on the first of the next month, and one on 29 February
      of a common year starts on 1 March. */
  lemma DateRollovers(e: Event, year: int)
    requires !(0 <= year <= 99)
    ensures e.day == 31 && e.month == 12 ==> ToVEvent(e, year).end == Date(year + 1, 1, 1)
    ensures 1 <= e.month < 12 && e.day == DaysInMonth(year, e.month) ==>
      ToVEvent(e, year).end == Date(year, e.month + 1, 1)
    ensures e.day == 29 && e.month == 2 && !IsLeap(year) ==> ToVEvent(e, year).start == Date(year, 3, 1)
  {
    if 1 <= e.month <= 12 && 1 <= e.day <= DaysInMonth(year, e.month) {
      EventSpansOneDay(e, year);
    }
    if e.day == 29 && e.month == 2 && !IsLeap(year) {
      MakeDateLeapDayOfCommonYear(year);
    }
  }

  /** The same rollovers as DTSTART and DTEND texts, in 2025. */
  lemma DateRolloversIn2025(stamp: string)
    ensures FieldsOf(ToVEvent(Event(1, 31, 12, "", None, None, None, true), 2025), stamp).end == "20260101"
    ensures FieldsOf(ToVEvent(Event(1, 29, 2, "", None, None, None, true), 2025), stamp).start == "20250301"
  {
    EventSpansOneDay(Event(1, 31, 12, "", None, None, None, true), 2025);
    assert NextDay(Date(2025, 12, 31)) == Date(2026, 1, 1);
    MakeDateLeapDayOfCommonYear(2025);
    DateTexts();
  }

  lemma DateTexts()
    ensures FormatDateOnly(Date(2026, 1, 1)) == "20260101"
    ensures FormatDateOnly(Date(2025, 3, 1)) == "20250301"
  {
    assert Pad2(1) == "01" && Pad2(3) == "03";
    assert IntToString(2026) == "2026" && IntToString(2025) == "2025";
  }

  // ---------------------------------------------------------------------------
  // Reading the document back
  // ---------------------------------------------------------------------------

  /** The lines of the document are read back by splitting it on CRLF, provided no title or
      description carries a carriage return. */
  lemma ICalendarReadsBack(events: seq<Event>, year: int, stamp: Instant)
    requires ValidInstant(stamp)
    requires forall i :: 0 <= i < |events| ==>
      '\r' !in events[i].title && '\r' !in events[i].description.GetOr("")
    ensures SplitOn(GenerateICalendar(events, year, stamp), "\r\n") == CalendarLines(events, year, stamp)
  {
    var text := FormatStamp(stamp);
    var fs := EventFields(events, year, text);
    StampSafe(stamp);
    forall i | 0 <= i < |fs| ensures SafeFields(fs[i]) {
      FieldsOfSafe(ToVEvent(events[i], year), text);
    }
    DocumentReadsBack(fs);
  }

  /** No property value carries a carriage return. */
  predicate SafeFields(f: Fields) {
    && '\r' !in f.uid && '\r' !in f.stamp && '\r' !in f.start && '\r' !in f.end
    && '\r' !in f.summary && '\r' !in f.description
  }

  lemma DocumentReadsBack(fs: seq<Fields>)
    requires forall i :: 0 <= i < |fs| ==> SafeFields(fs[i])
    ensures SplitOn(JoinWith(Document(fs), "\r\n"), "\r\n") == Document(fs)
  {
    var lines := Document(fs);
    forall j | 0 <= j < |lines| ensures '\r' !in lines[j] {
      if j < 8 {
        assert lines[j] == lines[..8][j] == Header[j];
        HeaderSafe(j);
      } else if j < |lines| - 1 {
        var i := (j - 8) / 11;
        DocumentBlockLineSafe(fs, i, j - 8 - 11 * i);
      }
    }
    SplitOnJoinWith(lines, "\r\n");
  }

  /** No line of an event block of the document carries a carriage return. */
  lemma DocumentBlockLineSafe(fs: seq<Fields>, i: int, k: int)
    requires 0 <= i < |fs| && 0 <= k < 11 && SafeFields(fs[i])
    ensures '\r' !in Document(fs)[8 + 11 * i + k]
  {
    var lines := Document(fs);
    assert lines[8 + 11 * i + k] == lines[8 + 11 * i..8 + 11 * i + 11][k];
    BlockSafe(fs[i], k);
  }

  /** No header line carries a carriage return. */
  lemma HeaderSafe(j: int)
    requires 0 <= j < |Header|
    ensures '\r' !in Header[j]
  {
    if j < 2 {
      HeaderStartSafe(j);
    } else if j < 5 {
      HeaderMiddleSafe(j);
    } else {
      HeaderNamesSafe(j);
    }
  }

  lemma HeaderStartSafe(j: int)
    requires 0 <= j < 2
    ensures '\r' !in Header[j]
  {
  }

  lemma HeaderMiddleSafe(j: int)
    requires 2 <= j < 5
    ensures '\r' !in Header[j]
  {
  }

  lemma HeaderNamesSafe(j: int)
    requires 5 <= j < 8
    ensures '\r' !in Header[j]
  {
    if j == 5 {
      CalendarNameSafe();
      AppendNoReturn("X-WR-CALNAME:", "Українські Язичницькі Свята");
    } else if j == 7 {
      CalendarDescriptionSafe();
      AppendNoReturn("X-WR-CALDESC:", "Календар українських язичницьких свят");
    }
  }

  lemma CalendarNameSafe()
    ensures '\r' !in "Українські Язичницькі Свята"
  {
  }

  lemma CalendarDescriptionSafe()
    ensures '\r' !in "Календар українських язичницьких свят"
  {
  }

  lemma AppendNoReturn(a: string, b: string)
    requires '\r' !in a && '\r' !in b
    ensures '\r' !in a + b
  {
  }

  lemma BlockSafe(f: Fields, k: int)
    requires 0 <= k < 11 && SafeFields(f)
    ensures '\r' !in Block(f)[k]
  {
  }

  /** The values of an event carry no carriage return when its summary and description do not. */
  lemma FieldsOfSafe(v: VEvent, stamp: string)
    requires ValidVEvent(v) && '\r' !in stamp
    requires '\r' !in v.summary && '\r' !in v.description.GetOr("")
    ensures SafeFields(FieldsOf(v, stamp))
  {
    UidSafe(v.id);
    DateLineSafe(v.start);
    DateLineSafe(v.end);
    DescriptionSafe(v.description);
  }

  /** Digits never contain a carriage return. */
  lemma DigitsLineSafe(s: string)
    requires forall i :: 0 <= i < |s| ==> IsDigit(s[i])
    ensures '\r' !in s
  {
  }

  lemma DateLineSafe(d: Date)
    requires Valid(d)
    ensures '\r' !in FormatDateOnly(d)
  {
    DateTextChars(d);
  }

  lemma ClockLineSafe(t: Instant)
    requires ValidInstant(t)
    ensures '\r' !in ClockText(t)
  {
    var h, m, sec := Pad2(t.hour), Pad2(t.minute), Pad2(t.second);
    DigitsLineSafe(h);
    DigitsLineSafe(m);
    DigitsLineSafe(sec);
    assert ClockText(t) == h + m + sec;
  }

  lemma UidSafe(id: nat)
    ensures '\r' !in Uid(id)
  {
    var digits := NatToString(id);
    DigitsLineSafe(digits);
    assert Uid(id) == "event-" + digits + "@ukrainian-calendar.app";
  }

  lemma StampSafe(t: Instant)
    requires ValidInstant(t)
    ensures '\r' !in FormatStamp(t)
  {
    DateLineSafe(t.date);
    ClockLineSafe(t);
  }

  lemma DescriptionSafe(description: Option<string>)
    requires '\r' !in description.GetOr("")
    ensures '\r' !in EscapeDescription(description)
  {
    var d := description.GetOr("");
    EscapeIsCharMap(d);
    EscapedLineSafe(d);
    assert EscapeDescription(description) == EscapeDescription(Some(d));
  }

  // ---------------------------------------------------------------------------
  // Google Calendar link
  // ---------------------------------------------------------------------------

  const RenderUrl := "https://calendar.google.com/calendar/render"

  /** The link as its base and the query parameters, in order. */
  datatype Link = Link(base: string, params: seq<(string, string)>)

  /** The `dates` parameter: the start day and the day after it, slash-separated. */
  function LinkDates(day: int, month: int, year: int): string {
    FormatDateOnly(MakeDate(year, month - 1, day)) + "/" + FormatDateOnly(MakeDate(year, month - 1, day + 1))
  }

  /** `generateGoogleCalendarLink(title, description, {day, month})` for the current `year`. */
  function CalendarLink(title: string, description: string, day: int, month: int, year: int): (r: Link)
    ensures r.base == RenderUrl && |r.params| == 5
    ensures forall i, j :: 0 <= i < j < |r.params| ==> r.params[i].0 != r.params[j].0
  {
    Link(RenderUrl,
         [("action", "TEMPLATE"), ("text", title), ("details", description),
          ("dates", LinkDates(day, month, year)), ("ctz", "Europe/Kiev")])
  }

  /** The `dates` parameter names the day and the day after. */
  lemma LinkSpansOneDay(d: Date)
    requires Valid(d) && 1000 <= d.year <= 9999
    ensures Split(LinkDates(d.day, d.month, d.year), '/') == [FormatDateOnly(d), FormatDateOnly(NextDay(d))]
  {
    MakeDateOfValid(d);
    MakeDateNextDay(d);
    DateSlashFree(d);
    DateSlashFree(NextDay(d));
    SplitTwo(FormatDateOnly(d), FormatDateOnly(NextDay(d)), '/');
  }

  /** A date text is digits with at most a leading minus sign, so it has no slash. */
  lemma DateSlashFree(d: Date)
    requires Valid(d)
    ensures '/' !in FormatDateOnly(d)
  {
    DateTextChars(d);
  }

  /** `URLSearchParams.get(name)`: the value of the first parameter with that name. */
  function Param(params: seq<(string, string)>, name: string): (r: Option<string>)
    ensures r.Some? <==> exists i :: 0 <= i < |params| && params[i].0 == name
    ensures r.Some? ==> (name, r.value) in params
  {
    if params == [] then None
    else if params[0].0 == name then Some(params[0].1)
    else Param(params[1..], name)
  }

  /** A reader of the link gets back, by name, the template action, the title as `text`, the
      description as `details` and the Kyiv time zone, and the `dates` value splits at its
      slash into the event's day and the day after. */
  lemma LinkReadsBack(title: string, description: string, d: Date)
    requires Valid(d) && 1000 <= d.year <= 9999
    ensures var link := CalendarLink(title, description, d.day, d.month, d.year);
      && link.base == RenderUrl
      && Param(link.params, "action") == Some("TEMPLATE")
      && Param(link.params, "text") == Some(title)
      && Param(link.params, "details") == Some(description)
      && Param(link.params, "ctz") == Some("Europe/Kiev")
      && Param(link.params, "dates").Some?
      && Split(Param(link.params, "dates").value, '/') == [FormatDateOnly(d), FormatDateOnly(NextDay(d))]
  {
    var dates := LinkDates(d.day, d.month, d.year);
    ParamsOfLink(title, description, dates);
    LinkSpansOneDay(d);
  }

  /** Looking up each of the five names in the link's parameter list. */
  lemma ParamsOfLink(title: string, description: string, dates: string)
    ensures var ps := [("action", "TEMPLATE"), ("text", title), ("details", description),
                       ("dates", dates), ("ctz", "Europe/Kiev")];
      && Param(ps, "action") == Some("TEMPLATE") && Param(ps, "text") == Some(title)
      && Param(ps, "details") == Some(description) && Param(ps, "dates") == Some(dates)
      && Param(ps, "ctz") == Some("Europe/Kiev")
  {
    var p4 := [("ctz", "Europe/Kiev")];
    var p3 := [("dates", dates)] + p4;
    var p2 := [("details", description)] + p3;
    var p1 := [("text", title)] + p2;
    var ps := [("action", "TEMPLATE")] + p1;
    assert ps == [("action", "TEMPLATE"), ("text", title), ("details", description),
                  ("dates", dates), ("ctz", "Europe/Kiev")];
    ParamFirst(ps, "action");
    ParamSkip(ps, "text");
    ParamFirst(p1, "text");
    ParamSkip(ps, "details");
    ParamSkip(p1, "details");
    ParamFirst(p2, "details");
    ParamSkip(ps, "dates");
    ParamSkip(p1, "dates");
    ParamSkip(p2, "dates");
    ParamFirst(p3, "dates");
    ParamSkip(ps, "ctz");
    ParamSkip(p1, "ctz");
    ParamSkip(p2, "ctz");
    ParamSkip(p3, "ctz");
    ParamFirst(p4, "ctz");
  }

  /** The lookup stops at a first parameter with the name. */
  lemma ParamFirst(ps: seq<(string, string)>, name: string)
    requires ps != [] && ps[0].0 == name
    ensures Param(ps, name) == Some(ps[0].1)
  {
  }

  /** The lookup passes over a first parameter with another name. */
  lemma ParamSkip(ps: seq<(string, string)>, name: string)
    requires ps != [] && ps[0].0 != name
    ensures Param(ps, name) == Param(ps[1..], name)
  {
  }
}

=== FILE: notification_routes.dfy ===
/** The routes under `/api/notifications`: device registration and the notification
    preferences of a device. The statements of a request run one after the other without a
    transaction, so a statement that throws keeps what the earlier ones wrote. */
module NotificationRoutes {
  import opened Wrappers
  import opened Collections
  import opened Store
  import Push

  // ---------------------------------------------------------------------------
  // POST /register
  // ---------------------------------------------------------------------------

  /** The body of POST `/register`; `None` is a field sent as null or left out. */
  datatype Registration = Registration(
    fcmToken: Option<string>, platform: Option<string>, appVersion: Option<string>)

  /** The statement of a registration that throws, if any: the token lookup, the device
      update or insert, or the insert of the default preferences. */
  datatype RegisterFault = NoFault | LookupFails | WriteFails | PreferenceFails

  /** The body names a token and a platform. */
  predicate Complete(req: Registration) {
    TruthyText(req.fcmToken) && TruthyText(req.platform)
  }

  /** `SET is_active = true, last_active_at = CURRENT_TIMESTAMP, app_version = $1` on the rows
      with that token; the version is replaced even by null. */
  function Reactivate(token: string, appVersion: Option<string>, now: int): Device -> Device {
    (d: Device) => if d.token == token then d.(active := true, lastActive := now, appVersion := appVersion) else d
  }

  /** The row `INSERT INTO user_preferences (device_token_id)` creates: notifications on, no
      time, not synced. */
  function DefaultPreference(id: nat, deviceId: nat, now: int): Preference {
    Preference(id, deviceId, true, None, false, now)
  }

  /** POST `/register`: 400 without a token or a platform; a known token is reactivated and
      its first row's id returned; an unknown one gets a new active device row and a default
      preference row. `now` is the database clock. */
  function Register(db: Db, req: Registration, now: int, fault: RegisterFault): (r: (Reply<nat>, Db))
    ensures r.0.Ok? || r.0.BadRequest? || r.0.ServerError?
    ensures r.0.BadRequest? <==> !Complete(req)
    ensures r.0.BadRequest? ==> r.1 == db
    ensures Complete(req) && HasToken(db, req.fcmToken.value) ==>
      (r.0.ServerError? <==> fault == LookupFails || fault == WriteFails)
    ensures Complete(req) && !HasToken(db, req.fcmToken.value) ==> (r.0.ServerError? <==> fault != NoFault)
    ensures r.0.ServerError? && fault != PreferenceFails ==> r.1 == db
    ensures r.0.Ok? && HasToken(db, req.fcmToken.value) ==>
      && r.1 == db.(devices := r.1.devices) && |r.1.devices| == |db.devices|
      && exists k :: 0 <= k < |db.devices| && db.devices[k].token == req.fcmToken.value && r.0.value == db.devices[k].id
    ensures r.0.Ok? && !HasToken(db, req.fcmToken.value) ==>
      && r.0.value == db.nextDeviceId
      && r.1.devices == db.devices + [Device(db.nextDeviceId, req.fcmToken.value, req.platform.value,
                                              req.appVersion, true, now)]
      && r.1.prefs == db.prefs + [DefaultPreference(db.nextPrefId, db.nextDeviceId, now)]
      && r.1 == db.(devices := r.1.devices, prefs := r.1.prefs, nextDeviceId := db.nextDeviceId + 1,
                    nextPrefId := db.nextPrefId + 1)
  {
    if !Complete(req) then (BadRequest, db)
    else if fault == LookupFails then (ServerError, db)
    else
      var token := req.fcmToken.value;
      match TokenIndex(db.devices, token)
      case Some(k) =>
        if fault == WriteFails then (ServerError, db)
        else (Ok(db.devices[k].id), db.(devices := Map(db.devices, Reactivate(token, req.appVersion, now))))
      case None =>
        if fault == WriteFails then (ServerError, db)
        else
          var d := Device(db.nextDeviceId, token, req.platform.value, req.appVersion, true, now);
          var withDevice := db.(devices := db.devices + [d], nextDeviceId := db.nextDeviceId + 1);
          if fault == PreferenceFails then (ServerError, withDevice)
          else
            assert fault == NoFault;
            (Ok(d.id), withDevice.(prefs := db.prefs + [DefaultPreference(db.nextPrefId, d.id, now)],
                                   nextPrefId := db.nextPrefId + 1))
  }

  /** Registering a known token again makes its rows active, stamps them with `now` and the
      sent version, keeps their id and platform, and changes no other device or preference. */
  lemma ReRegisterReactivates(db: Db, req: Registration, now: int, i: int)
    requires Complete(req) && HasToken(db, req.fcmToken.value) && 0 <= i < |db.devices|
    ensures var (d, d') := (db.devices[i], Register(db, req, now, NoFault).1.devices[i]);
      && (d.token == req.fcmToken.value ==>
            d' == Device(d.id, d.token, d.platform, req.appVersion, true, now))
      && (d.token != req.fcmToken.value ==> d' == d)
  {
  }

  /** Registrations never give two device rows the same token, nor two rows the same id. */
  lemma RegisterPreservesWf(db: Db, req: Registration, now: int, fault: RegisterFault)
    requires Wf(db)
    ensures Wf(Register(db, req, now, fault).1)
  {
    var (reply, db') := Register(db, req, now, fault);
    if Complete(req) && fault != LookupFails && fault != WriteFails {
      var token := req.fcmToken.value;
      if HasToken(db, token) {
        forall i | 0 <= i < |db.devices|
          ensures db'.devices[i].id == db.devices[i].id && db'.devices[i].token == db.devices[i].token
        {
          ReRegisterReactivates(db, req, now, i);
        }
      } else {
        AppendDeviceWf(db, db'.devices[|db.devices|]);
        if fault == NoFault {
          assert forall j :: 0 <= j < |db.prefs| ==> db'.prefs[j] == db.prefs[j];
        }
      }
    }
  }

  /** A device with a fresh id and a fresh token can be appended. */
  lemma AppendDeviceWf(db: Db, d: Device)
    requires DevicesWf(db) && d.id == db.nextDeviceId && !HasToken(db, d.token)
    ensures DevicesWf(db.(devices := db.devices + [d], nextDeviceId := db.nextDeviceId + 1))
  {
    var devices := db.devices + [d];
    assert forall i :: 0 <= i < |db.devices| ==> devices[i] == db.devices[i];
  }

  /** A newly registered device receives the daily notifications: its default preference row
      has them enabled. */
  lemma NewDeviceIsRecipient(db: Db, req: Registration, now: int)
    requires Complete(req) && !HasToken(db, req.fcmToken.value)
    ensures req.fcmToken.value in Push.Recipients(Register(db, req, now, NoFault).1)
  {
    var db' := Register(db, req, now, NoFault).1;
    var k := |db.devices|;
    assert db'.devices[k].token == req.fcmToken.value && db'.devices[k].active;
    assert db'.prefs[|db.prefs|].deviceId == db'.devices[k].id && db'.prefs[|db.prefs|].enabled;
    Push.RecipientsExactly(db'.devices, db'.prefs, req.fcmToken.value);
  }

  /** When the preference insert throws, the new device stays behind without preferences, and
      the inner join keeps it from ever being notified. */
  lemma OrphanedDeviceIsNoRecipient(db: Db, req: Registration, now: int)
    requires Wf(db) && Complete(req) && !HasToken(db, req.fcmToken.value)
    requires forall j :: 0 <= j < |db.prefs| ==> db.prefs[j].deviceId != db.nextDeviceId
    ensures var db' := Register(db, req, now, PreferenceFails).1;
      HasToken(db', req.fcmToken.value) && req.fcmToken.value !in Push.Recipients(db')
  {
    var db' := Register(db, req, now, PreferenceFails).1;
    var k := |db.devices|;
    RegisterPreservesWf(db, req, now, PreferenceFails);
    assert db'.devices[k].token == req.fcmToken.value;
    Push.NoPreferenceNoDelivery(db', k);
  }

  /** Registering the same body twice at the same time leaves the store as registering it
      once. */
  lemma RegisterTwice(db: Db, req: Registration, now: int)
    requires Complete(req)
    ensures var db' := Register(db, req, now, NoFault).1;
      Register(db', req, now, NoFault).1 == db'
  {
    var db' := Register(db, req, now, NoFault).1;
    var token := req.fcmToken.value;
    var db'' := Register(db', req, now, NoFault).1;
    var k := TokenIndex(db'.devices, token);
    assert k.Some? by {
      if !HasToken(db, token) {
        assert db'.devices[|db.devices|].token == token;
      }
    }
    forall i | 0 <= i < |db'.devices| ensures db''.devices[i] == db'.devices[i] {
      ReRegisterReactivates(db', req, now, i);
      if HasToken(db, token) && i < |db.devices| {
        ReRegisterReactivates(db, req, now, i);
      }
    }
  }

  // ---------------------------------------------------------------------------
  // PUT /preferences
  // ---------------------------------------------------------------------------

  /** The body of PUT `/preferences`; `None` is a field sent as null or left out. */
  datatype PreferencePatch = PreferencePatch(
    fcmToken: Option<string>, enabled: Option<bool>, time: Option<string>, synced: Option<bool>)

  /** The `SET` list of the update on the preference rows of device `deviceId`. */
  function PatchPrefs(deviceId: nat, req: PreferencePatch, now: int): Preference -> Preference {
    (p: Preference) =>
      if p.deviceId == deviceId then
        p.(enabled := Coalesce(req.enabled, p.enabled), time := CoalesceNull(req.time, p.time),
           calendarSynced := Coalesce(req.synced, p.calendarSynced), updatedAt := now)
      else p
  }

  function OfDevice(deviceId: nat): Preference -> bool {
    (p: Preference) => p.deviceId == deviceId
  }

  /** PUT `/preferences`: 400 without a token, 404 for an unknown token; otherwise the
      preference rows of the token's (first) device are updated and the first of them is
      returned, or nothing when the device has none. */
  function UpdatePreferences(db: Db, req: PreferencePatch, now: int, fails: bool)
    : (r: (Reply<Option<Preference>>, Db))
    ensures r.0.Ok? || r.0.BadRequest? || r.0.NotFound? || r.0.ServerError?
    ensures r.0.BadRequest? <==> !TruthyText(req.fcmToken)
    ensures r.0.ServerError? <==> TruthyText(req.fcmToken) && fails
    ensures r.0.NotFound? <==> TruthyText(req.fcmToken) && !fails && !HasToken(db, req.fcmToken.value)
    ensures !r.0.Ok? ==> r.1 == db
    ensures r.0.Ok? ==> r.1 == db.(prefs := r.1.prefs) && |r.1.prefs| == |db.prefs|
  {
    if !TruthyText(req.fcmToken) then (BadRequest, db)
    else if fails then (ServerError, db)
    else
      match TokenIndex(db.devices, req.fcmToken.value)
      case None => (NotFound, db)
      case Some(k) =>
        var deviceId := db.devices[k].id;
        var prefs := Map(db.prefs, PatchPrefs(deviceId, req, now));
        var first := FirstIndex(prefs, OfDevice(deviceId));
        (Ok(if first.Some? then Some(prefs[first.value]) else None), db.(prefs := prefs))
  }

  /** The update keeps every field sent as null or left out, takes every field that is given,
      and changes only the preference rows of the device carrying the token. */
  lemma PreferencesCoalesce(db: Db, req: PreferencePatch, now: int, j: int)
    requires DevicesWf(db) && TruthyText(req.fcmToken) && 0 <= j < |db.prefs|
    ensures var (p, p') := (db.prefs[j], UpdatePreferences(db, req, now, false).1.prefs[j]);
      if exists i :: 0 <= i < |db.devices| && db.devices[i].token == req.fcmToken.value &&
                     db.devices[i].id == p.deviceId
      then
        && p'.id == p.id && p'.deviceId == p.deviceId && p'.updatedAt == now
        && p'.enabled == (if req.enabled.Some? then req.enabled.value else p.enabled)
        && p'.time == (if req.time.Some? then req.time else p.time)
        && p'.calendarSynced == (if req.synced.Some? then req.synced.value else p.calendarSynced)
      else p' == p
  {
    var token := req.fcmToken.value;
    match TokenIndex(db.devices, token)
    case None =>
    case Some(k) =>
      forall i | 0 <= i < |db.devices| && db.devices[i].token == token ensures i == k {
      }
  }

  lemma UpdatePreferencesPreservesWf(db: Db, req: PreferencePatch, now: int, fails: bool)
    requires Wf(db)
    ensures Wf(UpdatePreferences(db, req, now, fails).1)
  {
    var (reply, db') := UpdatePreferences(db, req, now, fails);
    if reply.Ok? {
      forall j | 0 <= j < |db.prefs| ensures db'.prefs[j].id == db.prefs[j].id {
        PreferencesCoalesce(db, req, now, j);
      }
    }
  }

  // ---------------------------------------------------------------------------
  // GET /preferences/:fcmToken
  // ---------------------------------------------------------------------------

  /** The join condition `up.device_token_id = dt.id AND dt.fcm_token = $1`. */
  function JoinsToken(devices: seq<Device>, token: string): Preference -> bool {
    (p: Preference) => exists i :: 0 <= i < |devices| && devices[i].id == p.deviceId && devices[i].token == token
  }

  /** GET `/preferences/:fcmToken`: the first preference row joined to a device with that
      token, 404 when there is none. */
  function GetPreferences(db: Db, token: string, fails: bool): (r: Reply<Preference>)
    ensures r.Ok? || r.NotFound? || r.ServerError?
    ensures r.ServerError? <==> fails
    ensures r.NotFound? <==> !fails && forall j :: 0 <= j < |db.prefs| ==> !JoinsToken(db.devices, token)(db.prefs[j])
    ensures r.Ok? ==> r.value in db.prefs && JoinsToken(db.devices, token)(r.value)
  {
    if fails then ServerError
    else
      match FirstIndex(db.prefs, JoinsToken(db.devices, token))
      case None => NotFound
      case Some(j) => Ok(db.prefs[j])
  }

  /** Reading the preferences after an update returns the row the update answered with. */
  lemma UpdateThenGet(db: Db, req: PreferencePatch, now: int)
    requires DevicesWf(db)
    requires UpdatePreferences(db, req, now, false).0.Ok?
    ensures var (reply, db') := UpdatePreferences(db, req, now, false);
      match reply.value
      case Some(p) => GetPreferences(db', req.fcmToken.value, false) == Ok(p)
      case None => GetPreferences(db', req.fcmToken.value, false).NotFound?
  {
    var (reply, db') := UpdatePreferences(db, req, now, false);
    var token := req.fcmToken.value;
    var k := TokenIndex(db.devices, token).value;
    var deviceId := db.devices[k].id;
    var joins, own := JoinsToken(db.devices, token), OfDevice(deviceId);
    assert db'.devices == db.devices;
    forall j | 0 <= j < |db'.prefs| ensures joins(db'.prefs[j]) <==> own(db'.prefs[j]) {
      if joins(db'.prefs[j]) {
        var i :| 0 <= i < |db.devices| && db.devices[i].id == db'.prefs[j].deviceId &&
                 db.devices[i].token == token;
        assert i == k;
      }
    }
    match FirstIndex(db'.prefs, own)
    case Some(j) => FirstIndexIs(db'.prefs, joins, j);
    case None =>
  }
}

=== FILE: push.dfy ===
/** The push-notification service: recipient resolution, the one batched gateway call, and
    the per-event dispatch that appends a delivery record. The Firebase messaging service is
    an abstract gateway; database statement failures are explicit fault flags. */
module Push {
  import opened Wrappers
  import opened Text
  import opened Gregorian
  import opened Collections
  import opened Store

  /** A message: the visible `notification: {title, body}` and the string map `data`. */
  datatype Payload = Payload(title: string, body: string, data: seq<(string, string)>)

  /** The answer of a multicast send: per-token counts, or a thrown error. */
  datatype MulticastReply = Delivered(successCount: nat, failureCount: nat) | Threw

  /** The messaging gateway. `initialised` is the outcome of loading the service-account
      credentials at start-up; `send` is false when a single send throws. */
  datatype Gateway = Gateway(
    initialised: bool,
    multicast: (seq<string>, Payload) -> MulticastReply,
    send: (string, Payload) -> bool)

  datatype Counts = Counts(success: nat, failed: nat)

  /** The counts `sendNotificationToAll` reports, with the token list of the multicast call it
      made (`None`: it made no call). */
  datatype Fanout = Fanout(counts: Counts, batch: Option<seq<string>>)

  /** Which database statements fail in a run. Sets hold the event ids whose lookup, token
      query or record insert throws. */
  datatype Faults = Faults(
    matchQuery: bool, eventLookup: set<nat>, tokenQuery: set<nat>, recordInsert: set<nat>)

  const NoFaults := Faults(false, {}, {}, {})

  /** `sendPushNotification`: one message to one token. */
  function SendPush(gw: Gateway, token: string, title: string, body: string,
                    data: seq<(string, string)>): (r: bool)
    ensures !gw.initialised ==> !r
    ensures gw.initialised ==> (r <==> gw.send(token, Payload(title, body, data)))
  {
    gw.initialised && gw.send(token, Payload(title, body, data))
  }

  // ---------------------------------------------------------------------------
  // Recipients
  // ---------------------------------------------------------------------------

  /** Some preference row of device `d` has notifications enabled. */
  predicate EnabledFor(prefs: seq<Preference>, d: Device) {
    exists j :: 0 <= j < |prefs| && prefs[j].deviceId == d.id && prefs[j].enabled
  }

  /** The join condition for device `d` with the `notifications_enabled` filter. */
  function Enables(d: Device): Preference -> bool {
    (p: Preference) => p.deviceId == d.id && p.enabled
  }

  /** The rows the inner join gives for one device: its token once per enabled preference row. */
  function JoinedTokens(d: Device, prefs: seq<Preference>): (r: seq<string>)
    ensures r != [] <==> d.active && EnabledFor(prefs, d)
    ensures forall k :: 0 <= k < |r| ==> r[k] == d.token
  {
    if !d.active then []
    else
      var matched := Filter(prefs, Enables(d));
      forall j | 0 <= j < |prefs| && prefs[j].deviceId == d.id && prefs[j].enabled
        ensures matched != []
      {
        assert multiset(prefs)[prefs[j]] > 0;
      }
      seq(|matched|, k => d.token)
  }

  /** `SELECT dt.fcm_token FROM device_tokens dt JOIN user_preferences up ON dt.id =
      up.device_token_id WHERE dt.is_active AND up.notifications_enabled`, device by device. */
  function RecipientsOf(devices: seq<Device>, prefs: seq<Preference>): seq<string> {
    if devices == [] then [] else JoinedTokens(devices[0], prefs) + RecipientsOf(devices[1..], prefs)
  }

  function Recipients(db: Db): seq<string> {
    RecipientsOf(db.devices, db.prefs)
  }

  /** A token is a recipient exactly when an active device carries it and that device has a
      preference row with notifications enabled. */
  lemma {:induction false} RecipientsExactly(devices: seq<Device>, prefs: seq<Preference>, t: string)
    ensures t in RecipientsOf(devices, prefs) <==>
      exists i :: 0 <= i < |devices| && devices[i].token == t && devices[i].active
                  && EnabledFor(prefs, devices[i])
  {
    if devices != [] {
      RecipientsExactly(devices[1..], prefs, t);
      var head := JoinedTokens(devices[0], prefs);
      if head != [] {
        assert head[0] == devices[0].token;
      }
      assert t in head <==> head != [] && devices[0].token == t;
      assert forall i :: 1 <= i < |devices| ==> devices[i] == devices[1..][i - 1];
      if t in RecipientsOf(devices[1..], prefs) {
        var i :| 0 <= i < |devices[1..]| && devices[1..][i].token == t && devices[1..][i].active
                 && EnabledFor(prefs, devices[1..][i]);
        assert devices[i + 1] == devices[1..][i];
      }
    }
  }

  /** A device without a preference row never receives a notification (the join is inner). */
  lemma NoPreferenceNoDelivery(db: Db, i: int)
    requires DevicesWf(db) && 0 <= i < |db.devices|
    requires forall j :: 0 <= j < |db.prefs| ==> db.prefs[j].deviceId != db.devices[i].id
    ensures db.devices[i].token !in Recipients(db)
  {
    RecipientsExactly(db.devices, db.prefs, db.devices[i].token);
    forall k | 0 <= k < |db.devices| && db.devices[k].token == db.devices[i].token
      ensures !EnabledFor(db.prefs, db.devices[k])
    {
      assert k == i;
    }
  }

  // ---------------------------------------------------------------------------
  // Fan-out
  // ---------------------------------------------------------------------------

  /** `sendNotificationToAll`: nothing when the gateway is not initialised; otherwise one
      multicast call with every recipient token, unless there are none. A failing token query
      or a throwing gateway reports zero counts. */
  function SendToAll(gw: Gateway, db: Db, queryFails: bool, payload: Payload): (r: Fanout)
    ensures r.batch.None? ==> r.counts == Counts(0, 0)
    ensures !gw.initialised || queryFails || Recipients(db) == [] ==> r.batch.None?
    ensures gw.initialised && !queryFails && Recipients(db) != [] ==> r.batch == Some(Recipients(db))
    ensures r.batch.Some? ==>
      r.counts == match gw.multicast(r.batch.value, payload)
                  case Delivered(s, f) => Counts(s, f)
                  case Threw => Counts(0, 0)
  {
    if !gw.initialised || queryFails then Fanout(Counts(0, 0), None)
    else
      var tokens := Recipients(db);
      if tokens == [] then Fanout(Counts(0, 0), None)
      else
        match gw.multicast(tokens, payload)
        case Delivered(s, f) => Fanout(Counts(s, f), Some(tokens))
        case Threw => Fanout(Counts(0, 0), Some(tokens))
  }

  // ---------------------------------------------------------------------------
  // Per-event dispatch
  // ---------------------------------------------------------------------------

  /** The message for an event: the title, "Сьогодні D.MM - title" with only the month padded,
      and the data map with the id, the unpadded "D.M" date and the type. */
  function EventPayload(e: Event, eventId: nat): (r: Payload)
    ensures r.title == e.title
    ensures |r.data| == 3 && r.data[2] == ("type", "event_reminder")
    ensures [r.data[0].0, r.data[1].0] == ["eventId", "date"]
    ensures |r.body| >= |e.title| && r.body[|r.body| - |e.title|..] == e.title
  {
    var body := "Сьогодні " + IntToString(e.day) + "." + PadStart(IntToString(e.month), 2, '0') + " - " + e.title;
    assert body[|body| - |e.title|..] == e.title;
    Payload(
      e.title,
      body,
      [("eventId", NatToString(eventId)),
       ("date", IntToString(e.day) + "." + IntToString(e.month)),
       ("type", "event_reminder")])
  }

  /** The body reads back as "Сьогодні ", the day written without padding, a dot, the month
      as two digits, " - " and the title; the data date writes neither part padded. */
  lemma PayloadPadsOnlyMonth(e: Event, eventId: nat)
    requires e.day >= 0 && 1 <= e.month <= 12
    ensures var body := EventPayload(e, eventId).body;
      var n := |"Сьогодні "| + |NatToString(e.day)|;
      && |body| == n + 6 + |e.title|
      && body[..|"Сьогодні "|] == "Сьогодні "
      && body[|"Сьогодні "|..n] == NatToString(e.day)
      && body[n] == '.'
      && AllDigits(body[n + 1..n + 3]) && DigitsValue(body[n + 1..n + 3]) == e.month
      && body[n + 3..] == " - " + e.title
    ensures EventPayload(e, eventId).data[1].1 == NatToString(e.day) + "." + NatToString(e.month)
  {
    var prefix, day, month := "Сьогодні ", NatToString(e.day), Pad2(e.month);
    var body := prefix + day + "." + month + " - " + e.title;
    assert EventPayload(e, eventId).body == body;
    var n := |prefix| + |day|;
    assert body[..|prefix|] == prefix;
    assert body[|prefix|..n] == day;
    assert body[n + 1..n + 3] == month;
    assert body[n + 3..] == " - " + e.title;
    Pad2RoundTrip(e.month);
  }

  /** The data map can be read back: the id and the "D.M" date give the event id, day and month. */
  lemma PayloadDataRoundTrip(e: Event, eventId: nat)
    requires e.day >= 0 && e.month >= 0
    ensures var data := EventPayload(e, eventId).data;
      && data[0].0 == "eventId" && DigitsValue(data[0].1) == eventId
      && data[1].0 == "date" && |Split(data[1].1, '.')| == 2
      && DigitsValue(Split(data[1].1, '.')[0]) == e.day
      && DigitsValue(Split(data[1].1, '.')[1]) == e.month
  {
    NatToStringRoundTrip(eventId);
    NatToStringRoundTrip(e.day);
    NatToStringRoundTrip(e.month);
    var a, b := NatToString(e.day), NatToString(e.month);
    SplitTwo(a, b, '.');
  }

  /** What happened to one event: its lookup failed, no row has its id, or its message was
      fanned out and (unless the insert failed) recorded. */
  datatype Dispatch = LookupFailed | NoSuchEvent | Notified(payload: Payload, fanout: Fanout, recorded: bool)

  /** `result.success > 0 ? 'sent' : 'failed'`. */
  function StatusOf(f: Fanout): Status {
    if f.counts.success > 0 then Sent else Failed
  }

  /** Everything `sendEventNotification` decides, before it writes: the lookup (whether the
      event is active or not), the message and the fan-out. */
  function Outcome(gw: Gateway, faults: Faults, db: Db, eventId: nat): (r: Dispatch)
    ensures r.LookupFailed? <==> eventId in faults.eventLookup
    ensures r.NoSuchEvent? <==>
      eventId !in faults.eventLookup && forall i :: 0 <= i < |db.events| ==> db.events[i].id != eventId
    ensures r.Notified? ==> r.recorded == (eventId !in faults.recordInsert)
    ensures r.Notified? ==>
      exists i :: 0 <= i < |db.events| && db.events[i].id == eventId && r.payload == EventPayload(db.events[i], eventId)
  {
    if eventId in faults.eventLookup then LookupFailed
    else
      match FirstIndex(db.events, (e: Event) => e.id == eventId)
      case None => NoSuchEvent
      case Some(k) =>
        var payload := EventPayload(db.events[k], eventId);
        Notified(payload, SendToAll(gw, db, eventId in faults.tokenQuery, payload),
                 eventId !in faults.recordInsert)
  }

  /** The `notifications` rows a dispatch inserts, dated `today` and stamped `now`. */
  function RecordsOf(d: Dispatch, eventId: nat, today: Date, now: int): seq<Record> {
    if d.Notified? && d.recorded then [Record(eventId, today, now, StatusOf(d.fanout))] else []
  }

  /** `sendEventNotification(eventId)`: the outcome and the store with its record appended.
      Every failure is caught. */
  function SendEventNotification(gw: Gateway, faults: Faults, db: Db, eventId: nat,
                                 today: Date, now: int): (r: (Dispatch, Db))
    ensures r.1 == db.(records := r.1.records)
    ensures |r.1.records| == |db.records| + (if r.0.Notified? && r.0.recorded then 1 else 0)
    ensures r.1.records[..|db.records|] == db.records
  {
    var d := Outcome(gw, faults, db, eventId);
    (d, db.(records := db.records + RecordsOf(d, eventId, today, now)))
  }

  /** The dispatch outcome: a failed lookup, an unknown id, or a fan-out of the event's message
      followed by a record of its status unless the insert fails. */
  lemma DispatchOutcome(gw: Gateway, faults: Faults, db: Db, eventId: nat, today: Date, now: int)
    ensures var r := SendEventNotification(gw, faults, db, eventId, today, now);
      && (r.0.LookupFailed? <==> eventId in faults.eventLookup)
      && (r.0.NoSuchEvent? <==>
            eventId !in faults.eventLookup && forall k :: 0 <= k < |db.events| ==> db.events[k].id != eventId)
      && (r.0.Notified? ==>
            && (exists k :: 0 <= k < |db.events| && db.events[k].id == eventId
                            && r.0.payload == EventPayload(db.events[k], eventId))
            && r.0.fanout == SendToAll(gw, db, eventId in faults.tokenQuery, r.0.payload)
            && (r.0.recorded <==> eventId !in faults.recordInsert))
      && (r.0.Notified? && r.0.recorded ==>
            r.1.records[|db.records|] == Record(eventId, today, now, StatusOf(r.0.fanout)))
  {
  }

  /** A recorded dispatch is `sent` exactly when the gateway reported a success. */
  lemma RecordStatusIffSuccess(gw: Gateway, faults: Faults, db: Db, eventId: nat, today: Date, now: int)
    requires var r := SendEventNotification(gw, faults, db, eventId, today, now);
             r.0.Notified? && r.0.recorded
    ensures var r := SendEventNotification(gw, faults, db, eventId, today, now);
            r.1.records[|db.records|].status == Sent <==> r.0.fanout.counts.success > 0
  {
  }

  /** Without credentials nothing is sent, and a recorded dispatch is `failed`. */
  lemma UninitialisedGatewayRecordsFailure(gw: Gateway, faults: Faults, db: Db, eventId: nat,
                                           today: Date, now: int)
    requires !gw.initialised
    ensures var r := SendEventNotification(gw, faults, db, eventId, today, now);
            r.0.Notified? ==> r.0.fanout == Fanout(Counts(0, 0), None)
    ensures var r := SendEventNotification(gw, faults, db, eventId, today, now);
            r.0.Notified? && r.0.recorded ==> r.1.records[|db.records|].status == Failed
  {
  }

  /** The dispatch reads only events, devices and preferences: earlier delivery records do not
      change what it decides. */
  lemma OutcomeIgnoresRecords(gw: Gateway, faults: Faults, db: Db, db': Db, eventId: nat)
    requires db' == db.(records := db'.records)
    ensures Outcome(gw, faults, db', eventId) == Outcome(gw, faults, db, eventId)
  {
    assert db'.events == db.events;
    assert Recipients(db') == Recipients(db);
    SendToAllReadsRecipients(gw, db, db', eventId in faults.tokenQuery);
  }

  /** The fan-out reads the store only through its recipients. */
  lemma SendToAllReadsRecipients(gw: Gateway, db: Db, db': Db, queryFails: bool)
    requires Recipients(db') == Recipients(db)
    ensures forall payload :: SendToAll(gw, db', queryFails, payload) == SendToAll(gw, db, queryFails, payload)
  {
  }
}

=== FILE: store.dfy ===
/** The relational store behind the backend, held in memory: one sequence of rows per table,
    in insertion order, plus the next value of each table's `SERIAL` id sequence. */
module Store {
  import opened Wrappers
  import opened Gregorian

  /** A row of `events`: a holiday recurring every year on (`day`, `month`). */
  datatype Event = Event(
    id: nat, day: int, month: int, title: string,
    description: Option<string>, traditions: Option<string>, preparation: Option<string>,
    active: bool)

  /** A row of `event_images`. */
  datatype Image = Image(id: nat, eventId: int, url: string, title: string, order: int)

  /** A row of `device_tokens`: one registered push address. `lastActive` is a timestamp in seconds. */
  datatype Device = Device(
    id: nat, token: string, platform: string, appVersion: Option<string>,
    active: bool, lastActive: int)

  /** A row of `user_preferences`, linked to a device by `deviceId`. */
  datatype Preference = Preference(
    id: nat, deviceId: nat, enabled: bool, time: Option<string>, calendarSynced: bool,
    updatedAt: int)

  datatype Status = Sent | Failed

  /** A row of `notifications`: one dispatch attempt for an event on a calendar day. */
  datatype Record = Record(eventId: nat, date: Date, sentAt: int, status: Status)

  datatype Db = Db(
    events: seq<Event>, images: seq<Image>, devices: seq<Device>, prefs: seq<Preference>,
    records: seq<Record>,
    nextEventId: nat, nextImageId: nat, nextDeviceId: nat, nextPrefId: nat)

  /** The HTTP answer of a route handler. */
  datatype Reply<T> = Ok(value: T) | Created(value: T) | BadRequest | NotFound | ServerError {
    function Code(): nat {
      match this
      case Ok(_) => 200
      case Created(_) => 201
      case BadRequest => 400
      case NotFound => 404
      case ServerError => 500
    }
  }

  // ---------------------------------------------------------------------------
  // Request values
  // ---------------------------------------------------------------------------

  /** JavaScript truthiness of an optional number in a request body: absent, null and 0 are
      falsy. */
  predicate TruthyInt(v: Option<int>) {
    v.Some? && v.value != 0
  }

  /** JavaScript truthiness of an optional string: absent, null and "" are falsy. */
  predicate TruthyText(v: Option<string>) {
    v.Some? && v.value != ""
  }

  /** `COALESCE($n, column)` on a NOT NULL column: `None` is a parameter sent as null or left
      out, which keeps the stored value. */
  function Coalesce<T>(given: Option<T>, stored: T): T {
    if given.Some? then given.value else stored
  }

  /** `COALESCE($n, column)` on a nullable column: a null argument cannot clear it. */
  function CoalesceNull<T>(given: Option<T>, stored: Option<T>): Option<T> {
    if given.Some? then given else stored
  }

  // ---------------------------------------------------------------------------
  // Constraints the database keeps
  // ---------------------------------------------------------------------------

  /** Event ids are distinct and below the sequence; (day, month) is unique, which the
      `ON CONFLICT (date_day, date_month)` upserts rely on. */
  predicate EventsWf(db: Db) {
    && (forall i, j :: 0 <= i < j < |db.events| ==> db.events[i].id != db.events[j].id)
    && (forall i :: 0 <= i < |db.events| ==> db.events[i].id < db.nextEventId)
    && (forall i, j :: 0 <= i < j < |db.events| ==>
          (db.events[i].day, db.events[i].month) != (db.events[j].day, db.events[j].month))
  }

  predicate ImagesWf(db: Db) {
    && (forall i, j :: 0 <= i < j < |db.images| ==> db.images[i].id != db.images[j].id)
    && (forall i :: 0 <= i < |db.images| ==> db.images[i].id < db.nextImageId)
  }

  /** Device ids and push tokens are both distinct. */
  predicate DevicesWf(db: Db) {
    && (forall i, j :: 0 <= i < j < |db.devices| ==> db.devices[i].id != db.devices[j].id)
    && (forall i :: 0 <= i < |db.devices| ==> db.devices[i].id < db.nextDeviceId)
    && (forall i, j :: 0 <= i < j < |db.devices| ==> db.devices[i].token != db.devices[j].token)
  }

  predicate PrefsWf(db: Db) {
    && (forall i, j :: 0 <= i < j < |db.prefs| ==> db.prefs[i].id != db.prefs[j].id)
    && (forall i :: 0 <= i < |db.prefs| ==> db.prefs[i].id < db.nextPrefId)
  }

  predicate Wf(db: Db) {
    EventsWf(db) && ImagesWf(db) && DevicesWf(db) && PrefsWf(db)
  }

  /** Replacing the event table by one that keeps its own constraints keeps the store's. */
  lemma WfWithEvents(db: Db, events: seq<Event>, nextEventId: nat)
    requires Wf(db) && EventsWf(db.(events := events, nextEventId := nextEventId))
    ensures Wf(db.(events := events, nextEventId := nextEventId))
  {
  }

  /** Replacing the image table by one that keeps its own constraints keeps the store's. */
  lemma WfWithImages(db: Db, images: seq<Image>, nextImageId: nat)
    requires Wf(db) && ImagesWf(db.(images := images, nextImageId := nextImageId))
    ensures Wf(db.(images := images, nextImageId := nextImageId))
  {
  }

  // ---------------------------------------------------------------------------
  // Lookups
  // ---------------------------------------------------------------------------

  /** Some device row carries `token`. */
  predicate HasToken(db: Db, token: string) {
    exists i :: 0 <= i < |db.devices| && db.devices[i].token == token
  }

  /** The position of the first device row carrying `token` (what `rows[0]` reads). */
  function TokenIndex(devices: seq<Device>, token: string): (r: Option<nat>)
    ensures r.Some? ==> r.value < |devices| && devices[r.value].token == token
    ensures r.Some? ==> forall j :: 0 <= j < r.value ==> devices[j].token != token
    ensures r.None? <==> forall j :: 0 <= j < |devices| ==> devices[j].token != token
  {
    if devices == [] then None
    else if devices[0].token == token then Some(0)
    else
      var r := TokenIndex(devices[1..], token);
      assert forall j :: 1 <= j < |devices| ==> devices[j] == devices[1..][j - 1];
      if r.None? then None else Some(r.value + 1)
  }
}

=== FILE: text.dfy ===
/** String helpers shared by the backend and the data-preparation scripts.

    Strings are sequences of Unicode scalar values, which is what both Python `str`
    and JavaScript strings (outside the astral planes) index by. */
module Text {
  import opened Wrappers

  // ---------------------------------------------------------------------------
  // Character classes
  // ---------------------------------------------------------------------------

  /** Python's `str.isspace()`: the set `str.strip()` removes and the regex class `\s` matches. */
  predicate IsSpace(c: char) {
    var n := c as int;
    n == 32 || 9 <= n <= 13 || 28 <= n <= 31 || n == 0x85 || n == 0xA0 || n == 0x1680
    || 0x2000 <= n <= 0x200A || n == 0x2028 || n == 0x2029 || n == 0x202F || n == 0x205F
    || n == 0x3000
  }

  /** An ASCII decimal digit. */
  predicate IsDigit(c: char) {
    '0' <= c <= '9'
  }

  /** The regex class `\w` restricted to ASCII and the Cyrillic block. */
  predicate IsWordChar(c: char) {
    var n := c as int;
    IsDigit(c) || 'a' <= c <= 'z' || 'A' <= c <= 'Z' || c == '_'
    || 0x400 <= n <= 0x481 || 0x48A <= n <= 0x4FF
  }

  /** Python `str.isdigit()` on ASCII: non-empty and every character a digit. */
  predicate AllDigits(s: string) {
    |s| > 0 && forall i :: 0 <= i < |s| ==> IsDigit(s[i])
  }

  /** Lower-casing of one character: ASCII and the upper-case Cyrillic letters. */
  function LowerChar(c: char): char {
    var n := c as int;
    if 65 <= n <= 90 || 0x410 <= n <= 0x42F then (n + 32) as char
    else if 0x400 <= n <= 0x40F then (n + 80) as char
    else if (0x460 <= n <= 0x481 || 0x48A <= n <= 0x4BF) && n % 2 == 0 then (n + 1) as char
    else c
  }

  /** Python `str.lower()` / JavaScript `toLowerCase()`, character by character. */
  function Lower(s: string): (r: string)
    ensures |r| == |s|
    ensures forall i :: 0 <= i < |s| ==> r[i] == LowerChar(s[i])
  {
    seq(|s|, i requires 0 <= i < |s| => LowerChar(s[i]))
  }

  // ---------------------------------------------------------------------------
  // Trimming
  // ---------------------------------------------------------------------------

  /** Drops the longest prefix whose characters all satisfy `p`. */
  function DropWhile(s: string, p: char -> bool): (r: string)
    ensures |r| <= |s| && r == s[|s| - |r|..]
    ensures r == [] || !p(r[0])
    ensures forall i :: 0 <= i < |s| - |r| ==> p(s[i])
  {
    if |s| > 0 && p(s[0]) then
      var r := DropWhile(s[1..], p);
      assert forall i :: 1 <= i < |s| - |r| ==> s[i] == s[1..][i - 1];
      r
    else s
  }

  /** Drops the longest suffix whose characters all satisfy `p`. */
  function DropLastWhile(s: string, p: char -> bool): (r: string)
    ensures |r| <= |s| && r == s[..|r|]
    ensures r == [] || !p(r[|r| - 1])
    ensures forall i :: |r| <= i < |s| ==> p(s[i])
  {
    if |s| > 0 && p(s[|s| - 1]) then DropLastWhile(s[..|s| - 1], p) else s
  }

  /** Python `str.strip()`. */
  function Strip(s: string): string {
    DropLastWhile(DropWhile(s, IsSpace), IsSpace)
  }

  /** Python `str.strip(q)` for a one-character argument. */
  function StripChar(s: string, q: char): string {
    DropLastWhile(DropWhile(s, ch => ch == q), ch => ch == q)
  }

  /** Neither end of `s` is a whitespace character. */
  predicate Trimmed(s: string) {
    s == [] || (!IsSpace(s[0]) && !IsSpace(s[|s| - 1]))
  }

  lemma StripTrimmed(s: string)
    ensures Trimmed(Strip(s))
  {
    var a := DropWhile(s, IsSpace);
    var b := DropLastWhile(a, IsSpace);
    if b != [] {
      assert b[0] == a[0];
    }
  }

  lemma StripOfTrimmed(s: string)
    requires Trimmed(s)
    ensures Strip(s) == s
  {
  }

  lemma StripCharAbsent(s: string, q: char)
    requires q !in s
    ensures StripChar(s, q) == s
  {
  }

  /** Neither end of `s` is `q`. */
  predicate Unquoted(s: string, q: char) {
    s == [] || (s[0] != q && s[|s| - 1] != q)
  }

  lemma StripCharUnquoted(s: string, q: char)
    ensures Unquoted(StripChar(s, q), q)
  {
    var a := DropWhile(s, ch => ch == q);
    var b := DropLastWhile(a, ch => ch == q);
    if b != [] {
      assert b[0] == a[0];
    }
  }

  lemma StripCharOfUnquoted(s: string, q: char)
    requires Unquoted(s, q)
    ensures StripChar(s, q) == s
  {
  }

  // ---------------------------------------------------------------------------
  // Substring search
  // ---------------------------------------------------------------------------

  /** `p` occurs in `s` starting at position `i`. */
  predicate OccursAt(s: string, p: string, i: nat) {
    i + |p| <= |s| && s[i..i + |p|] == p
  }

  /** The first occurrence of `p` in `s` at or after `i`. */
  function IndexOfFrom(s: string, p: string, i: nat): (r: Option<nat>)
    decreases |s| - i
    ensures r.Some? ==> i <= r.value && OccursAt(s, p, r.value)
    ensures r.Some? ==> forall j: nat :: i <= j < r.value ==> !OccursAt(s, p, j)
    ensures r.None? ==> forall j: nat :: i <= j ==> !OccursAt(s, p, j)
  {
    if i + |p| > |s| then None
    else if s[i..i + |p|] == p then Some(i)
    else IndexOfFrom(s, p, i + 1)
  }

  /** Python `str.find` (None for -1) and JavaScript `indexOf`. */
  function IndexOf(s: string, p: string): Option<nat> {
    IndexOfFrom(s, p, 0)
  }

  /** The position of the last `c` in `s` (JavaScript `lastIndexOf` of one character). */
  function LastIndex(s: string, c: char): (r: Option<nat>)
    ensures r.Some? ==> r.value < |s| && s[r.value] == c && c !in s[r.value + 1..]
    ensures r.None? <==> c !in s
  {
    if s == [] then None
    else if s[|s| - 1] == c then Some(|s| - 1)
    else
      var init := s[..|s| - 1];
      var r := LastIndex(init, c);
      assert s == init + [s[|s| - 1]];
      if r.Some? then
        assert s[r.value + 1..] == init[r.value + 1..] + [s[|s| - 1]];
        r
      else r
  }

  /** Python `p in s`; JavaScript `s.includes(p)` and an unanchored regex alternative. */
  predicate Contains(s: string, p: string) {
    IndexOf(s, p).Some?
  }

  lemma ContainsIff(s: string, p: string)
    ensures Contains(s, p) <==> exists i: nat :: OccursAt(s, p, i)
  {
  }

  lemma ContainsAt(s: string, p: string, i: nat)
    requires OccursAt(s, p, i)
    ensures Contains(s, p)
  {
  }

  /** A pattern with a character that `s` lacks does not occur in `s`. */
  lemma AbsentCharNotContained(s: string, p: string, i: int)
    requires 0 <= i < |p| && p[i] !in s
    ensures !Contains(s, p)
  {
  }

  /** An occurrence inside `a` is an occurrence inside `a + b`. */
  lemma ContainsLeft(a: string, b: string, p: string)
    requires Contains(a, p)
    ensures Contains(a + b, p)
  {
    var i := IndexOf(a, p).value;
    assert (a + b)[i..i + |p|] == a[i..i + |p|];
    ContainsAt(a + b, p, i);
  }

  /** An occurrence inside a slice is an occurrence inside the whole string. */
  lemma ContainsSlice(s: string, i: int, j: int, p: string)
    requires 0 <= i <= j <= |s| && Contains(s[i..j], p)
    ensures Contains(s, p)
  {
    var t := s[i..j];
    var k := IndexOf(t, p).value;
    assert OccursAt(t, p, k);
    var u := s[i + k..i + k + |p|];
    forall m | 0 <= m < |p| ensures u[m] == p[m] {
      assert u[m] == t[k + m] == t[k..k + |p|][m];
    }
    assert u == p;
    ContainsAt(s, p, i + k);
  }

  /** The text before the first occurrence of `p` holds none. */
  lemma BeforeFirstOccurrence(s: string, p: string)
    requires |p| > 0 && Contains(s, p)
    ensures !Contains(s[..IndexOf(s, p).value], p)
  {
    var k := IndexOf(s, p).value;
    if Contains(s[..k], p) {
      var j := IndexOf(s[..k], p).value;
      assert s[..k][j..j + |p|] == s[j..j + |p|];
      assert OccursAt(s, p, j);
    }
  }

  /** Stripping whitespace cannot create an occurrence. */
  lemma StripNotContained(s: string, p: string)
    requires !Contains(s, p)
    ensures !Contains(Strip(s), p)
  {
    var a := DropWhile(s, IsSpace);
    var b := Strip(s);
    assert b == a[..|b|];
    assert a[..|b|] == s[|s| - |a|..|s| - |a| + |b|];
    if Contains(b, p) {
      ContainsSlice(s, |s| - |a|, |s| - |a| + |b|, p);
    }
  }

  /** Appending text that lacks the last character of `p` cannot create an occurrence. */
  lemma AppendNotContained(a: string, b: string, p: string)
    requires |p| > 0 && p[|p| - 1] !in b && !Contains(a, p)
    ensures !Contains(a + b, p)
  {
    if Contains(a + b, p) {
      var i := IndexOf(a + b, p).value;
      if i + |p| <= |a| {
        assert (a + b)[i..i + |p|] == a[i..i + |p|];
        ContainsAt(a, p, i);
      }
    }
  }

  // ---------------------------------------------------------------------------
  // Padding and decimal numbers
  // ---------------------------------------------------------------------------

  function Repeat(c: char, n: nat): (r: string)
    ensures |r| == n && forall i :: 0 <= i < n ==> r[i] == c
  {
    seq(n, _ => c)
  }

  /** JavaScript `s.padStart(width, c)` for a one-character filler. */
  function PadStart(s: string, width: nat, c: char): (r: string)
    ensures |r| == if |s| >= width then |s| else width
  {
    if |s| >= width then s else Repeat(c, width - |s|) + s
  }

  /** Python `str.zfill(width)`: zeros go after a leading sign. */
  function ZFill(s: string, width: nat): (r: string)
    ensures |r| == if |s| >= width then |s| else width
  {
    if |s| >= width then s
    else if |s| > 0 && (s[0] == '+' || s[0] == '-') then [s[0]] + Repeat('0', width - |s|) + s[1..]
    else Repeat('0', width - |s|) + s
  }

  lemma ZFillDigits(s: string, width: nat)
    requires AllDigits(s)
    ensures AllDigits(ZFill(s, width))
    ensures |s| >= width ==> ZFill(s, width) == s
  {
  }

  function DigitChar(d: nat): (c: char)
    requires d < 10
    ensures IsDigit(c)
  {
    ('0' as int + d) as char
  }

  function DigitValue(c: char): nat
    requires IsDigit(c)
  {
    c as int - '0' as int
  }

  /** Decimal text of a natural number, as JavaScript `String(n)` and Python `str(n)` give it. */
  function NatToString(n: nat): (r: string)
    ensures AllDigits(r)
    ensures |r| == 1 || r[0] != '0'
    ensures n < 10 ==> |r| == 1
    ensures 10 <= n < 100 ==> |r| == 2
  {
    if n < 10 then [DigitChar(n)] else NatToString(n / 10) + [DigitChar(n % 10)]
  }

  lemma AllDigitsConcat(a: string, b: string)
    ensures AllDigits(a) && AllDigits(b) ==> AllDigits(a + b)
  {
  }

  /** A non-negative number's text is all digits; a negative one's is a minus and digits. */
  lemma IntToStringChars(n: int)
    ensures n >= 0 ==> AllDigits(IntToString(n))
    ensures forall i :: 0 <= i < |IntToString(n)| ==> IsDigit(IntToString(n)[i]) || IntToString(n)[i] == '-'
  {
  }

  /** Four-digit numbers have four-character texts. */
  lemma FourDigits(n: int)
    ensures 1000 <= n < 10000 ==> |IntToString(n)| == 4
  {
    if 1000 <= n < 10000 {
      assert |NatToString(n / 10)| == 3 by {
        assert |NatToString(n / 100)| == 2;
      }
    }
  }

  /** Decimal text of an integer: a minus sign for negative values. */
  function IntToString(n: int): string {
    if n < 0 then "-" + NatToString(-n) else NatToString(n)
  }

  /** The value of a string of digits (Python `int(s)` on such a string). */
  function DigitsValue(s: string): nat
    requires forall i :: 0 <= i < |s| ==> IsDigit(s[i])
  {
    if s == [] then 0 else DigitsValue(s[..|s| - 1]) * 10 + DigitValue(s[|s| - 1])
  }

  lemma {:induction false} NatToStringRoundTrip(n: nat)
    ensures DigitsValue(NatToString(n)) == n
  {
    if n >= 10 {
      var s := NatToString(n / 10) + [DigitChar(n % 10)];
      assert s[..|s| - 1] == NatToString(n / 10);
      NatToStringRoundTrip(n / 10);
    }
  }

  lemma NatToStringInjective(a: nat, b: nat)
    requires NatToString(a) == NatToString(b)
    ensures a == b
  {
    NatToStringRoundTrip(a);
    NatToStringRoundTrip(b);
  }

  lemma DigitsValueLeadingZeros(z: nat, s: string)
    requires forall i :: 0 <= i < |s| ==> IsDigit(s[i])
    ensures DigitsValue(Repeat('0', z) + s) == DigitsValue(s)
    decreases |s|
  {
    if s == [] {
      DigitsValueZeros(z);
      assert Repeat('0', z) + s == Repeat('0', z);
    } else {
      var t := Repeat('0', z) + s;
      assert t[..|t| - 1] == Repeat('0', z) + s[..|s| - 1];
      DigitsValueLeadingZeros(z, s[..|s| - 1]);
    }
  }

  lemma DigitsValueZeros(z: nat)
    ensures DigitsValue(Repeat('0', z)) == 0
  {
    if z > 0 {
      assert Repeat('0', z)[..z - 1] == Repeat('0', z - 1);
      DigitsValueZeros(z - 1);
    }
  }

  /** Two-digit zero padding, `String(n).padStart(2, '0')` in JavaScript and `%02d` in Python. */
  function Pad2(n: nat): (r: string)
    ensures AllDigits(r)
    ensures n < 100 ==> |r| == 2
  {
    PadStart(NatToString(n), 2, '0')
  }

  /** Two-digit padding is reversible: the value is read back from the padded text. */
  lemma Pad2RoundTrip(n: nat)
    ensures DigitsValue(Pad2(n)) == n
  {
    var s := NatToString(n);
    NatToStringRoundTrip(n);
    if |s| < 2 {
      DigitsValueLeadingZeros(2 - |s|, s);
    }
  }

  lemma Pad2Injective(a: nat, b: nat)
    requires Pad2(a) == Pad2(b)
    ensures a == b
  {
    Pad2RoundTrip(a);
    Pad2RoundTrip(b);
  }

  // ---------------------------------------------------------------------------
  // Splitting, joining and replacing
  // ---------------------------------------------------------------------------

  /** Inverse of `Split`: the pieces glued back with the separator. */
  function Join(pieces: seq<string>, sep: char): string {
    if pieces == [] then ""
    else if |pieces| == 1 then pieces[0]
    else pieces[0] + [sep] + Join(pieces[1..], sep)
  }

  /** Python `s.split(sep)` for a one-character separator. */
  function Split(s: string, sep: char): (r: seq<string>)
    ensures |r| >= 1
    ensures forall k :: 0 <= k < |r| ==> sep !in r[k]
    ensures Join(r, sep) == s
    decreases |s|
  {
    var i := IndexOf(s, [sep]);
    if i.None? then
      assert forall j :: 0 <= j < |s| ==> s[j] != sep by {
        forall j | 0 <= j < |s| ensures s[j] != sep {
          assert !OccursAt(s, [sep], j);
        }
      }
      [s]
    else
      var k := i.value;
      assert forall j :: 0 <= j < k ==> s[j] != sep by {
        forall j | 0 <= j < k ensures s[j] != sep {
          assert !OccursAt(s, [sep], j);
        }
      }
      var rest := Split(s[k + 1..], sep);
      assert s == s[..k] + [sep] + s[k + 1..];
      [s[..k]] + rest
  }

  /** Two pieces joined by a separator neither holds split back into those pieces. */
  lemma SplitTwo(a: string, b: string, sep: char)
    requires sep !in a && sep !in b
    ensures Split(a + [sep] + b, sep) == [a, b]
  {
    var s := a + [sep] + b;
    CharIndex(s, sep);
    var k := IndexOf(s, [sep]).value;
    assert OccursAt(s, [sep], |a|);
    assert forall j :: 0 <= j < |a| ==> s[j] == a[j];
    assert k == |a|;
    assert s[k + 1..] == b;
    CharIndex(b, sep);
    assert s[..k] == a;
  }

  /** The number of occurrences of `c` in `s`. */
  function CountChar(s: string, c: char): nat {
    if s == [] then 0 else (if s[0] == c then 1 else 0) + CountChar(s[1..], c)
  }

  lemma CountCharAppend(a: string, b: string, c: char)
    ensures CountChar(a + b, c) == CountChar(a, c) + CountChar(b, c)
  {
    if a != [] {
      assert (a + b)[0] == a[0];
      assert (a + b)[1..] == a[1..] + b;
      CountCharAppend(a[1..], b, c);
      assert CountChar(a + b, c) == (if a[0] == c then 1 else 0) + CountChar(a[1..] + b, c);
    } else {
      assert a + b == b;
    }
  }

  lemma CountCharAbsent(s: string, c: char)
    requires c !in s
    ensures CountChar(s, c) == 0
  {
    if s != [] {
      assert c !in s[1..];
      CountCharAbsent(s[1..], c);
    }
  }

  /** What the search for a one-character separator reveals about where it occurs. */
  lemma CharIndex(s: string, c: char)
    ensures IndexOf(s, [c]).None? ==> c !in s
    ensures IndexOf(s, [c]).Some? ==> var k := IndexOf(s, [c]).value; k < |s| && s[k] == c && c !in s[..k]
  {
    var i := IndexOf(s, [c]);
    if i.None? {
      forall j | 0 <= j < |s| ensures s[j] != c {
        assert !OccursAt(s, [c], j);
      }
    } else {
      var k := i.value;
      assert s[k..k + 1] == [c];
      forall j | 0 <= j < k ensures s[j] != c {
        assert !OccursAt(s, [c], j);
      }
    }
  }

  /** Splitting yields one more piece than there are separators. */
  lemma {:induction false} SplitCount(s: string, sep: char)
    ensures |Split(s, sep)| == CountChar(s, sep) + 1
    decreases |s|
  {
    var i := IndexOf(s, [sep]);
    CharIndex(s, sep);
    if i.None? {
      assert Split(s, sep) == [s];
      CountCharAbsent(s, sep);
    } else {
      var k := i.value;
      assert s == s[..k] + [sep] + s[k + 1..];
      CountCharAppend(s[..k] + [sep], s[k + 1..], sep);
      CountCharAppend(s[..k], [sep], sep);
      CountCharAbsent(s[..k], sep);
      assert CountChar([sep], sep) == 1;
      SplitCount(s[k + 1..], sep);
    }
  }

  /** A string that splits into two pieces holds the separator. */
  lemma TwoPiecesHaveSeparator(s: string, sep: char)
    requires |Split(s, sep)| == 2
    ensures sep in s
  {
    SplitCount(s, sep);
    if sep !in s {
      CountCharAbsent(s, sep);
    }
  }

  /** Python `s.replace(pat, rep)`: non-overlapping occurrences, left to right. */
  function ReplaceAll(s: string, pat: string, rep: string): string
    requires |pat| > 0
    decreases |s|
  {
    if |s| < |pat| then s
    else if s[..|pat|] == pat then rep + ReplaceAll(s[|pat|..], pat, rep)
    else [s[0]] + ReplaceAll(s[1..], pat, rep)
  }

  lemma ReplaceAllAbsent(s: string, pat: string, rep: string)
    requires |pat| > 0
    requires !Contains(s, pat)
    ensures ReplaceAll(s, pat, rep) == s
    decreases |s|
  {
    if |s| >= |pat| {
      assert !OccursAt(s, pat, 0);
      assert !Contains(s[1..], pat) by {
        if Contains(s[1..], pat) {
          var j := IndexOf(s[1..], pat).value;
          assert s[1..][j..j + |pat|] == s[j + 1..j + 1 + |pat|];
          assert OccursAt(s, pat, j + 1);
        }
      }
      ReplaceAllAbsent(s[1..], pat, rep);
    }
  }

  /** JavaScript `pieces.join(sep)` for a separator string. */
  function JoinWith(pieces: seq<string>, sep: string): string {
    if pieces == [] then ""
    else if |pieces| == 1 then pieces[0]
    else pieces[0] + sep + JoinWith(pieces[1..], sep)
  }

  /** Python `s.split(sep)` for a non-empty separator string. */
  function SplitOn(s: string, sep: string): (r: seq<string>)
    requires |sep| > 0
    ensures |r| >= 1
    decreases |s|
  {
    match IndexOf(s, sep)
    case None => [s]
    case Some(k) => [s[..k]] + SplitOn(s[k + |sep|..], sep)
  }

  /** Joining and splitting on the same separator are inverse when no piece holds the
      separator's first character. */
  lemma {:induction false} SplitOnJoinWith(pieces: seq<string>, sep: string)
    requires |sep| > 0 && |pieces| >= 1
    requires forall i :: 0 <= i < |pieces| ==> sep[0] !in pieces[i]
    ensures SplitOn(JoinWith(pieces, sep), sep) == pieces
    decreases |pieces|
  {
    var p := pieces[0];
    if |pieces| == 1 {
      forall j: nat | j + |sep| <= |p| ensures !OccursAt(p, sep, j) {
        assert p[j] != sep[0];
      }
    } else {
      var rest := JoinWith(pieces[1..], sep);
      var s := p + sep + rest;
      forall j: nat | j < |p| ensures !OccursAt(s, sep, j) {
        assert s[j] == p[j];
      }
      assert s[|p|..|p| + |sep|] == sep;
      assert OccursAt(s, sep, |p|);
      assert IndexOf(s, sep) == Some(|p|);
      assert s[..|p|] == p;
      assert s[|p| + |sep|..] == rest;
      SplitOnJoinWith(pieces[1..], sep);
    }
  }

  /** The first `n` elements, or all of them when there are fewer (SQL `LIMIT n`). */
  function Take<T>(s: seq<T>, n: nat): (r: seq<T>)
    ensures |r| <= n && |r| <= |s|
    ensures r == s[..|r|]
    ensures |s| <= n ==> r == s
  {
    if |s| <= n then s else s[..n]
  }
}

=== FILE: wrappers.dfy ===
/** The optional value used for SQL NULL, JavaScript `undefined` and Python `None`. */
module Wrappers {

  datatype Option<+T> = None | Some(value: T) {

    /** The carried value, or `default` when there is none (SQL `COALESCE(x, default)`). */
    function GetOr(default: T): T {
      match this
      case Some(v) => v
      case None => default
    }
  }
}
